=== FILE: README.md ===
# truyendownloader core in Dafny

This project models the core of truyendownloader. The program downloads
Vietnamese web novels from four kinds of site and packs each novel into an
EPUB. The sites are TruyenFull, TangThuVien, LaoPhatGia and self-hosted
WordPress blogs.

The model covers the logic that the program applies to text it has already
fetched:

- **site adapters** (`site_adapters.py`):
  - choosing the adapter for a URL;
  - turning a chapter URL into the story URL;
  - reading chapter and page numbers out of URLs;
  - assembling a story's chapter list from the AJAX option list or from the
    paginated chapter pages, with de-duplication and the stable sort by
    chapter number;
  - cleaning the whitespace of chapter text;
  - the WordPress adapter's indicator count, story id, chapter links, title
    trimming, password check and content blocks.
- **downloader** (`truyenfull_downloader.py`):
  - the chapter range;
  - the chapter file names and the file format written and read back;
  - the resume loop, which skips readable files, re-fetches unreadable ones
    and stops when the stop callback says so;
  - the skipped and downloaded counts;
  - the pieces of the EPUB: HTML escaping, paragraphs, cover extension and
    MIME type, the safe title, the fallback file name and the `.epub` name.

Each module follows one concern of the program:

| module | models |
|---|---|
| `Wrappers` | `Option` and `Result` |
| `Text` | Python string helpers: `strip`, `split`, `join`, `in`, `lower` |
| `Numbers` | `str(n)` and `f"{i:04d}"` with their read-back |
| `Urls` | `urlparse` and `urljoin` as the program uses them |
| `Ordinals` | the `re.search` ordinal extractors |
| `StableSort` | `list.sort(key=…)` |
| `ChapterLists` | the link filters and list merges |
| `StoryChapters` | each site's chapter list |
| `Sites` | `supports_url`, `detect_site`, `normalize_url` |
| `Cleanup` | the `re.sub` whitespace clean-up |
| `Words` | `' '.join(line.split())` |
| `WordPress` | indicator count and story id |
| `WordPressChapter` | the WordPress chapter list and chapter content |
| `ChapterFiles` | chapter range, file names, file format |
| `Download` | the download loop |
| `Markup` | EPUB escaping and paragraphs |
| `Epub` | cover and file names |

**Inputs the model takes as parameters.** These are the program's
side-effecting parts:

- the fetched pages, as an oracle from URL to page;
- what BeautifulSoup finds in a page: anchors, option tags, paragraph texts
  and the content element;
- the story directory, as a map from file name to file;
- the answers of the stop callback, as a sequence of booleans;
- the page a WordPress probe fetches;
- the character class `\w`, as a predicate.

## Model

| member | source | states |
|---|---|---|
| `Urls.ParseComposed` | site_adapters.py:119 | `urlparse` splits a URL built as `scheme://netloc` + path back into exactly that scheme, network location and path, so the base URL rebuilt from a story URL is its origin |
| `Urls.UrlJoin` | site_adapters.py:309 | An absolute reference is returned unchanged. A relative one ends with the reference and starts with the base. A root-relative one is the base followed by the reference. |
| `Numbers.Format04` | truyenfull_downloader.py:583 | `{idx:04d}`: four digits for 0..9999, the plain numeral from 10000 on, and a `-` followed by at least three digits for a negative number |
| `Numbers.Format04RoundTrip` | truyenfull_downloader.py:583 | reading the padded numeral back gives the number |
| `Numbers.Format04Injective` | truyenfull_downloader.py:583 | distinct numbers never share a padded numeral |
| `Ordinals.OrdinalWithoutMatch` | site_adapters.py:408-411 | a URL in which no alternative matches anywhere has ordinal 0 |
| `Ordinals.OrdinalOfFirstMatch` | site_adapters.py:1003-1009 | The ordinal is the value of the digits after the leftmost match, and at that position the first alternative that matches is the one read. The case is ignored. |
| `Ordinals.ChapterNumberOf` | site_adapters.py:617-620 | a URL with `/chuong-` + `str(n)` followed by a non-digit, and no earlier token, has chapter number n |
| `StableSort.SortBy` | site_adapters.py:156 | the sorted list is ordered by key, is a permutation of the input, and keeps the input order among equal keys |
| `StableSort.StableSortIsSortBy` | site_adapters.py:535 | any list ordered by key that keeps the input order among equal keys is exactly `SortBy` |
| `StableSort.SortUnique` | site_adapters.py:906 | two lists ordered by key with the same per-key subsequences are equal |
| `ChapterLists.AjaxOption` | site_adapters.py:303-318 | An option is dropped exactly when its stripped value is empty or "0", or its text is empty. A kept option yields one chapter titled by its text. A root-relative value is joined to the base; any other value becomes `base + story_path + "/" + value + "/"`. |
| `ChapterLists.OptionUrlAbsolute` | site_adapters.py:308-309 | a value starting with one `/` is resolved to `base + value` |
| `ChapterLists.PageChaptersEmpty` | site_adapters.py:342-372 | a page yields no chapters exactly when neither the list container nor the whole page holds an anchor whose href contains `/chuong-` or `/chapter-` |
| `ChapterLists.PageChapterUrls` | site_adapters.py:351-353 | every chapter taken from a page has a URL that still contains the chapter token |
| `ChapterLists.ResolveDistinctProperties` | site_adapters.py:363-370 | the de-duplicated list is the first occurrence of each URL, in order, and holds the same URLs as the full list |
| `ChapterLists.AppendNewIsFirstOccurrences` | site_adapters.py:334-338 | appending with the `existing_urls` set adds exactly the first occurrence of each URL not already present |
| `ChapterLists.MergePagesFresh` | site_adapters.py:329-338 | the chapters appended from later pages have pairwise distinct URLs, none of them on the first page |
| `ChapterLists.MergePagesCovers` | site_adapters.py:334-338 | every chapter of every fetched page has its URL in the merged list |
| `ChapterLists.PaginationCandidates` | site_adapters.py:383-398 | A URL is collected exactly when it resolves from a pagination-container link matching `/trang-N`, `/page-N` or `/p/N`, or from a "next" link with `/trang-` or `/page-`. Each URL is collected once. |
| `ChapterLists.PaginationLinks` | site_adapters.py:374-401 | The page links are those candidates, each once. They are sorted by page number, with equal page numbers in collection order. |
| `StoryChapters.PaginationChapters` | site_adapters.py:322-340 | the story page's own chapters come first, unchanged, and every chapter after them has a URL not seen before |
| `StoryChapters.TruyenFullChapters` | site_adapters.py:141-156 | the chapter list is the collected list sorted stably by chapter number |
| `StoryChapters.TruyenFullPrefersAjax` | site_adapters.py:141-147 | when some option survives the AJAX filter, the chapter list is the sorted AJAX list and the pagination pages play no part |
| `StoryChapters.TangThuVienUnsorted` | site_adapters.py:503-532 | the collected chapters have pairwise distinct URLs |
| `StoryChapters.TangThuVienChapters` | site_adapters.py:503-535 | the chapter list is the collected list sorted stably by chapter number, with distinct URLs |
| `StoryChapters.FirstContainerChapters` | site_adapters.py:864-880 | the fallback selectors yield nothing exactly when every container yields nothing, and otherwise the chapters of one container |
| `StoryChapters.LaoPhatGiaUnsorted` | site_adapters.py:839-903 | the collected chapters have pairwise distinct URLs |
| `StoryChapters.LaoPhatGiaChapters` | site_adapters.py:839-906 | the chapter list is the collected list sorted stably by the `/chuong-`, `/chap-`, `/chapter-` number, with distinct URLs |
| `Sites.WordPressSupports` | site_adapters.py:1029-1071 | the WordPress adapter accepts a URL exactly when its host contains `wordpress.com` or the probed page shows at least two indicators |
| `Sites.FirstAdapter` | site_adapters.py:1345-1354 | The adapter chosen is one that accepts, and no adapter registered before it accepts. None is chosen only when no adapter accepts. |
| `Sites.DetectSite` | site_adapters.py:1332-1356 | `detect_site` returns the first registered adapter that supports the URL, and None exactly when none does |
| `Sites.TruyenFullHostDetected` | site_adapters.py:1324-1329 | a URL whose host contains a TruyenFull domain goes to TruyenFull, whatever a probe would show |
| `Sites.SameDetection` | site_adapters.py:1345-1354 | when a domain-matched adapter accepts the URL, the probed page does not change the choice |
| `Sites.ProbeMattersLast` | site_adapters.py:1042-1063 | if two probes change the choice, no domain-matched adapter accepts the URL and one of the choices is WordPress |
| `Sites.NormalizeUrl` | site_adapters.py:95-110 | The URL is taken for a chapter URL exactly when the adapter's tokens occur in it and in its last path segment. Then a named site returns its scheme, host and every path segment but the last, with TruyenFull's trailing `/`. A WordPress URL is returned unchanged. The adapters' versions at lines 425-438, 634-647 and 1073-1111 are covered too. |
| `Sites.NormalizeChapterUrl` | site_adapters.py:425-438 | a chapter URL built from a story path and a chapter segment normalises back to that story's URL and is flagged as a chapter URL |
| `Cleanup.Normalize` | site_adapters.py:230-232 | After the three substitutions, no tab, no double space and no blank next to a newline remains. The non-blank characters are kept in order. |
| `Cleanup.CollapseSeparator` | site_adapters.py:230 | a run of blanks between two non-blank characters becomes exactly one space, and the text on either side is collapsed independently |
| `Cleanup.NormalizeTidy` | site_adapters.py:230-232 | text already in the cleaned shape is left unchanged by the substitutions |
| `Cleanup.CleanParagraph` | site_adapters.py:228-233 | a paragraph's cleaned text is tidy and has the same non-space characters in the same order |
| `Cleanup.CleanParagraphFixed` | site_adapters.py:228-233 | a tidy paragraph is its own cleaned text, so interior newlines and single spaces survive |
| `Cleanup.CleanParagraphIdempotent` | site_adapters.py:230-233 | cleaning a paragraph twice gives what cleaning once gives |
| `Cleanup.CleanText` | site_adapters.py:239-245 | The text of an element without `<p>` is cleaned to tidy text with at most two newlines in a row. The non-space characters are kept in order. |
| `Cleanup.CleanTextFixed` | site_adapters.py:241-245 | tidy text with no three newlines in a row is its own cleaned text |
| `Cleanup.CleanTextIdempotent` | site_adapters.py:241-245 | cleaning twice gives what cleaning once gives |
| `Cleanup.CapClears` | site_adapters.py:244 | after `\n{3,}` becomes `\n\n`, no three newlines in a row remain |
| `Cleanup.StripKeepsContent` | site_adapters.py:233 | `strip` removes whitespace only |
| `Cleanup.JoinTidy` | site_adapters.py:236 | tidy paragraphs joined with a blank line give tidy text |
| `Cleanup.CleanParagraphsContent` | site_adapters.py:224-235 | the paragraphs kept after cleaning hold all non-space characters of the paragraphs, in order; only blank paragraphs are dropped |
| `Cleanup.ParagraphTextContent` | site_adapters.py:224-236 | the joined chapter text holds exactly the paragraphs' non-space characters, in order |
| `Cleanup.ChapterText` | site_adapters.py:206-247 | Without a content element the text is "Content not found". Otherwise it is tidy, and in the branch without `<p>` it has no three newlines in a row. |
| `Cleanup.ChapterContent` | site_adapters.py:173-252 | No page gives no chapter. A page gives a chapter titled by its title element or "Unknown Chapter", with tidy content, or "Content not found" when no content element is found. |
| `Words.RunsContent` | site_adapters.py:1295 | the words `split()` returns, concatenated, are the line's non-space characters |
| `Words.RunsOfJoin` | site_adapters.py:1295 | splitting words joined by one separator gives the words back |
| `Words.NormalizeSpaces` | site_adapters.py:1295 | the normalised line has the line's non-space characters in order, and no leading or trailing whitespace |
| `Words.NormalizeSpacesShape` | site_adapters.py:1295 | the normalised line separates words by single spaces and holds no other whitespace |
| `Words.NormalizeSpacesIdempotent` | site_adapters.py:1295 | normalising twice gives what normalising once gives |
| `WordPress.CountFound` | site_adapters.py:1062 | the indicator count never exceeds the number of indicators |
| `WordPress.CountFoundOne` | site_adapters.py:1062 | the count is at least one exactly when some indicator occurs |
| `WordPress.CountFoundTwo` | site_adapters.py:1062-1064 | the count is at least two exactly when two different indicators occur |
| `WordPress.GeneratorTagSuffices` | site_adapters.py:1050-1059 | a page with the WordPress generator tag is taken for WordPress, since the tag also contains `wordpress` |
| `WordPress.StoryId` | site_adapters.py:1210-1211 | the story id is a slug (lower-case letters and digits in runs joined by single dashes, none at either end) with the lower-cased URL's letters and digits in order |
| `WordPress.StoryIdIsJoinedRuns` | site_adapters.py:1210-1211 | the story id is the runs of letters and digits of the lower-cased URL joined by `-` |
| `WordPress.StoryIdIdempotent` | site_adapters.py:1210-1211 | the id of an id is the id itself |
| `WordPressChapter.WpChaptersAreAnchors` | site_adapters.py:1194-1207 | The k-th chapter link is the k-th anchor that passes the chapter test. Its URL is the anchor's href, and its title is the anchor's text or `Chương k+1` when the text is empty. |
| `WordPressChapter.ChuongLinkIsChapter` | site_adapters.py:1202-1204 | an anchor whose href contains `chuong-` is always taken for a chapter |
| `WordPressChapter.NoChapterWord` | site_adapters.py:1201 | an anchor whose href has none of the chapter words is never taken |
| `WordPressChapter.SplitTitleEnDash` | site_adapters.py:1249-1250 | a heading `story – chapter` gives the stripped chapter part |
| `WordPressChapter.TitleAfterEnDash` | site_adapters.py:1236-1255 | a heading without the private marker gives the chapter part after the en dash |
| `WordPressChapter.PrivateTitle` | site_adapters.py:1245-1250 | a heading `Riêng Tư: story – chapter` loses the marker and gives the chapter part |
| `WordPressChapter.CleanLines` | site_adapters.py:1292-1297 | every kept line is non-empty, with words separated by single spaces |
| `WordPressChapter.CleanLinesContent` | site_adapters.py:1292-1297 | the kept lines hold all non-space characters of the lines, in order |
| `WordPressChapter.BlockText` | site_adapters.py:1287-1299 | A block is dropped exactly when it is navigation text or blank. A kept block is its cleaned lines joined by newlines. |
| `WordPressChapter.BlocksClean` | site_adapters.py:1284-1299 | every block kept is clean |
| `WordPressChapter.BlocksContent` | site_adapters.py:1284-1299 | the kept blocks hold all non-space characters of the blocks that are not navigation, in order |
| `WordPressChapter.EntryContentFacts` | site_adapters.py:1284-1304 | The content is the blocks joined by blank lines. It is tidy, with at most two newlines in a row, and holds the shown text's non-space characters. |
| `WordPressChapter.WpChapterContent` | site_adapters.py:1222-1310 | A page with the password form fails with "password required" or "incorrect password", as the password is absent or present. A missing page fails. Any other page gives the trimmed title and tidy content, empty without an entry element. |
| `WordPressChapter.PasswordFormNeverYields` | site_adapters.py:1228-1233 | a password-protected page never yields content, and the error says "required" exactly when no password was given |
| `ChapterFiles.PySliceItems` | truyenfull_downloader.py:575 | `chapters[start_idx:end_idx]` holds, in order, the items from `max(0, start_idx)` up to but not including `min(end_idx, len)`, reading a negative bound from the end; its length is the distance between those bounds, or 0 when they cross |
| `ChapterFiles.InRange` | truyenfull_downloader.py:570-575 | the chapters to download are a contiguous run of the list starting at `start_idx` |
| `ChapterFiles.RangeBetween` | truyenfull_downloader.py:570-575 | for 1 <= first <= last <= total the range is chapters first..last, `last - first + 1` of them |
| `ChapterFiles.RangeToLast` | truyenfull_downloader.py:572 | no end chapter, or 0, means up to the last chapter |
| `ChapterFiles.RangePastLast` | truyenfull_downloader.py:573 | an end past the last chapter is clamped to it |
| `ChapterFiles.RangeNegativeEnd` | truyenfull_downloader.py:572-575 | a negative end counts from the end of the list, as the slice does |
| `ChapterFiles.RangeEmpty` | truyenfull_downloader.py:570-575 | a positive end before the start gives no chapters |
| `ChapterFiles.ChapterFileNameRoundTrip` | truyenfull_downloader.py:583 | the chapter number reads back from the file name |
| `ChapterFiles.ChapterFileNamesDistinct` | truyenfull_downloader.py:583 | different chapter numbers give different file names |
| `ChapterFiles.NameFollowsPlace` | truyenfull_downloader.py:582-583 | for a start chapter of 1 or more, the k-th chapter of the range is stored under its place in the story |
| `ChapterFiles.NameMissesPlace` | truyenfull_downloader.py:582-583 | for a start chapter of 0 or less, the file name does not name the chapter's place in the story |
| `ChapterFiles.PlaceNumber` | truyenfull_downloader.py:571-583 | The place number of the k-th chapter of the range is at least k + 1. It equals `start_chapter + k` for every start of 1 or more. |
| `ChapterFiles.PlaceNameFollowsPlace` | truyenfull_downloader.py:582-583 | numbered by place, a chapter's file names its place whatever the start, and equals the file a run from chapter 1 uses |
| `ChapterFiles.ParseChapterFile` | truyenfull_downloader.py:594-601 | A file with a newline gives a stripped one-line title and stripped content. A file without one keeps the listed title and takes the stripped text as content. |
| `ChapterFiles.ReadText` | truyenfull_downloader.py:590-591 | Text mode turns `\r\n` and a lone `\r` into `\n`, so the text read has no carriage return. It equals the raw text exactly when the raw text has none. |
| `ChapterFiles.ReadChapterFile` | truyenfull_downloader.py:590-601 | the chapter read from a file has stripped content without carriage returns, and so has its title when the file has a line break |
| `ChapterFiles.ChapterFileRoundTrip` | truyenfull_downloader.py:594-601 | a chapter with a stripped one-line title and stripped content parses back from `title\n\ncontent` exactly |
| `ChapterFiles.ReadChapterFileRoundTrip` | truyenfull_downloader.py:587-601 | such a chapter, without carriage returns, reads back from its file exactly as written |
| `ChapterFiles.ChapterFileStable` | truyenfull_downloader.py:587-601 | rewriting what was read from a file and reading again gives the same chapter, so a skipped chapter survives any number of resumed runs |
| `Download.RangeNamesDistinct` | truyenfull_downloader.py:582-583 | the chapters of one run get pairwise distinct files |
| `Download.RangeNameNumber` | truyenfull_downloader.py:582-583 | the k-th file of a run numbered from n names chapter n + k |
| `Download.RangeJob` | truyenfull_downloader.py:570-583 | The job of a call downloads exactly the chapter range, as the code numbers it. Each chapter has its own file. |
| `Download.RangeJobNames` | truyenfull_downloader.py:571-583 | The k-th chapter of the range is `chapters[start_idx + k]`, and it is stored under the file of chapter `start_chapter + k`. |
| `Download.RangeJobByPlace` | truyenfull_downloader.py:570-583 | The job numbered by place downloads the same chapter range, and each chapter has its own file. |
| `Download.RangeJobByPlaceNames` | truyenfull_downloader.py:571-583 | Numbered by place, the k-th chapter of the range is `chapters[start_idx + k]`, and it is stored under the file of chapter `start_idx + k + 1`, its place in the story. |
| `Download.RangeJobsAgree` | truyenfull_downloader.py:571-583 | For a start of 1 or more, the code's job is the job numbered by place. |
| `Download.ByPlaceStartZero` | truyenfull_downloader.py:571-583 | Numbered by place, a run from chapter 0 is a run from chapter 1: the same chapters under the same files. |
| `Download.StartZeroShiftsFiles` | truyenfull_downloader.py:571-583 | As the code numbers them, a run from 0 visits the chapters of a run from 1. It stores each chapter after the first under the file a run from 1 uses for the chapter before it. |
| `Download.StartZeroReadsPrevious` | truyenfull_downloader.py:582-603 | In a directory where a run from 1 saved the k-th chapter of the range, a run from 0 skips the next chapter and collects the saved chapter in its place. |
| `Download.DownloadRange` | truyenfull_downloader.py:569-639 | The download loop over the chapter range, with files numbered as the code numbers them, ends in the one outcome that the directory, the fetch and the callback answers determine. |
| `Download.DownloadRangeByPlace` | truyenfull_downloader.py:569-639 | The same loop with the files numbered by place ends in the outcome of the job numbered by place. |
| `Download.RunJob` | truyenfull_downloader.py:581-639 | The loop collects each readable file read back, or else each fetched chapter, in order. It counts skipped and downloaded chapters and saves each delivered chapter. It ends after the last chapter, or at the first "stop" answer before or after a fetch. |
| `Download.OutcomeDetermined` | truyenfull_downloader.py:618-639 | two outcomes of the same job and callback agree on where the loop stopped and on everything it produced |
| `Download.HaltedFirst` | truyenfull_downloader.py:618-639 | two stopping places that both meet the stop conditions coincide, so the loop stops at the first "stop" answer |
| `Download.HandleChapter` | truyenfull_downloader.py:586-639 | one iteration extends the tallies by the chapter's entry, or stops where the callback first says stop |
| `Download.SkipChapter` | truyenfull_downloader.py:587-608 | a readable file is read back, appended and counted as skipped, with no fetch |
| `Download.FetchChapter` | truyenfull_downloader.py:609-634 | a chapter without a readable file is fetched, and when delivered is appended and saved |
| `Download.KeptIsReadBack` | truyenfull_downloader.py:587-608 | a kept chapter contributes exactly what its file reads back as |
| `Download.CollectedCounts` | truyenfull_downloader.py:685 | the chapters collected are the skipped ones plus the delivered ones, so `downloaded_count` counts the delivered fetches |
| `Download.FetchedIffNotKept` | truyenfull_downloader.py:586-616 | a chapter's URL is fetched exactly when its file is missing or unreadable |
| `Download.FetchesBelow` | truyenfull_downloader.py:581-639 | only chapters already reached are fetched |
| `Download.FailedFetchLeavesNoTrace` | truyenfull_downloader.py:625-634 | a missing chapter whose fetch returns nothing adds no chapter and no file |
| `Download.DeliveredIsSaved` | truyenfull_downloader.py:627-634 | a delivered chapter is saved under its file name as `title\n\ncontent` |
| `Download.KeptIsUntouched` | truyenfull_downloader.py:586-608 | a readable file is never overwritten |
| `Epub.Ext` | truyenfull_downloader.py:738 | `splitext`: the extension is empty or a `.` followed by neither `.` nor `/`, and ends the path |
| `Epub.CoverExt` | truyenfull_downloader.py:738-740 | the cover extension is one of `.jpg`, `.jpeg`, `.png`, `.gif` |
| `Epub.CoverExtOfUrl` | truyenfull_downloader.py:738-740 | the URL's own extension is kept exactly when it is one of the four, and `.jpg` is used otherwise |
| `Epub.QueryHidesExtension` | truyenfull_downloader.py:738-740 | a URL whose extension runs into a query string gets `.jpg` and the JPEG MIME type |
| `Epub.MimeOfCover` | truyenfull_downloader.py:752-760 | the MIME type is `image/jpeg` for `.jpg` and `.jpeg` and `image/` + the extension otherwise |
| `Epub.MimeOfExt` | truyenfull_downloader.py:752-760 | the MIME mapping on each of the four extensions |
| `Epub.CoverExtStable` | truyenfull_downloader.py:813 | the extension read back from the saved cover path is the one the cover was saved with |
| `Epub.SafeTitleHyphenated` | truyenfull_downloader.py:676-677 | the safe title has no whitespace and no two hyphens in a row |
| `Epub.SafeTitleWords` | truyenfull_downloader.py:676-677 | the safe title keeps the title's word characters, in order |
| `Epub.SafeTitleChars` | truyenfull_downloader.py:676 | every character of the safe title is a word character or a hyphen |
| `Epub.SafeTitleEmpty` | truyenfull_downloader.py:676-677 | the safe title is empty exactly when the title has no character that is a non-space word character or a hyphen |
| `Epub.SafeTitleIdempotent` | truyenfull_downloader.py:676-677 | making a safe title safe again changes nothing |
| `Epub.HyphenateContent` | truyenfull_downloader.py:677 | replacing runs of hyphens and whitespace keeps every other character, in order |
| `Epub.HyphenateFixed` | truyenfull_downloader.py:677 | hyphenated text is left as it is |
| `Epub.CleanedNameChars` | truyenfull_downloader.py:926-939 | after the replacements and removals, only characters allowed in a file name remain |
| `Epub.FallbackNameShape` | truyenfull_downloader.py:926-948 | the fallback name has at most 200 characters, only allowed characters, no whitespace, and no hyphen at either end |
| `Epub.EpubFileName` | truyenfull_downloader.py:908-949 | the book's file name ends in `.epub` |
| `Epub.PunctuationTitle` | truyenfull_downloader.py:908-949 | a title with no word character, and a folded title with nothing allowed, give the file name ".epub" |
| `Epub.PunctuationTitleExample` | truyenfull_downloader.py:908-949 | the title "?!", whose two characters are not word characters, gives the file name ".epub" |
| `Epub.BookFileName` | truyenfull_downloader.py:949 | the corrected file name ends in `.epub` and has a non-empty stem |
| `Epub.BookFileNameCorrects` | truyenfull_downloader.py:949 | the corrected name differs from the code's only where the code's is the bare ".epub" |
| `Epub.StoryEpubName` | truyenfull_downloader.py:676-678 | The book is named after the safe title, or else the fallback name, or else a default stem. The stem is never empty and is hyphenated. |
| `Epub.ChapterPageNamesDistinct` | truyenfull_downloader.py:887 | different chapters get different page names in the book |
| `Markup.EscapeIsCharwise` | truyenfull_downloader.py:860 | the three chained replacements, `&` first, act as one character-by-character escape |
| `Markup.EscapeRoundTrip` | truyenfull_downloader.py:860 | unescaping the escaped text gives the text back |
| `Markup.EscapedHasNoBrackets` | truyenfull_downloader.py:827 | escaped text holds no `<` or `>` |
| `Markup.EscapePlain` | truyenfull_downloader.py:877 | text without `&`, `<`, `>` is left as it is |
| `Markup.ParagraphsAreGood` | truyenfull_downloader.py:872-876 | each paragraph is non-empty and stripped |
| `Markup.BlankContent` | truyenfull_downloader.py:872-876 | blank content gives no paragraphs |
| `Markup.ParagraphsOfJoin` | truyenfull_downloader.py:872-876 | stripped non-empty paragraphs without a blank line inside, joined by blank lines, split back into themselves |
| `Markup.ParagraphElements` | truyenfull_downloader.py:872-878 | one `<p>` element per paragraph |
| `Markup.ParagraphElementHolds` | truyenfull_downloader.py:872-878 | the k-th element is `<p>` around the escaped k-th paragraph, which unescapes to the paragraph and holds no bracket |

## Left out

- Network and files: HTTP requests, `get_page`, `download_image`, the delays
  and the file system. They are parameters: fetches are oracles from URL to
  page or chapter, the story directory is a map, and a WordPress probe is the
  page it would fetch. Exceptions are not modelled, except an unreadable
  chapter file, which is re-fetched.
- BeautifulSoup: which tags a selector finds, `get_text`, `<br>`
  replacement and the decomposed script and ad elements. The anchors,
  options, paragraph texts and content elements the parser yields are inputs.
- Story metadata: title, author, description, cover URL and the md5 fallback
  id. The program reads these with selectors and a hash; they are inputs or
  left out.
- `complete_story.txt`, `metadata.json`, timestamps, the EPUB container
  written by ebooklib, its CSS, navigation and spine, and the title-page HTML
  beyond escaping and the cover extension.
- WordPress `normalize_url`'s page fetch. The adapter calls a `_get_page`
  method it does not have. The exception handler then returns the URL
  unchanged, which is all the model does.
- WordPress story title, author and description heuristics, and the
  duplicates of adapter code kept in `truyenfull_downloader.py` (the legacy
  methods). The model follows the adapters' versions.
- `unicodedata.normalize('NFD')` and the removal of combining marks.
  `Epub.FallbackName` takes the title after that folding as its input.
- `\w`, which Python defines over all of Unicode. It is the `isWord`
  parameter of `Epub.SafeTitle`.
- The chapter-level safe title computed in `create_epub` (lines 853-856). It
  is never used.
- Writing in text mode: on a system whose line separator is `\r\n`, the
  written `\n` become `\r\n`. The model writes the text as it is; reading
  turns both back into `\n`, so the round trips hold either way.
- The GUI, the build script and the icon generator.
- Ordinals.DigitsAt: reads only the ASCII digits `0`-`9`. Python's `\d`
  matches every Unicode decimal digit, so for "/chuong-３" the source reads 3
  and the model reads 0.
- WordPressChapter.HasDigit: finds only the ASCII digits `0`-`9`, where
  `re.search(r'(\d+)', text)` finds any Unicode decimal digit.
  `WordPressChapter.IsWpChapterAnchor` inherits this. An anchor with href
  "/chapter-x" and text "Chương ３" is a chapter link in Python but not in the
  model.
- WordPressChapter.WpChaptersAreAnchors: its chapter test is
  `IsWpChapterAnchor`, so it has the ASCII-digit limit of
  `WordPressChapter.HasDigit`. An anchor whose text has only non-ASCII digits
  and whose href lacks `chuong` is taken by Python and left out here.
- Text.LowerChar: lower-cases ASCII, Latin-1 and the Vietnamese letters and
  leaves every other character unchanged. Python's `str.lower` covers all of
  Unicode: the Kelvin sign U+212A becomes `k`, and U+0130 becomes `i`
  followed by a combining dot.
- WordPress.StoryId: inherits the limit of `Text.LowerChar`. For
  "https://x.vn/K" Python gives "https-x-vn-k", while the model gives
  "https-x-vn".
- Urls.UrlJoin: returns the reference as written, where Python returns the
  `urlunparse` reassembly. It does not remove dot segments ("/a/../chuong-1"
  becomes "/chuong-1" in Python). It does not delete leading C0 controls and
  spaces or embedded tab, CR and LF. It does not lower-case the scheme, and
  it does not resolve a reference with the base's scheme and no `//`
  ("http:foo"). Its `EndsWith(r, href)` and `r == base + href` clauses hold
  only for references without those features.
- Urls.Parse: drops the query, fragment and `;params` after splitting them
  off. Only the scheme, network location and path are used by the program.

## Findings

| source | as written | input that shows it | evidently intended | confidence | as-written member | corrected member |
|---|---|---|---|---|---|---|
| truyenfull_downloader.py:582 | `enumerate(chapters_to_download, start=start_chapter)` numbers the files from `start_chapter`, while the slice starts at `max(0, start_chapter - 1)` | `start_chapter = 0`: the first chapter of the story is saved as `chapter_0000.txt`, while a run from 1 saves and looks for it as `chapter_0001.txt` | number each file by the chapter's place, `start_idx + 1 + k`, so every run uses the same file per chapter | medium; not executed | `ChapterFiles.NameMissesPlace` | `ChapterFiles.PlaceNameFollowsPlace` |
| truyenfull_downloader.py:949 | the file name is `f"{safe_story_title}.epub"` even when both the safe title and the fallback name are empty | a title such as "?!" whose characters are all removed gives the hidden file `.epub` | a non-empty stem, as the chapter pages get with `chapter-{idx}` at line 856 | medium; not executed | `Epub.PunctuationTitle` | `Epub.BookFileNameCorrects` |

`Download.RangeJob` and `Download.DownloadRange` model the first row's loop
as written. At the level of the loop, `Download.StartZeroReadsPrevious` shows
that a run from chapter 0 collects the chapter saved by a run from 1 in place
of the next one. `ChapterFiles.PlaceNumber` is the corrected numbering. With
it, `Download.RangeJobByPlace` and `Download.DownloadRangeByPlace` form the
corrected loop, and `Download.ByPlaceStartZero` proves that under it a run
from 0 is a run from 1. `Epub.BookFileName` is the corrected name; `Epub.StoryEpubName` proves
it for every title. `Epub.PunctuationTitleExample` shows the second row's
input "?!".

=== FILE: chapterfiles.dfy ===
/** The chapter files of `download_story`: which chapters a start/end range
    selects, the name each chapter's file gets, and the text format of a
    chapter file. */
module ChapterFiles {
  import opened Wrappers
  import opened Text
  import opened Numbers
  import opened Cleanup

  // ---------------------------------------------------------------------------
  // The chapter range
  // ---------------------------------------------------------------------------

  /** A bound of a Python slice `s[lo:hi]` of a sequence of length `n`: a
      negative bound counts from the end, and the result is clamped into
      `0..n`. */
  function SliceBound(j: int, n: nat): (b: nat)
    ensures b <= n
    ensures 0 <= j ==> b == if j < n then j else n
    ensures j < 0 ==> b == if j + n < 0 then 0 else j + n
  {
    if j < 0 then (if j + n < 0 then 0 else j + n)
    else if j < n then j
    else n
  }

  /** Python's `s[lo:hi]`. */
  function PySlice<T>(s: seq<T>, lo: int, hi: int): seq<T> {
    var a, b := SliceBound(lo, |s|), SliceBound(hi, |s|);
    if a < b then s[a..b] else []
  }

  /** A slice index as Python reads it: a negative index counts from the
      end of a sequence of length `n`. */
  function FromEnd(j: int, n: nat): int {
    if j < 0 then n + j else j
  }

  /** Python's slice rule: `s[lo:hi]` holds the items of `s` from index
      `max(0, lo)` up to, not including, `min(hi, |s|)`, with both bounds
      read from the end when negative; it is empty when these cross. */
  lemma PySliceItems<T>(s: seq<T>, lo: int, hi: int)
    ensures var i, j := FromEnd(lo, |s|), FromEnd(hi, |s|);
            var first := if i < 0 then 0 else i;
            var past := if j < |s| then j else |s|;
            |PySlice(s, lo, hi)| == (if past < first then 0 else past - first)
            && forall m :: 0 <= m < |PySlice(s, lo, hi)| ==>
                 first + m < past && PySlice(s, lo, hi)[m] == s[first + m]
  {
  }

  /** `start_idx = max(0, start_chapter - 1)`. */
  function StartIndex(start: int): nat {
    if start - 1 < 0 then 0 else start - 1
  }

  /** `end_idx`: the end chapter when one is given (`None` and `0` both mean
      "to the last chapter"), never beyond the last chapter. */
  function EndIndex(end: Option<int>, total: nat): int {
    var e := if end.None? || end.value == 0 then total else end.value;
    if e < total then e else total
  }

  /** `chapters[start_idx:end_idx]`: the chapters `download_story` visits.
      They are a contiguous run of the list that begins at the start
      chapter. */
  function InRange<T>(chapters: seq<T>, start: int, end: Option<int>): (r: seq<T>)
    ensures |r| <= |chapters|
    ensures r != [] ==> (StartIndex(start) + |r| <= |chapters|
                         && r == chapters[StartIndex(start)..StartIndex(start) + |r|])
  {
    PySlice(chapters, StartIndex(start), EndIndex(end, |chapters|))
  }

  /** The k-th chapter of the range is the chapter at `start_idx + k`. */
  lemma InRangeAt<T>(chapters: seq<T>, start: int, end: Option<int>, k: nat)
    requires k < |InRange(chapters, start, end)|
    ensures StartIndex(start) + k < |chapters|
    ensures InRange(chapters, start, end)[k] == chapters[StartIndex(start) + k]
  {
  }

  /** Chapters `first` to `last`, counted from 1 and inclusive, when both lie
      within the list. */
  lemma RangeBetween<T>(chapters: seq<T>, first: int, last: int)
    requires 1 <= first <= last <= |chapters|
    ensures InRange(chapters, first, Some(last)) == chapters[first - 1..last]
    ensures |InRange(chapters, first, Some(last))| == last - first + 1
  {
  }

  /** Without an end chapter (or with `0`) the range runs to the last
      chapter; a start before the first chapter means the first. */
  lemma RangeToLast<T>(chapters: seq<T>, start: int, end: Option<int>)
    requires end.None? || end == Some(0)
    ensures InRange(chapters, start, end)
         == if StartIndex(start) < |chapters| then chapters[StartIndex(start)..] else []
  {
  }

  /** An end chapter beyond the last is the last. */
  lemma RangePastLast<T>(chapters: seq<T>, start: int, end: int)
    requires end >= |chapters|
    ensures InRange(chapters, start, Some(end)) == InRange(chapters, start, None)
  {
  }

  /** A negative end chapter counts from the end of the list, as Python's
      slice does. */
  lemma RangeNegativeEnd<T>(chapters: seq<T>, start: int, end: int)
    requires end < 0
    ensures var stop := if |chapters| + end < 0 then 0 else |chapters| + end;
            (InRange(chapters, start, Some(end))
             == if StartIndex(start) < stop then chapters[StartIndex(start)..stop] else [])
  {
  }

  /** A start after the end selects nothing. */
  lemma RangeEmpty<T>(chapters: seq<T>, start: int, end: int)
    requires 0 < end < start
    ensures InRange(chapters, start, Some(end)) == []
  {
  }

  // ---------------------------------------------------------------------------
  // File names
  // ---------------------------------------------------------------------------

  /** `f"chapter_{idx:04d}.txt"`. */
  function ChapterFileName(n: int): string {
    "chapter_" + Format04(n) + ".txt"
  }

  /** Reads the chapter number back from a file name. */
  function ChapterFileNumber(name: string): Option<int> {
    if |name| >= 12 && StartsWith(name, "chapter_") && EndsWith(name, ".txt")
    then ParseSigned(name[8..|name| - 4])
    else None
  }

  /** The file name holds the chapter number. */
  lemma ChapterFileNameRoundTrip(n: int)
    ensures ChapterFileNumber(ChapterFileName(n)) == Some(n)
  {
    var name := ChapterFileName(n);
    assert name[8..|name| - 4] == Format04(n);
    Format04RoundTrip(n);
  }

  /** Different chapter numbers get different files. */
  lemma ChapterFileNamesDistinct(i: int, j: int)
    requires i != j
    ensures ChapterFileName(i) != ChapterFileName(j)
  {
    ChapterFileNameRoundTrip(i);
    ChapterFileNameRoundTrip(j);
  }

  /** The k-th chapter of the range (from 0), `chapters[StartIndex(start) +
      k]`, is stored under the number `start_chapter + k`, not under its
      place in the list.  With a start of 1 or more the file names the
      chapter's place, counted from 1. */
  lemma NameFollowsPlace(start: int, k: nat, place: nat)
    requires start >= 1 && place == StartIndex(start) + k
    ensures ChapterFileNumber(ChapterFileName(start + k)) == Some(place + 1)
  {
    assert start + k == place + 1;
    ChapterFileNameRoundTrip(start + k);
  }

  /** With a start of 0 or less it does not: the first chapter of the story
      is stored under another name than a run from 1 gives it, so neither
      run finds the files of the other. */
  lemma NameMissesPlace(start: int, k: nat, place: nat)
    requires start <= 0 && place == StartIndex(start) + k
    ensures ChapterFileNumber(ChapterFileName(start + k)) != Some(place + 1)
  {
    ChapterFileNameRoundTrip(start + k);
  }

  /** The number the k-th chapter of the range is evidently meant to be
      stored under: its place in the story counted from 1, `start_idx + 1 +
      k`.  For a start of 1 or more it is the number the code uses. */
  function PlaceNumber(start: int, k: nat): (n: int)
    ensures n >= 1 + k
    ensures start >= 1 ==> n == start + k
  {
    StartIndex(start) + 1 + k
  }

  /** Numbered by place, the file of a chapter names its place whatever the
      start chapter, so runs from different starts share their files. */
  lemma PlaceNameFollowsPlace(start: int, k: nat, place: nat)
    requires place == StartIndex(start) + k
    ensures ChapterFileNumber(ChapterFileName(PlaceNumber(start, k))) == Some(place + 1)
    ensures ChapterFileName(PlaceNumber(start, k)) == ChapterFileName(PlaceNumber(1, place))
  {
    PlaceNumberOfPlace(start, k, place);
    ChapterFileNameRoundTrip(place + 1);
  }

  /** The place number of the k-th chapter of the range is its place in the
      story, counted from 1. */
  lemma PlaceNumberOfPlace(start: int, k: nat, place: nat)
    requires place == StartIndex(start) + k
    ensures PlaceNumber(start, k) == place + 1 && PlaceNumber(1, place) == place + 1
  {
  }

  // ---------------------------------------------------------------------------
  // The chapter file format
  // ---------------------------------------------------------------------------

  /** What `download_story` writes: the title, an empty line, the content. */
  function ChapterFileText(c: Chapter): string {
    c.title + "\n\n" + c.content
  }

  /** How `download_story` reads a chapter file back: `split('\n', 1)`, the
      stripped first line as the title and the stripped rest as the
      content.  A file without a newline keeps the title of the chapter list
      and takes the stripped text as the content. */
  function ParseChapterFile(text: string, listedTitle: string): (c: Chapter)
    ensures IsStripped(c.content) && |c.content| <= |text|
    ensures Contains(text, "\n") ==> IsStripped(c.title) && !Contains(c.title, "\n")
    ensures !Contains(text, "\n") ==> c == Chapter(listedTitle, Strip(text))
  {
    match IndexOf(text, "\n")
    case Some(i) =>
      assert !Contains(text[..i], "\n") by {
        if Contains(text[..i], "\n") {
          OccursInSlice(text, 0, i, "\n", IndexOf(text[..i], "\n").value);
        }
      }
      StripKeepsAbsent(text[..i], "\n");
      Chapter(Strip(text[..i]), Strip(text[i + 1..]))
    case None => Chapter(listedTitle, Strip(text))
  }

  /** No carriage return anywhere in the text. */
  predicate NoCarriageReturn(s: string) {
    forall i :: 0 <= i < |s| ==> s[i] != '\r'
  }

  /** `open(path, 'r')` reads in text mode with universal newlines: `\r\n`
      and a lone `\r` each become `\n`.  Text without carriage returns is
      read as it is. */
  function ReadText(raw: string): (t: string)
    ensures NoCarriageReturn(t) && |t| <= |raw|
    ensures t == raw <==> NoCarriageReturn(raw)
    decreases |raw|
  {
    if raw == [] then []
    else if raw[0] == '\r' then
      var rec := ReadText(if |raw| > 1 && raw[1] == '\n' then raw[2..] else raw[1..]);
      assert ("\n" + rec)[0] != raw[0];
      "\n" + rec
    else
      var rec := ReadText(raw[1..]);
      assert raw == [raw[0]] + raw[1..];
      assert NoCarriageReturn(raw) ==> NoCarriageReturn(raw[1..]);
      assert [raw[0]] + rec == raw ==> rec == raw[1..] by {
        if [raw[0]] + rec == raw {
          assert rec == ([raw[0]] + rec)[1..];
        }
      }
      [raw[0]] + rec
  }

  /** What `download_story` takes from a chapter file on disk: the text as
      read in text mode, parsed as `ParseChapterFile` does.  The content
      never holds a carriage return. */
  function ReadChapterFile(raw: string, listedTitle: string): (c: Chapter)
    ensures IsStripped(c.content) && NoCarriageReturn(c.content)
    ensures Contains(ReadText(raw), "\n") ==> NoCarriageReturn(c.title)
  {
    ParseNoCarriageReturn(ReadText(raw), listedTitle);
    ParseChapterFile(ReadText(raw), listedTitle)
  }

  /** Parsing text without carriage returns yields none, except in a title
      taken from the chapter list. */
  lemma ParseNoCarriageReturn(text: string, listedTitle: string)
    requires NoCarriageReturn(text)
    ensures var c := ParseChapterFile(text, listedTitle);
            && NoCarriageReturn(c.content)
            && (Contains(text, "\n") ==> NoCarriageReturn(c.title))
  {
    match IndexOf(text, "\n")
    case Some(i) =>
      assert NoCarriageReturn(text[..i]) && NoCarriageReturn(text[i + 1..]);
      NoCarriageReturnStrip(text[..i]);
      NoCarriageReturnStrip(text[i + 1..]);
    case None =>
      NoCarriageReturnStrip(text);
  }

  /** Stripping a text without carriage returns leaves none. */
  lemma NoCarriageReturnStrip(s: string)
    requires NoCarriageReturn(s)
    ensures NoCarriageReturn(Strip(s))
  {
    var t := Strip(s);
    var lo :| TrimmedSliceAt(s, t, lo, IsSpace);
    forall i | 0 <= i < |t|
      ensures t[i] != '\r'
    {
      assert t[i] == s[lo + i];
    }
  }

  /** A chapter whose title is one stripped line and whose content is
      stripped reads back from its file exactly as it was written. */
  lemma ChapterFileRoundTrip(c: Chapter, listedTitle: string)
    requires !Contains(c.title, "\n") && IsStripped(c.title) && IsStripped(c.content)
    ensures ParseChapterFile(ChapterFileText(c), listedTitle) == c
  {
    FileTextLines(c);
    ParseAtNewline(ChapterFileText(c), listedTitle, |c.title|);
    StripStripped(c.title);
    StripNewlineFirst(c.content);
  }

  /** A chapter file whose title has no newline breaks first right after
      the title. */
  lemma FileTextLines(c: Chapter)
    requires !Contains(c.title, "\n")
    ensures var text := ChapterFileText(c);
            && IndexOf(text, "\n") == Some(|c.title|)
            && text[..|c.title|] == c.title
            && text[|c.title| + 1..] == "\n" + c.content
  {
    var rest := "\n" + c.content;
    var text := c.title + "\n" + rest;
    assert ChapterFileText(c) == text;
    FirstSeparatorAfter(c.title, "\n", rest);
    assert text[..|c.title|] == c.title;
    assert text[|c.title| + 1..] == rest;
  }

  /** A file with a newline is split at its first one. */
  lemma ParseAtNewline(text: string, listedTitle: string, i: nat)
    requires IndexOf(text, "\n") == Some(i)
    ensures i < |text| && ParseChapterFile(text, listedTitle) == Chapter(Strip(text[..i]), Strip(text[i + 1..]))
  {
    assert OccursAt(text, "\n", i);
    match IndexOf(text, "\n")
    case Some(j) =>
      assert j == i;
  }

  /** A newline in front of stripped text is stripped away. */
  lemma StripNewlineFirst(s: string)
    requires IsStripped(s)
    ensures Strip("\n" + s) == s
  {
    var t := "\n" + s;
    assert t[1..1 + |s|] == s;
    TrimUnique(t, s, 1, IsSpace);
  }

  /** A chapter without carriage returns, whose title is one stripped line
      and whose content is stripped, reads back from the file on disk
      exactly as it was written. */
  lemma ReadChapterFileRoundTrip(c: Chapter, listedTitle: string)
    requires !Contains(c.title, "\n") && IsStripped(c.title) && IsStripped(c.content)
    requires NoCarriageReturn(c.title) && NoCarriageReturn(c.content)
    ensures ReadChapterFile(ChapterFileText(c), listedTitle) == c
  {
    var text := ChapterFileText(c);
    assert NoCarriageReturn(text) by {
      forall i | 0 <= i < |text|
        ensures text[i] != '\r'
      {
        if i >= |c.title| + 2 {
          assert text[i] == c.content[i - |c.title| - 2];
        } else if i >= |c.title| {
          assert text[i] == '\n';
        } else {
          assert text[i] == c.title[i];
        }
      }
    }
    ChapterFileRoundTrip(c, listedTitle);
  }

  /** Reading a file, writing what was read and reading again gives what the
      first read gave: a skipped chapter survives any number of resumed
      runs unchanged. */
  lemma ChapterFileStable(raw: string, listedTitle: string, listedTitle': string)
    requires Contains(ReadText(raw), "\n")
    ensures var c := ReadChapterFile(raw, listedTitle);
            ReadChapterFile(ChapterFileText(c), listedTitle') == c
  {
    var c := ReadChapterFile(raw, listedTitle);
    assert c == ParseChapterFile(ReadText(raw), listedTitle);
    ReadChapterFileRoundTrip(c, listedTitle');
  }
}

=== FILE: chapters.dfy ===
/** Chapter lists: turning extracted anchors and `<option>` elements into
    chapter links, the de-duplicating merge used across pages, and the
    pagination links of the TruyenFull adapter.  A page's HTML is represented
    by what the DOM queries extract from it: anchors as `(href, text)` pairs
    with the text already stripped, options as `(value, text)` pairs. */
module ChapterLists {
  import opened Wrappers
  import opened Text
  import opened Urls
  import opened Ordinals
  import opened StableSort

  datatype ChapterLink = ChapterLink(url: string, title: string)

  datatype Anchor = Anchor(href: string, text: string)

  datatype OptionTag = OptionTag(value: string, text: string)

  function LinkUrl(c: ChapterLink): string {
    c.url
  }

  function Ids<T>(s: seq<T>, id: T -> string): (r: seq<string>)
    ensures |r| == |s| && forall i :: 0 <= i < |s| ==> r[i] == id(s[i])
  {
    seq(|s|, i requires 0 <= i < |s| => id(s[i]))
  }

  /** No two elements share an identity. */
  predicate DistinctIds<T>(s: seq<T>, id: T -> string) {
    forall i, j :: 0 <= i < j < |s| ==> id(s[i]) != id(s[j])
  }

  // ---------------------------------------------------------------------------
  // Filtering and mapping
  // ---------------------------------------------------------------------------

  /** The loop `for x in s: if keep(x): out.append(f(x))`. */
  function FilterMap<A, B>(s: seq<A>, keep: A -> bool, f: A -> B): (r: seq<B>)
    ensures |r| <= |s|
    decreases |s|
  {
    if s == [] then []
    else (if keep(s[0]) then [f(s[0])] else []) + FilterMap(s[1..], keep, f)
  }

  /** The elements are treated one at a time: `FilterMap` distributes over
      concatenation. */
  lemma {:induction false} FilterMapConcat<A, B>(a: seq<A>, b: seq<A>, keep: A -> bool, f: A -> B)
    ensures FilterMap(a + b, keep, f) == FilterMap(a, keep, f) + FilterMap(b, keep, f)
    decreases |a|
  {
    if a == [] {
      assert a + b == b;
    } else {
      var h := if keep(a[0]) then [f(a[0])] else [];
      assert (a + b)[0] == a[0] && (a + b)[1..] == a[1..] + b;
      assert FilterMap(a + b, keep, f) == h + FilterMap(a[1..] + b, keep, f);
      FilterMapConcat(a[1..], b, keep, f);
      assert FilterMap(a, keep, f) == h + FilterMap(a[1..], keep, f);
    }
  }

  /** Every output is the image of a kept input. */
  lemma {:induction false} FilterMapFrom<A, B>(s: seq<A>, keep: A -> bool, f: A -> B, y: B) returns (x: A)
    requires y in FilterMap(s, keep, f)
    ensures x in s && keep(x) && y == f(x)
    decreases |s|
  {
    if keep(s[0]) && y == f(s[0]) {
      x := s[0];
    } else {
      x := FilterMapFrom(s[1..], keep, f, y);
      assert x in s;
    }
  }

  /** Every kept input has its image in the output. */
  lemma {:induction false} FilterMapKeeps<A, B>(s: seq<A>, keep: A -> bool, f: A -> B, x: A)
    requires x in s && keep(x)
    ensures f(x) in FilterMap(s, keep, f)
    decreases |s|
  {
    if x != s[0] {
      assert x in s[1..];
      FilterMapKeeps(s[1..], keep, f, x);
    }
  }

  /** The output is empty exactly when no input is kept. */
  lemma FilterMapEmpty<A, B>(s: seq<A>, keep: A -> bool, f: A -> B)
    ensures FilterMap(s, keep, f) == [] <==> forall i :: 0 <= i < |s| ==> !keep(s[i])
  {
    if exists i :: 0 <= i < |s| && keep(s[i]) {
      var i :| 0 <= i < |s| && keep(s[i]);
      FilterMapKeeps(s, keep, f, s[i]);
    } else {
      FilterMapNone(s, keep, f);
    }
  }

  lemma {:induction false} FilterMapNone<A, B>(s: seq<A>, keep: A -> bool, f: A -> B)
    requires forall i :: 0 <= i < |s| ==> !keep(s[i])
    ensures FilterMap(s, keep, f) == []
    decreases |s|
  {
    if s != [] {
      assert forall i :: 0 <= i < |s| - 1 ==> s[1..][i] == s[i + 1];
      FilterMapNone(s[1..], keep, f);
    }
  }

  // ---------------------------------------------------------------------------
  // De-duplicating append
  // ---------------------------------------------------------------------------

  /** The loop `for x in items: if id(x) not in seen: acc.append(x)`, where
      `seen` holds the identities of everything in `acc` so far; written as
      the state after the last step. */
  function AppendNew<T>(acc: seq<T>, items: seq<T>, id: T -> string): (r: seq<T>)
    ensures acc <= r
    decreases |items|
  {
    if items == [] then acc
    else
      var mid := AppendNew(acc, items[..|items| - 1], id);
      var x := items[|items| - 1];
      if id(x) in Ids(mid, id) then mid else mid + [x]
  }

  lemma IdsSnoc<T>(s: seq<T>, x: T, id: T -> string)
    ensures Ids(s + [x], id) == Ids(s, id) + [id(x)]
  {
  }

  /** The identities after the loop are those of `acc` and of `items`. */
  lemma {:induction false} AppendNewIds<T>(acc: seq<T>, items: seq<T>, id: T -> string)
    ensures forall u :: u in Ids(AppendNew(acc, items, id), id) <==> u in Ids(acc, id) || u in Ids(items, id)
    decreases |items|
  {
    if items != [] {
      var init, x := items[..|items| - 1], items[|items| - 1];
      AppendNewIds(acc, init, id);
      IdsSnoc(AppendNew(acc, init, id), x, id);
      assert items == init + [x];
      IdsSnoc(init, x, id);
    }
  }

  /** Every element after the loop was in `acc` or among the items. */
  lemma {:induction false} AppendNewFrom<T>(acc: seq<T>, items: seq<T>, id: T -> string, y: T)
    requires y in AppendNew(acc, items, id)
    ensures y in acc || y in items
    decreases |items|
  {
    if items != [] {
      var init, x := items[..|items| - 1], items[|items| - 1];
      if y != x {
        AppendNewFrom(acc, init, id, y);
        assert y in init ==> y in items;
      }
    }
  }

  /** From position `n` on, no element repeats the identity of an element
      before it. */
  predicate FreshFrom<T>(r: seq<T>, n: int, id: T -> string) {
    forall i :: 0 <= i < |r| && n <= i ==> id(r[i]) !in Ids(r[..i], id)
  }

  /** No appended element repeats the identity of an element before it. */
  lemma {:induction false} AppendNewFresh<T>(acc: seq<T>, items: seq<T>, id: T -> string)
    ensures FreshFrom(AppendNew(acc, items, id), |acc|, id)
    decreases |items|
  {
    if items != [] {
      var init, x := items[..|items| - 1], items[|items| - 1];
      var mid := AppendNew(acc, init, id);
      AppendNewFresh(acc, init, id);
      var r := AppendNew(acc, items, id);
      if id(x) !in Ids(mid, id) {
        assert r == mid + [x];
        forall i | |acc| <= i < |r|
          ensures id(r[i]) !in Ids(r[..i], id)
        {
          if i < |mid| {
            assert id(mid[i]) !in Ids(mid[..i], id);
            assert r[..i] == mid[..i] && r[i] == mid[i];
          } else {
            assert r[..i] == mid;
          }
        }
      }
    }
  }

  /** Appending to a list without repeated identities keeps it without
      repeated identities. */
  lemma AppendNewDistinct<T>(acc: seq<T>, items: seq<T>, id: T -> string)
    requires DistinctIds(acc, id)
    ensures DistinctIds(AppendNew(acc, items, id), id)
  {
    var r := AppendNew(acc, items, id);
    AppendNewFresh(acc, items, id);
    forall i, j | 0 <= i < j < |r|
      ensures id(r[i]) != id(r[j])
    {
      if j >= |acc| {
        assert Ids(r[..j], id)[i] == id(r[i]);
      } else {
        assert r[i] == acc[i] && r[j] == acc[j];
      }
    }
  }

  /** An independent description of what `AppendNew` appends: each item whose
      identity occurs neither in `acc` nor among the items before it. */
  function FirstOccurrences<T>(acc: seq<T>, items: seq<T>, id: T -> string): seq<T>
    decreases |items|
  {
    if items == [] then []
    else
      var init := items[..|items| - 1];
      var x := items[|items| - 1];
      FirstOccurrences(acc, init, id)
        + (if id(x) in Ids(acc, id) || id(x) in Ids(init, id) then [] else [x])
  }

  /** `AppendNew` appends exactly the first occurrences of new identities, in
      the order of `items`. */
  lemma {:induction false} AppendNewIsFirstOccurrences<T>(acc: seq<T>, items: seq<T>, id: T -> string)
    ensures AppendNew(acc, items, id) == acc + FirstOccurrences(acc, items, id)
    decreases |items|
  {
    if items != [] {
      var init := items[..|items| - 1];
      AppendNewIsFirstOccurrences(acc, init, id);
      AppendNewIds(acc, init, id);
    }
  }

  // ---------------------------------------------------------------------------
  // Anchors to chapter links
  // ---------------------------------------------------------------------------

  /** The chapter link of one anchor: its href resolved against `base` by
      `urljoin`, titled with its text. */
  function Link(base: string, a: Anchor): ChapterLink {
    ChapterLink(UrlJoin(base, a.href), a.text)
  }

  /** The chapter links of the anchors that `accept` selects, in order. */
  function Resolve(anchors: seq<Anchor>, accept: Anchor -> bool, base: string): (r: seq<ChapterLink>)
    ensures |r| <= |anchors|
  {
    FilterMap(anchors, accept, (a: Anchor) => Link(base, a))
  }

  /** Every link `Resolve` yields comes from an accepted anchor, and its URL
      ends with that anchor's href. */
  lemma ResolveFrom(anchors: seq<Anchor>, accept: Anchor -> bool, base: string, c: ChapterLink) returns (a: Anchor)
    requires c in Resolve(anchors, accept, base)
    ensures a in anchors && accept(a) && c == Link(base, a) && EndsWith(c.url, a.href)
  {
    a := FilterMapFrom(anchors, accept, (a: Anchor) => Link(base, a), c);
  }

  /** `Resolve` and then de-duplicate by URL: the loop that skips an anchor
      whose resolved URL is already in the list. */
  function ResolveDistinct(anchors: seq<Anchor>, accept: Anchor -> bool, base: string): (r: seq<ChapterLink>)
    ensures DistinctIds(r, LinkUrl)
  {
    AppendNewDistinct([], Resolve(anchors, accept, base), LinkUrl);
    AppendNew([], Resolve(anchors, accept, base), LinkUrl)
  }

  /** The de-duplicated links are the first link of every URL, in order, and
      cover every URL `Resolve` yields. */
  lemma ResolveDistinctProperties(anchors: seq<Anchor>, accept: Anchor -> bool, base: string)
    ensures var all := Resolve(anchors, accept, base);
            ResolveDistinct(anchors, accept, base) == FirstOccurrences([], all, LinkUrl)
    ensures var all := Resolve(anchors, accept, base);
            forall u :: u in Ids(ResolveDistinct(anchors, accept, base), LinkUrl) <==> u in Ids(all, LinkUrl)
  {
    var all := Resolve(anchors, accept, base);
    AppendNewIsFirstOccurrences([], all, LinkUrl);
    AppendNewIds([], all, LinkUrl);
  }

  // ---------------------------------------------------------------------------
  // TruyenFull: AJAX options, pages and pagination
  // ---------------------------------------------------------------------------

  /** The href filter of `_get_chapters_from_page`, case-sensitive. */
  predicate IsChapterHref(href: string) {
    Contains(href, "/chuong-") || Contains(href, "/chapter-")
  }

  predicate ChapterAnchor(a: Anchor) {
    IsChapterHref(a.href)
  }

  /** The URL built from one `<option>`'s stripped value: an absolute path is
      joined to the base, anything else becomes a directory under the story
      path. */
  function OptionUrl(value: string, base: string, storyPath: string): string {
    if StartsWith(value, "/") then UrlJoin(base, value)
    else base + storyPath + "/" + value + "/"
  }

  /** Whether one option yields a chapter: its stripped value is neither
      empty nor `"0"` and its stripped text is not empty. */
  predicate KeepsOption(o: OptionTag) {
    var v := Strip(o.value);
    v != "" && v != "0" && o.text != ""
  }

  function OptionLink(base: string, storyPath: string, o: OptionTag): ChapterLink {
    ChapterLink(OptionUrl(Strip(o.value), base, storyPath), o.text)
  }

  /** `_get_chapters_from_ajax` after the AJAX response has been fetched and
      its options extracted: `storyPath` is the story URL's path with trailing
      slashes removed.  A failed fetch yields no options. */
  function AjaxChapters(options: seq<OptionTag>, base: string, storyPath: string): (r: seq<ChapterLink>)
    ensures |r| <= |options|
  {
    FilterMap(options, KeepsOption, (o: OptionTag) => OptionLink(base, storyPath, o))
  }

  /** The options are mapped one at a time and in order. */
  lemma AjaxConcat(a: seq<OptionTag>, b: seq<OptionTag>, base: string, storyPath: string)
    ensures AjaxChapters(a + b, base, storyPath) == AjaxChapters(a, base, storyPath) + AjaxChapters(b, base, storyPath)
  {
    FilterMapConcat(a, b, KeepsOption, (o: OptionTag) => OptionLink(base, storyPath, o));
  }

  /** What a single option contributes: nothing when its stripped value is
      empty or `"0"` or its text is empty; otherwise one chapter titled with
      its text, whose URL is the base followed by the value when the value is
      an absolute path, and `base + storyPath + "/" + value + "/"` when it is
      not. */
  lemma AjaxOption(o: OptionTag, base: string, storyPath: string)
    ensures var v := Strip(o.value);
            var r := AjaxChapters([o], base, storyPath);
            && (v == "" || v == "0" || o.text == "" <==> r == [])
            && (r != [] ==> |r| == 1 && r[0].title == o.text && r[0].title != "")
            && (r != [] && StartsWith(v, "/") && !StartsWith(v, "//") ==> r[0].url == base + v)
            && (r != [] && !StartsWith(v, "/") ==> r[0].url == base + storyPath + "/" + v + "/")
  {
    var v := Strip(o.value);
    AjaxSingle(o, base, storyPath);
    if StartsWith(v, "/") && !StartsWith(v, "//") {
      OptionUrlAbsolute(v, base, storyPath);
    }
  }

  /** One option yields its link or nothing. */
  lemma AjaxSingle(o: OptionTag, base: string, storyPath: string)
    ensures AjaxChapters([o], base, storyPath) == if KeepsOption(o) then [OptionLink(base, storyPath, o)] else []
  {
    assert [o][1..] == [];
  }

  /** An absolute path is appended to the base. */
  lemma OptionUrlAbsolute(v: string, base: string, storyPath: string)
    requires StartsWith(v, "/") && !StartsWith(v, "//")
    ensures OptionUrl(v, base, storyPath) == base + v
  {
    NoSchemeAfterSlash(v);
  }

  /** A reference that begins with `/` has no scheme. */
  lemma NoSchemeAfterSlash(v: string)
    requires StartsWith(v, "/")
    ensures !HasScheme(v)
  {
    var t := TrimLeft(v, IsC0OrSpace);
    assert t == v;
    assert Select(v, c => !IsUnsafe(c)) == [v[0]] + Select(v[1..], c => !IsUnsafe(c));
  }

  /** `_get_chapters_from_page`: the chapter anchors of the list container,
      in order and with repeats; when that yields nothing, every chapter
      anchor of the page, without repeated URLs. */
  function PageChapters(listed: seq<Anchor>, all: seq<Anchor>, base: string): (r: seq<ChapterLink>)
  {
    var primary := Resolve(listed, ChapterAnchor, base);
    if primary != [] then primary else ResolveDistinct(all, ChapterAnchor, base)
  }

  /** A page yields no chapters exactly when neither its list container nor
      the whole page has an anchor whose href contains a chapter token. */
  lemma PageChaptersEmpty(listed: seq<Anchor>, all: seq<Anchor>, base: string)
    ensures PageChapters(listed, all, base) == [] <==>
              && (forall i :: 0 <= i < |listed| ==> !IsChapterHref(listed[i].href))
              && (forall i :: 0 <= i < |all| ==> !IsChapterHref(all[i].href))
  {
    var f := (a: Anchor) => Link(base, a);
    FilterMapEmpty(listed, ChapterAnchor, f);
    FilterMapEmpty(all, ChapterAnchor, f);
    var fallback := Resolve(all, ChapterAnchor, base);
    AppendNewIds([], fallback, LinkUrl);
    if fallback != [] {
      assert Ids(fallback, LinkUrl)[0] in Ids(fallback, LinkUrl);
    }
  }

  /** The URL of every chapter a page yields still contains the chapter
      token its href was selected by. */
  lemma PageChapterUrls(listed: seq<Anchor>, all: seq<Anchor>, base: string, c: ChapterLink)
    requires c in PageChapters(listed, all, base)
    ensures IsChapterHref(c.url)
  {
    if Resolve(listed, ChapterAnchor, base) != [] {
      ResolvedChapterUrl(listed, base, c);
    } else {
      AppendNewFrom([], Resolve(all, ChapterAnchor, base), LinkUrl, c);
      ResolvedChapterUrl(all, base, c);
    }
  }

  lemma ResolvedChapterUrl(anchors: seq<Anchor>, base: string, c: ChapterLink)
    requires c in Resolve(anchors, ChapterAnchor, base)
    ensures IsChapterHref(c.url)
  {
    var a := ResolveFrom(anchors, ChapterAnchor, base, c);
    SuffixKeepsChapterToken(c.url, a.href);
  }

  lemma SuffixKeepsChapterToken(url: string, href: string)
    requires EndsWith(url, href) && IsChapterHref(href)
    ensures IsChapterHref(url)
  {
    if Contains(href, "/chuong-") {
      ContainsSuffix(url, href, "/chuong-");
    } else {
      ContainsSuffix(url, href, "/chapter-");
    }
  }

  /** A string contains whatever a suffix of it contains. */
  lemma ContainsSuffix(s: string, suffix: string, sub: string)
    requires EndsWith(s, suffix) && Contains(suffix, sub)
    ensures Contains(s, sub)
  {
    assert s[|s| - |suffix|..|s|] == suffix;
    ContainsSlice(s, |s| - |suffix|, |s|, sub);
  }

  /** The pagination part of `_get_chapters_pagination`: the first page's
      chapters, then, page by page, the chapters whose URL is not yet in the
      list.  A page that could not be fetched contributes no chapters. */
  function MergePages(first: seq<ChapterLink>, pages: seq<seq<ChapterLink>>): (r: seq<ChapterLink>)
    ensures first <= r
    decreases |pages|
  {
    if pages == [] then first
    else MergePages(AppendNew(first, pages[0], LinkUrl), pages[1..])
  }

  /** The merge never appends a URL already in the list: not one the first
      page has, nor one appended from an earlier page. */
  lemma {:induction false} MergePagesFresh(first: seq<ChapterLink>, pages: seq<seq<ChapterLink>>)
    ensures FreshFrom(MergePages(first, pages), |first|, LinkUrl)
    decreases |pages|
  {
    if pages != [] {
      var mid := AppendNew(first, pages[0], LinkUrl);
      MergePagesFresh(mid, pages[1..]);
      AppendNewFresh(first, pages[0], LinkUrl);
      var r := MergePages(first, pages);
      assert r == MergePages(mid, pages[1..]);
      forall i | |first| <= i < |r|
        ensures r[i].url !in Ids(r[..i], LinkUrl)
      {
        if i < |mid| {
          assert LinkUrl(mid[i]) !in Ids(mid[..i], LinkUrl);
          assert r[..i] == mid[..i] && r[i] == mid[i];
        }
      }
    }
  }

  /** Every URL of every fetched page ends up in the merged list. */
  lemma {:induction false} MergePagesCovers(first: seq<ChapterLink>, pages: seq<seq<ChapterLink>>)
    ensures var r := MergePages(first, pages);
            forall p, c :: 0 <= p < |pages| && c in pages[p] ==> c.url in Ids(r, LinkUrl)
    decreases |pages|
  {
    if pages != [] {
      var mid := AppendNew(first, pages[0], LinkUrl);
      MergePagesCovers(mid, pages[1..]);
      AppendNewIds(first, pages[0], LinkUrl);
      var r := MergePages(first, pages);
      IdsPrefix(mid, r, LinkUrl);
      forall p, c | 0 <= p < |pages| && c in pages[p]
        ensures c.url in Ids(r, LinkUrl)
      {
        if p == 0 {
          var j :| 0 <= j < |pages[0]| && pages[0][j] == c;
          assert Ids(pages[0], LinkUrl)[j] == c.url;
        } else {
          assert pages[1..][p - 1] == pages[p];
        }
      }
    }
  }

  /** The identities of a prefix are identities of the whole. */
  lemma IdsPrefix<T>(a: seq<T>, b: seq<T>, id: T -> string)
    requires a <= b
    ensures forall u :: u in Ids(a, id) ==> u in Ids(b, id)
  {
    forall u | u in Ids(a, id)
      ensures u in Ids(b, id)
    {
      var k :| 0 <= k < |a| && Ids(a, id)[k] == u;
      assert Ids(b, id)[k] == u;
    }
  }

  /** The hrefs the pagination container contributes: those matching
      `/trang-\d+`, `/page-\d+` or `/p/\d+`, ignoring case. */
  predicate IsPaginationHref(href: string) {
    Found(href, PaginationTokens)
  }

  /** The hrefs the "next" links contribute, case-sensitive. */
  predicate IsNextPageHref(href: string) {
    Contains(href, "/trang-") || Contains(href, "/page-")
  }

  predicate PaginationAnchor(a: Anchor) {
    IsPaginationHref(a.href)
  }

  predicate NextPageAnchor(a: Anchor) {
    IsNextPageHref(a.href)
  }

  function Identity(u: string): string {
    u
  }

  /** The page URLs `_find_pagination_links` collects before sorting: those
      of the pagination container first, then those of the "next" links, each
      URL kept where it first appears. */
  function PaginationCandidates(container: seq<Anchor>, nextLinks: seq<Anchor>, base: string): (c: seq<string>)
    ensures DistinctIds(c, Identity)
    ensures forall u :: u in c <==>
              u in Ids(Resolve(container, PaginationAnchor, base), LinkUrl)
              || u in Ids(Resolve(nextLinks, NextPageAnchor, base), LinkUrl)
  {
    var fromContainer := Ids(Resolve(container, PaginationAnchor, base), LinkUrl);
    var fromNext := Ids(Resolve(nextLinks, NextPageAnchor, base), LinkUrl);
    var first := AppendNew([], fromContainer, Identity);
    AppendNewDistinct([], fromContainer, Identity);
    AppendNewDistinct(first, fromNext, Identity);
    AppendNewIds([], fromContainer, Identity);
    AppendNewIds(first, fromNext, Identity);
    var c := AppendNew(first, fromNext, Identity);
    IdsIdentity(fromContainer);
    IdsIdentity(fromNext);
    IdsIdentity(first);
    IdsIdentity(c);
    c
  }

  lemma IdsIdentity(s: seq<string>)
    ensures Ids(s, Identity) == s
  {
  }

  /** `_find_pagination_links`, given the anchors of the pagination container
      and the anchors whose text mentions "next", "sau" or "tiếp": the
      collected URLs, each once, reordered by page number and nothing else —
      URLs with the same page number keep their order. */
  function PaginationLinks(container: seq<Anchor>, nextLinks: seq<Anchor>, base: string): (r: seq<string>)
    ensures DistinctIds(r, Identity)
    ensures SortedBy(r, PageNumber)
    ensures multiset(r) == multiset(PaginationCandidates(container, nextLinks, base))
    ensures forall k :: WithKey(r, PageNumber, k) == WithKey(PaginationCandidates(container, nextLinks, base), PageNumber, k)
  {
    var collected := PaginationCandidates(container, nextLinks, base);
    SortKeepsDistinct(collected, PageNumber, Identity);
    SortBy(collected, PageNumber)
  }

  /** Sorting a list without repeated identities gives a list without
      repeated identities. */
  lemma SortKeepsDistinct<T>(s: seq<T>, key: T -> int, id: T -> string)
    requires DistinctIds(s, id)
    ensures DistinctIds(SortBy(s, key), id)
  {
    var r := SortBy(s, key);
    forall i, j | 0 <= i < j < |r|
      ensures id(r[i]) != id(r[j])
    {
      assert r[i] in multiset(s) && r[j] in multiset(s);
      var p :| 0 <= p < |s| && s[p] == r[i];
      var q :| 0 <= q < |s| && s[q] == r[j];
      if p == q {
        DistinctAtMostOnce(s, r[i], id);
        TwiceInMultiset(r, i, j);
      }
    }
  }

  /** A list without repeated identities holds each element at most once. */
  lemma {:induction false} DistinctAtMostOnce<T>(s: seq<T>, x: T, id: T -> string)
    requires DistinctIds(s, id)
    ensures multiset(s)[x] <= 1
    decreases |s|
  {
    if s != [] {
      DistinctAtMostOnce(s[1..], x, id);
      assert s == [s[0]] + s[1..];
      if s[0] == x {
        assert x !in s[1..] by {
          forall k | 0 <= k < |s| - 1
            ensures s[1..][k] != x
          {
            assert s[1..][k] == s[k + 1];
          }
        }
      }
    }
  }

  /** An element at two positions occurs at least twice. */
  lemma TwiceInMultiset<T>(r: seq<T>, i: int, j: int)
    requires 0 <= i < j < |r| && r[i] == r[j]
    ensures multiset(r)[r[i]] >= 2
  {
    assert r == r[..j] + [r[j]] + r[j + 1..];
    assert r[i] in r[..j];
  }
}

=== FILE: cleanup.dfy ===
/** The clean-up every adapter's `get_chapter_content` applies to the text of
    a chapter.  The regular-expression substitutions are modelled as passes
    over the string, each of which rewrites maximal runs:
    - `[ \t]+` becomes one space (`CollapseBlanks`);
    - `\n[ \t]+` becomes `\n` (`DropBlanksAfterNewline`);
    - `[ \t]+\n` becomes `\n` (`DropBlanksBeforeNewline`);
    - `\n{3,}` becomes `\n\n` (`CapNewlines`). */
module Cleanup {
  import opened Wrappers
  import opened Text

  // ---------------------------------------------------------------------------
  // Shapes of text
  // ---------------------------------------------------------------------------

  predicate NoTab(s: string) {
    forall i :: 0 <= i < |s| ==> s[i] != '\t'
  }

  /** No two adjacent characters form a pair that `bad` rejects. */
  predicate NoPair(s: string, bad: (char, char) -> bool) {
    forall i :: 0 <= i < |s| - 1 ==> !bad(s[i], s[i + 1])
  }

  predicate DoubleSpace(a: char, b: char) {
    a == ' ' && b == ' '
  }

  predicate BlankAfterNewline(a: char, b: char) {
    a == '\n' && IsBlank(b)
  }

  predicate BlankBeforeNewline(a: char, b: char) {
    IsBlank(a) && b == '\n'
  }

  predicate NoTripleNewline(s: string) {
    forall i :: 0 <= i < |s| - 2 ==> !(s[i] == '\n' && s[i + 1] == '\n' && s[i + 2] == '\n')
  }

  /** The shape the clean-up promises: no tab, no run of two spaces, no space
      or tab next to a newline, and nothing for `strip()` to remove. */
  predicate Tidy(s: string) {
    && NoTab(s)
    && NoPair(s, DoubleSpace)
    && NoPair(s, BlankAfterNewline)
    && NoPair(s, BlankBeforeNewline)
    && IsStripped(s)
  }

  predicate IsNewline(c: char) {
    c == '\n'
  }

  predicate NotBlank(c: char) {
    !IsBlank(c)
  }

  predicate NotNewline(c: char) {
    c != '\n'
  }

  // ---------------------------------------------------------------------------
  // Adjacent pairs under concatenation and slicing
  // ---------------------------------------------------------------------------

  lemma NoPairConcat(a: string, b: string, bad: (char, char) -> bool)
    requires NoPair(a, bad) && NoPair(b, bad)
    requires a == [] || b == [] || !bad(a[|a| - 1], b[0])
    ensures NoPair(a + b, bad)
  {
    var s := a + b;
    forall i | 0 <= i < |s| - 1
      ensures !bad(s[i], s[i + 1])
    {
      if i < |a| - 1 {
        assert s[i] == a[i] && s[i + 1] == a[i + 1];
      } else if i >= |a| {
        assert s[i] == b[i - |a|] && s[i + 1] == b[i + 1 - |a|];
      }
    }
  }

  lemma NoPairSlice(s: string, lo: int, hi: int, bad: (char, char) -> bool)
    requires 0 <= lo <= hi <= |s| && NoPair(s, bad)
    ensures NoPair(s[lo..hi], bad)
  {
    var t := s[lo..hi];
    forall i | 0 <= i < |t| - 1
      ensures !bad(t[i], t[i + 1])
    {
      assert t[i] == s[lo + i] && t[i + 1] == s[lo + i + 1];
    }
  }

  lemma NoTabConcat(a: string, b: string)
    requires NoTab(a) && NoTab(b)
    ensures NoTab(a + b)
  {
  }

  lemma NoTabSlice(s: string, lo: int, hi: int)
    requires 0 <= lo <= hi <= |s| && NoTab(s)
    ensures NoTab(s[lo..hi])
  {
    assert forall i :: 0 <= i < hi - lo ==> s[lo..hi][i] == s[lo + i];
  }

  lemma NoTripleSlice(s: string, lo: int, hi: int)
    requires 0 <= lo <= hi <= |s| && NoTripleNewline(s)
    ensures NoTripleNewline(s[lo..hi])
  {
    var t := s[lo..hi];
    forall i | 0 <= i < |t| - 2
      ensures !(t[i] == '\n' && t[i + 1] == '\n' && t[i + 2] == '\n')
    {
      assert t[i] == s[lo + i] && t[i + 1] == s[lo + i + 1] && t[i + 2] == s[lo + i + 2];
    }
  }

  /** What a slice `t` of the text, starting at `lo`, keeps of every shape. */
  lemma ShapesSlice(s: string, lo: int, t: string)
    requires 0 <= lo && lo + |t| <= |s| && t == s[lo..lo + |t|]
    ensures NoTab(s) ==> NoTab(t)
    ensures NoPair(s, DoubleSpace) ==> NoPair(t, DoubleSpace)
    ensures NoPair(s, BlankAfterNewline) ==> NoPair(t, BlankAfterNewline)
    ensures NoPair(s, BlankBeforeNewline) ==> NoPair(t, BlankBeforeNewline)
    ensures NoTripleNewline(s) ==> NoTripleNewline(t)
  {
    var hi := lo + |t|;
    if NoTab(s) { NoTabSlice(s, lo, hi); }
    if NoPair(s, DoubleSpace) { NoPairSlice(s, lo, hi, DoubleSpace); }
    if NoPair(s, BlankAfterNewline) { NoPairSlice(s, lo, hi, BlankAfterNewline); }
    if NoPair(s, BlankBeforeNewline) { NoPairSlice(s, lo, hi, BlankBeforeNewline); }
    if NoTripleNewline(s) { NoTripleSlice(s, lo, hi); }
  }

  // ---------------------------------------------------------------------------
  // The passes
  // ---------------------------------------------------------------------------

  /** `re.sub(r'[ \t]+', ' ', s)`: the characters other than spaces and tabs
      are kept in order, and no tab or pair of spaces is left. */
  function CollapseBlanks(s: string): (r: string)
    ensures Select(r, NotBlank) == Select(s, NotBlank)
    ensures NoTab(r) && NoPair(r, DoubleSpace)
    ensures r == [] <==> s == []
    ensures r != [] && !IsBlank(s[0]) ==> r[0] == s[0]
  {
    CollapseShapes(s);
    Collapse(s)
  }

  /** The substitution one character at a time: a space or tab that another
      one follows is dropped, and the last of each run becomes a space. */
  function Collapse(s: string): string {
    if s == [] then []
    else if IsBlank(s[0]) && |s| > 1 && IsBlank(s[1]) then Collapse(s[1..])
    else if IsBlank(s[0]) then " " + Collapse(s[1..])
    else [s[0]] + Collapse(s[1..])
  }

  /** What each step of `Collapse` keeps and what it leaves out. */
  lemma {:induction false} CollapseShapes(s: string)
    ensures Select(Collapse(s), NotBlank) == Select(s, NotBlank)
    ensures NoTab(Collapse(s)) && NoPair(Collapse(s), DoubleSpace)
    ensures Collapse(s) == [] <==> s == []
    ensures Collapse(s) != [] && !IsBlank(s[0]) ==> Collapse(s)[0] == s[0]
  {
    if s != [] {
      CollapseShapes(s[1..]);
      var rec := Collapse(s[1..]);
      assert Select(s, NotBlank) == Select([s[0]], NotBlank) + Select(s[1..], NotBlank) by {
        assert s == [s[0]] + s[1..];
        SelectConcat([s[0]], s[1..], NotBlank);
      }
      if IsBlank(s[0]) && |s| > 1 && IsBlank(s[1]) {
        assert Collapse(s) == rec;
      } else {
        var head := if IsBlank(s[0]) then " " else [s[0]];
        assert Collapse(s) == head + rec;
        assert Select(head, NotBlank) == Select([s[0]], NotBlank);
        assert rec == [] || !DoubleSpace(head[|head| - 1], rec[0]) by {
          if rec != [] && IsBlank(s[0]) {
            assert !IsBlank(s[1]);
          }
        }
        SelectConcat(head, rec, NotBlank);
        NoTabConcat(head, rec);
        NoPairConcat(head, rec, DoubleSpace);
      }
    }
  }

  /** Collapsing is done part by part when the parts do not meet inside a
      run of blanks. */
  lemma {:induction false} CollapseConcat(a: string, b: string)
    requires a == [] || b == [] || !IsBlank(a[|a| - 1]) || !IsBlank(b[0])
    ensures Collapse(a + b) == Collapse(a) + Collapse(b)
  {
    if a == [] {
      assert a + b == b;
    } else {
      assert (a + b)[0] == a[0] && (a + b)[1..] == a[1..] + b;
      assert a[1..] == [] || a[1..][|a[1..]| - 1] == a[|a| - 1];
      CollapseConcat(a[1..], b);
      if |a| > 1 {
        assert (a + b)[1] == a[1];
      }
      ConcatAssoc(if IsBlank(a[0]) then " " else [a[0]], Collapse(a[1..]), Collapse(b));
    }
  }

  lemma ConcatAssoc(x: string, y: string, z: string)
    ensures x + (y + z) == (x + y) + z
  {
  }

  /** A run of spaces and tabs between two non-blank characters becomes
      exactly one space; the text on either side is collapsed on its own. */
  lemma CollapseSeparator(a: string, run: string, b: string)
    requires a == [] || !IsBlank(a[|a| - 1])
    requires run != [] && forall i :: 0 <= i < |run| ==> IsBlank(run[i])
    requires b == [] || !IsBlank(b[0])
    ensures CollapseBlanks(a + run + b) == CollapseBlanks(a) + " " + CollapseBlanks(b)
  {
    assert a + run + b == a + (run + b);
    CollapseConcat(a, run + b);
    CollapseConcat(run, b);
    CollapseAllBlank(run);
  }

  /** A text of spaces and tabs only collapses to one space. */
  lemma {:induction false} CollapseAllBlank(run: string)
    requires run != [] && forall i :: 0 <= i < |run| ==> IsBlank(run[i])
    ensures Collapse(run) == " "
  {
    if |run| > 1 {
      assert IsBlank(run[0]) && IsBlank(run[1]);
      CollapseAllBlank(run[1..]);
    }
  }

  /** `re.sub(r'\n[ \t]+', '\n', s)`: the spaces and tabs that follow a
      newline are removed. */
  function DropBlanksAfterNewline(s: string): (r: string)
    ensures r == [] <==> s == []
    ensures r != [] ==> r[0] == s[0]
    decreases |s|
  {
    if s == [] then []
    else if s[0] == '\n' then "\n" + DropBlanksAfterNewline(TrimLeft(s[1..], IsBlank))
    else [s[0]] + DropBlanksAfterNewline(s[1..])
  }

  /** The run of blanks a newline is followed by, and what follows it. */
  lemma AfterNewlineSplit(s: string) returns (run: string, rest: string)
    requires s != [] && s[0] == '\n'
    ensures rest == TrimLeft(s[1..], IsBlank) && s == "\n" + run + rest
    ensures rest == s[|s| - |rest|..] && 1 <= |s| - |rest|
    ensures forall i :: 0 <= i < |run| ==> IsBlank(run[i])
    ensures rest == [] || !IsBlank(rest[0])
  {
    rest := TrimLeft(s[1..], IsBlank);
    run := s[1..|s| - |rest|];
    assert s[1..] == run + rest;
  }

  /** A pass that keeps a leading run, or drops it when it has nothing the
      filter selects, selects the same from it. */
  lemma HeadKeeps(s: string, k: int, head: string, keep: char -> bool)
    requires 0 <= k <= |s|
    requires head == s[..k]
             || ((forall i :: 0 <= i < |head| ==> !keep(head[i])) && (forall i :: 0 <= i < k ==> !keep(s[i])))
    ensures Select(s, keep) == Select(head, keep) + Select(s[k..], keep)
  {
    assert s == s[..k] + s[k..];
    SelectConcat(s[..k], s[k..], keep);
    if head != s[..k] {
      SelectNone(s[..k], keep);
      SelectNone(head, keep);
    }
  }

  /** Only spaces and tabs are removed. */
  lemma {:induction false} DropAfterKeepsContent(s: string)
    ensures Select(DropBlanksAfterNewline(s), NotBlank) == Select(s, NotBlank)
    decreases |s|
  {
    if s != [] {
      if s[0] == '\n' {
        var run, rest := AfterNewlineSplit(s);
        DropAfterKeepsContent(rest);
        assert DropBlanksAfterNewline(s) == "\n" + DropBlanksAfterNewline(rest);
        DropAfterNewlineContent(s, run, rest, DropBlanksAfterNewline(rest));
      } else {
        DropAfterKeepsContent(s[1..]);
        assert Select(s, NotBlank) == Select([s[0]], NotBlank) + Select(s[1..], NotBlank) by {
          assert s == [s[0]] + s[1..];
          SelectConcat([s[0]], s[1..], NotBlank);
        }
        assert Select(DropBlanksAfterNewline(s), NotBlank)
            == Select([s[0]], NotBlank) + Select(DropBlanksAfterNewline(s[1..]), NotBlank) by {
          SelectConcat([s[0]], DropBlanksAfterNewline(s[1..]), NotBlank);
        }
      }
    }
  }

  /** A newline and the blanks after it give just the newline. */
  lemma DropAfterNewlineContent(s: string, run: string, rest: string, rec: string)
    requires s == "\n" + run + rest && forall i :: 0 <= i < |run| ==> IsBlank(run[i])
    requires Select(rec, NotBlank) == Select(rest, NotBlank)
    ensures Select("\n" + rec, NotBlank) == Select(s, NotBlank)
  {
    SelectNone(run, NotBlank);
    SelectConcat("\n" + run, rest, NotBlank);
    SelectConcat("\n", run, NotBlank);
    SelectConcat("\n", rec, NotBlank);
  }

  /** No newline is followed by a space or tab any more. */
  lemma {:induction false} DropAfterClears(s: string)
    ensures NoPair(DropBlanksAfterNewline(s), BlankAfterNewline)
    decreases |s|
  {
    if s != [] {
      if s[0] == '\n' {
        var run, rest := AfterNewlineSplit(s);
        DropAfterClears(rest);
        NoPairConcat("\n", DropBlanksAfterNewline(rest), BlankAfterNewline);
      } else {
        DropAfterClears(s[1..]);
        NoPairConcat([s[0]], DropBlanksAfterNewline(s[1..]), BlankAfterNewline);
      }
    }
  }

  /** The pass keeps a text free of tabs. */
  lemma {:induction false} DropAfterKeepsNoTab(s: string)
    requires NoTab(s)
    ensures NoTab(DropBlanksAfterNewline(s))
    decreases |s|
  {
    if s != [] {
      if s[0] == '\n' {
        var run, rest := AfterNewlineSplit(s);
        NoTabSlice(s, |s| - |rest|, |s|);
        DropAfterKeepsNoTab(rest);
      } else {
        NoTabSlice(s, 1, |s|);
        assert s[1..|s|] == s[1..];
        DropAfterKeepsNoTab(s[1..]);
      }
    }
  }

  /** The pass keeps a text free of double spaces. */
  lemma {:induction false} DropAfterKeepsSingleSpaces(s: string)
    requires NoPair(s, DoubleSpace)
    ensures NoPair(DropBlanksAfterNewline(s), DoubleSpace)
    decreases |s|
  {
    if s != [] {
      var k := if s[0] == '\n' then |s| - |TrimLeft(s[1..], IsBlank)| else 1;
      assert k >= 1;
      assert s[k..] == s[k..|s|];
      NoPairSlice(s, k, |s|, DoubleSpace);
      DropAfterKeepsSingleSpaces(s[k..]);
      SingleSpacesStep(s, k);
    }
  }

  /** One step of the pass joins a first character to the rest without
      creating a double space. */
  lemma SingleSpacesStep(s: string, k: int)
    requires s != [] && NoPair(s, DoubleSpace)
    requires k == if s[0] == '\n' then |s| - |TrimLeft(s[1..], IsBlank)| else 1
    requires NoPair(DropBlanksAfterNewline(s[k..]), DoubleSpace)
    ensures NoPair(DropBlanksAfterNewline(s), DoubleSpace)
  {
    var rec := DropBlanksAfterNewline(s[k..]);
    if s[0] == '\n' {
      var run, rest := AfterNewlineSplit(s);
      NoPairConcat("\n", rec, DoubleSpace);
    } else {
      assert rec == [] || rec[0] == s[1];
      NoPairConcat([s[0]], rec, DoubleSpace);
    }
  }

  /** `re.sub(r'[ \t]+\n', '\n', s)`: a run of spaces and tabs that ends
      at a newline is removed. */
  function DropBlanksBeforeNewline(s: string): (r: string)
    ensures r == [] <==> s == []
    ensures r != [] ==> r[0] == s[0] || (IsBlank(s[0]) && r[0] == '\n')
    decreases |s|
  {
    if s == [] then []
    else if IsBlank(s[0]) then
      var rest := TrimLeft(s, IsBlank);
      if rest != [] && rest[0] == '\n' then DropBlanksBeforeNewline(rest)
      else s[..|s| - |rest|] + DropBlanksBeforeNewline(rest)
    else [s[0]] + DropBlanksBeforeNewline(s[1..])
  }

  /** Where the pass resumes after the first character or run of blanks. */
  function BeforeStep(s: string): (k: nat)
    requires s != []
    ensures 1 <= k <= |s|
  {
    if IsBlank(s[0]) then |s| - |TrimLeft(s, IsBlank)| else 1
  }

  /** The pass over a text is the pass over its first step and the rest. */
  lemma BeforeUnfold(s: string) returns (head: string)
    requires s != []
    ensures var k := BeforeStep(s);
            && s[k..] == s[k..|s|]
            && DropBlanksBeforeNewline(s) == head + DropBlanksBeforeNewline(s[k..])
            && (head == s[..k] || (head == [] && IsBlank(s[0]) && s[k..] != [] && s[k] == '\n'))
            && (forall i :: 0 <= i < k && IsBlank(s[0]) ==> IsBlank(s[i]))
            && (IsBlank(s[0]) ==> k == |s| || !IsBlank(s[k]))
            && (!IsBlank(s[0]) ==> k == 1)
  {
    var k := BeforeStep(s);
    if IsBlank(s[0]) {
      var rest := TrimLeft(s, IsBlank);
      assert rest == s[k..];
      head := if rest != [] && rest[0] == '\n' then [] else s[..k];
    } else {
      head := [s[0]];
      assert s[..1] == [s[0]];
    }
  }

  /** Only spaces and tabs are removed. */
  lemma {:induction false} DropBeforeKeepsContent(s: string)
    ensures Select(DropBlanksBeforeNewline(s), NotBlank) == Select(s, NotBlank)
    decreases |s|
  {
    if s != [] {
      var k := BeforeStep(s);
      var head := BeforeUnfold(s);
      DropBeforeKeepsContent(s[k..]);
      HeadKeeps(s, k, head, NotBlank);
      SelectConcat(head, DropBlanksBeforeNewline(s[k..]), NotBlank);
    }
  }

  /** No newline is preceded by a space or tab any more. */
  lemma {:induction false} DropBeforeClears(s: string)
    ensures NoPair(DropBlanksBeforeNewline(s), BlankBeforeNewline)
    decreases |s|
  {
    if s != [] {
      var k := BeforeStep(s);
      var head := BeforeUnfold(s);
      var rec := DropBlanksBeforeNewline(s[k..]);
      DropBeforeClears(s[k..]);
      assert NoPair(head, BlankBeforeNewline);
      NoPairConcat(head, rec, BlankBeforeNewline);
    }
  }

  /** The pass keeps a text free of tabs. */
  lemma {:induction false} DropBeforeKeepsNoTab(s: string)
    requires NoTab(s)
    ensures NoTab(DropBlanksBeforeNewline(s))
    decreases |s|
  {
    if s != [] {
      var k := BeforeStep(s);
      var head := BeforeUnfold(s);
      NoTabSlice(s, k, |s|);
      NoTabSlice(s, 0, k);
      assert s[0..k] == s[..k];
      DropBeforeKeepsNoTab(s[k..]);
    }
  }

  /** The pass keeps a text free of double spaces. */
  lemma {:induction false} DropBeforeKeepsSingleSpaces(s: string)
    requires NoPair(s, DoubleSpace)
    ensures NoPair(DropBlanksBeforeNewline(s), DoubleSpace)
    decreases |s|
  {
    if s != [] {
      var k := BeforeStep(s);
      var head := BeforeUnfold(s);
      NoPairSlice(s, k, |s|, DoubleSpace);
      NoPairSlice(s, 0, k, DoubleSpace);
      assert s[0..k] == s[..k];
      DropBeforeKeepsSingleSpaces(s[k..]);
      NoPairConcat(head, DropBlanksBeforeNewline(s[k..]), DoubleSpace);
    }
  }

  /** The pass keeps newlines free of following spaces and tabs. */
  lemma {:induction false} DropBeforeKeepsAfterNewline(s: string)
    requires NoPair(s, BlankAfterNewline)
    ensures NoPair(DropBlanksBeforeNewline(s), BlankAfterNewline)
    decreases |s|
  {
    if s != [] {
      var k := BeforeStep(s);
      var head := BeforeUnfold(s);
      NoPairSlice(s, k, |s|, BlankAfterNewline);
      NoPairSlice(s, 0, k, BlankAfterNewline);
      assert s[0..k] == s[..k];
      DropBeforeKeepsAfterNewline(s[k..]);
      var rec := DropBlanksBeforeNewline(s[k..]);
      if head != [] && rec != [] && k < |s| {
        assert head[|head| - 1] == s[k - 1];
        assert !BlankAfterNewline(s[k - 1], s[k]);
      }
      NoPairConcat(head, rec, BlankAfterNewline);
    }
  }

  /** `re.sub(r'\n{3,}', '\n\n', s)`: every run of three or more newlines
      becomes two. */
  function CapNewlines(s: string): (r: string)
    ensures r == [] <==> s == []
    ensures r != [] ==> r[0] == s[0]
    decreases |s|
  {
    if s == [] then []
    else if s[0] == '\n' then
      var rest := TrimLeft(s, IsNewline);
      var n := |s| - |rest|;
      (if n >= 3 then "\n\n" else s[..n]) + CapNewlines(rest)
    else [s[0]] + CapNewlines(s[1..])
  }

  /** Where the pass resumes after the first character or run of newlines. */
  function CapStep(s: string): (k: nat)
    requires s != []
    ensures 1 <= k <= |s|
  {
    if s[0] == '\n' then |s| - |TrimLeft(s, IsNewline)| else 1
  }

  /** The pass over a text is the pass over its first step and the rest. */
  lemma CapUnfold(s: string) returns (head: string)
    requires s != []
    ensures var k := CapStep(s);
            && s[k..] == s[k..|s|]
            && CapNewlines(s) == head + CapNewlines(s[k..])
            && 1 <= |head| <= k
            && head[|head| - 1] == s[k - 1]
            && (head == s[..k] || (s[0] == '\n' && k >= 3 && head == "\n\n"))
            && (s[0] != '\n' ==> k == 1)
            && (s[0] == '\n' ==> |head| <= 2 && (forall i :: 0 <= i < |head| ==> head[i] == '\n'))
            && (s[0] == '\n' ==> (forall i :: 0 <= i < k ==> s[i] == '\n') && (k == |s| || s[k] != '\n'))
  {
    var k := CapStep(s);
    if s[0] == '\n' {
      var rest := TrimLeft(s, IsNewline);
      assert rest == s[k..];
      assert forall i :: 0 <= i < k ==> s[i] == '\n';
      head := if k >= 3 then "\n\n" else s[..k];
      assert CapNewlines(s) == head + CapNewlines(rest);
      assert forall i :: 0 <= i < |head| ==> head[i] == '\n' by {
        if k < 3 {
          assert forall i :: 0 <= i < k ==> head[i] == s[i];
        }
      }
      assert 1 <= |head| <= k && head[|head| - 1] == s[k - 1];
      assert k == |s| || s[k] != '\n' by {
        assert rest == [] || !IsNewline(rest[0]);
      }
    } else {
      head := [s[0]];
      assert s[..1] == [s[0]];
    }
  }

  /** Text without three newlines in a row has nothing to cap. */
  lemma {:induction false} CapNoop(s: string)
    requires NoTripleNewline(s)
    ensures CapNewlines(s) == s
    decreases |s|
  {
    if s != [] {
      var k := CapStep(s);
      var head := CapUnfold(s);
      if s[0] == '\n' {
        ShortRun(s, k);
      }
      assert head == s[..k];
      NoTripleSuffix(s, k);
      CapNoop(s[k..]);
      assert s == s[..k] + s[k..];
    }
  }

  lemma ShortRun(s: string, k: nat)
    requires NoTripleNewline(s) && k <= |s|
    requires forall i :: 0 <= i < k ==> s[i] == '\n'
    ensures k < 3
  {
    if |s| >= 3 {
      assert !(s[0] == '\n' && s[1] == '\n' && s[2] == '\n');
    }
  }

  lemma NoTripleSuffix(s: string, k: nat)
    requires NoTripleNewline(s) && k <= |s|
    ensures NoTripleNewline(s[k..])
  {
    var t := s[k..];
    forall i | 0 <= i < |t| - 2
      ensures !(t[i] == '\n' && t[i + 1] == '\n' && t[i + 2] == '\n')
    {
      assert t[i] == s[k + i] && t[i + 1] == s[k + i + 1] && t[i + 2] == s[k + i + 2];
    }
  }

  /** Only newlines are removed. */
  lemma {:induction false} CapKeepsContent(s: string)
    ensures Select(CapNewlines(s), NotNewline) == Select(s, NotNewline)
    decreases |s|
  {
    if s != [] {
      var k := CapStep(s);
      var head := CapUnfold(s);
      CapKeepsContent(s[k..]);
      HeadKeeps(s, k, head, NotNewline);
      SelectConcat(head, CapNewlines(s[k..]), NotNewline);
    }
  }

  /** No run of three newlines is left. */
  lemma {:induction false} CapClears(s: string)
    ensures NoTripleNewline(CapNewlines(s))
    decreases |s|
  {
    if s != [] {
      var k := CapStep(s);
      var head := CapUnfold(s);
      CapClears(s[k..]);
      var rec := CapNewlines(s[k..]);
      var r := head + rec;
      forall i | 0 <= i < |r| - 2
        ensures !(r[i] == '\n' && r[i + 1] == '\n' && r[i + 2] == '\n')
      {
        if i >= |head| {
          assert r[i] == rec[i - |head|] && r[i + 1] == rec[i + 1 - |head|] && r[i + 2] == rec[i + 2 - |head|];
        } else if s[0] == '\n' {
          assert rec[0] == s[k];
          assert r[|head|] == rec[0];
        } else {
          assert r[0] == s[0];
        }
      }
    }
  }

  /** The pass keeps a text free of tabs. */
  lemma {:induction false} CapKeepsNoTab(s: string)
    requires NoTab(s)
    ensures NoTab(CapNewlines(s))
    decreases |s|
  {
    if s != [] {
      var k := CapStep(s);
      var head := CapUnfold(s);
      NoTabSlice(s, k, |s|);
      NoTabSlice(s, 0, k);
      assert s[0..k] == s[..k];
      CapKeepsNoTab(s[k..]);
    }
  }

  /** The pass keeps a text free of any adjacent pair that two newlines do
      not form. */
  lemma {:induction false} CapKeepsPairs(s: string, bad: (char, char) -> bool)
    requires NoPair(s, bad) && !bad('\n', '\n')
    ensures NoPair(CapNewlines(s), bad)
    decreases |s|
  {
    if s != [] {
      var k := CapStep(s);
      var head := CapUnfold(s);
      NoPairSlice(s, k, |s|, bad);
      NoPairSlice(s, 0, k, bad);
      assert s[0..k] == s[..k];
      CapKeepsPairs(s[k..], bad);
      var rec := CapNewlines(s[k..]);
      if rec != [] {
        assert !bad(s[k - 1], s[k]);
      }
      NoPairConcat(head, rec, bad);
    }
  }

  // ---------------------------------------------------------------------------
  // Stripping and narrowing
  // ---------------------------------------------------------------------------

  /** `strip()` returns a slice, so it keeps every shape, and leaves nothing
      to strip. */
  lemma StripKeepsShapes(s: string)
    ensures NoTab(s) ==> NoTab(Strip(s))
    ensures NoPair(s, DoubleSpace) ==> NoPair(Strip(s), DoubleSpace)
    ensures NoPair(s, BlankAfterNewline) ==> NoPair(Strip(s), BlankAfterNewline)
    ensures NoPair(s, BlankBeforeNewline) ==> NoPair(Strip(s), BlankBeforeNewline)
    ensures NoTripleNewline(s) ==> NoTripleNewline(Strip(s))
    ensures IsStripped(Strip(s))
  {
    var lo := StripSlice(s);
    ShapesSlice(s, lo, Strip(s));
  }

  /** Where in the text the stripped text lies. */
  lemma StripSlice(s: string) returns (lo: int)
    ensures 0 <= lo && lo + |Strip(s)| <= |s| && Strip(s) == s[lo..lo + |Strip(s)|]
  {
    var r := Strip(s);
    lo :| TrimmedSliceAt(s, r, lo, IsSpace);
  }

  /** `strip()` removes only whitespace. */
  lemma StripKeepsContent(s: string)
    ensures Select(Strip(s), NotSpace) == Select(s, NotSpace)
  {
    TrimKeeps(s, IsSpace, NotSpace);
  }

  // ---------------------------------------------------------------------------
  // Joining cleaned pieces
  // ---------------------------------------------------------------------------

  /** A separator of one or two newlines. */
  predicate NewlineSeparator(sep: string) {
    1 <= |sep| <= 2 && forall i :: 0 <= i < |sep| ==> sep[i] == '\n'
  }

  /** The joined text begins with the first piece and ends with the last. */
  lemma {:induction false} JoinEnds(ps: seq<string>, sep: string)
    requires |ps| >= 1 && forall k :: 0 <= k < |ps| ==> ps[k] != []
    ensures var j := Join(ps, sep);
            j != [] && j[0] == ps[0][0] && j[|j| - 1] == ps[|ps| - 1][|ps[|ps| - 1]| - 1]
    decreases |ps|
  {
    if |ps| >= 2 {
      JoinEnds(ps[1..], sep);
    }
  }

  /** Tidy pieces joined by newlines give a tidy text. */
  lemma {:induction false} JoinTidy(ps: seq<string>, sep: string)
    requires NewlineSeparator(sep)
    requires AllTidy(ps)
    ensures Tidy(Join(ps, sep))
    decreases |ps|
  {
    if |ps| >= 2 {
      var rest := Join(ps[1..], sep);
      JoinTidy(ps[1..], sep);
      AllTidyPieces(ps);
      AllTidyPieces(ps[1..]);
      JoinEnds(ps[1..], sep);
      var p := ps[0];
      JoinEnds(ps, sep);
      assert Join(ps, sep) == (p + sep) + rest;
      assert NoPair(sep, DoubleSpace) && NoPair(sep, BlankAfterNewline) && NoPair(sep, BlankBeforeNewline);
      NoPairConcat(p, sep, DoubleSpace);
      NoPairConcat(p + sep, rest, DoubleSpace);
      NoPairConcat(p, sep, BlankAfterNewline);
      NoPairConcat(p + sep, rest, BlankAfterNewline);
      NoPairConcat(p, sep, BlankBeforeNewline);
      NoPairConcat(p + sep, rest, BlankBeforeNewline);
    }
  }

  /** Pieces without three newlines in a row that neither begin nor end with
      a newline, joined by one or two newlines, have no three newlines in a
      row. */
  lemma {:induction false} JoinNoTriple(ps: seq<string>, sep: string)
    requires NewlineSeparator(sep)
    requires forall k :: 0 <= k < |ps| ==> ps[k] != [] && NoTripleNewline(ps[k])
    requires forall k :: 0 <= k < |ps| ==> ps[k][0] != '\n' && ps[k][|ps[k]| - 1] != '\n'
    ensures NoTripleNewline(Join(ps, sep))
    decreases |ps|
  {
    if |ps| >= 2 {
      var rest := Join(ps[1..], sep);
      JoinNoTriple(ps[1..], sep);
      JoinEnds(ps[1..], sep);
      var p := ps[0];
      var j := p + sep + rest;
      assert Join(ps, sep) == j;
      forall i | 0 <= i < |j| - 2
        ensures !(j[i] == '\n' && j[i + 1] == '\n' && j[i + 2] == '\n')
      {
        if i + 2 < |p| {
          assert j[i] == p[i] && j[i + 1] == p[i + 1] && j[i + 2] == p[i + 2];
        } else if i >= |p| + |sep| {
          var m := i - |p| - |sep|;
          assert j[i] == rest[m] && j[i + 1] == rest[m + 1] && j[i + 2] == rest[m + 2];
        } else if i < |p| {
          assert j[|p| - 1] == p[|p| - 1];
        } else {
          assert j[|p| + |sep|] == rest[0];
        }
      }
    }
  }

  // ---------------------------------------------------------------------------
  // The clean-up of `get_chapter_content`
  // ---------------------------------------------------------------------------

  /** The three substitutions every clean-up starts with. */
  function Normalize(text: string): (r: string)
    ensures NoTab(r) && NoPair(r, DoubleSpace)
    ensures NoPair(r, BlankAfterNewline) && NoPair(r, BlankBeforeNewline)
    ensures Select(r, NotBlank) == Select(text, NotBlank)
  {
    var a := CollapseBlanks(text);
    var b := DropBlanksAfterNewline(a);
    DropAfterKeepsContent(a);
    DropAfterClears(a);
    DropAfterKeepsNoTab(a);
    DropAfterKeepsSingleSpaces(a);
    var c := DropBlanksBeforeNewline(b);
    DropBeforeKeepsContent(b);
    DropBeforeClears(b);
    DropBeforeKeepsNoTab(b);
    DropBeforeKeepsSingleSpaces(b);
    DropBeforeKeepsAfterNewline(b);
    c
  }

  /** The clean-up of one `<p>` element's text: the three substitutions and
      `strip()`.  The result is tidy and keeps every non-whitespace character
      in order. */
  function CleanParagraph(text: string): (r: string)
    ensures Tidy(r)
    ensures Select(r, NotSpace) == Select(text, NotSpace)
  {
    var c := Normalize(text);
    StripKeepsShapes(c);
    StripKeepsContent(c);
    SelectNarrow(c, NotBlank, NotSpace);
    SelectNarrow(text, NotBlank, NotSpace);
    Strip(c)
  }

  /** The clean-up of a content element without `<p>` children: the three
      substitutions, at most two newlines in a row, and `strip()`. */
  function CleanText(text: string): (r: string)
    ensures Tidy(r) && NoTripleNewline(r)
    ensures Select(r, NotSpace) == Select(text, NotSpace)
  {
    var c := Normalize(text);
    var d := CapNewlines(c);
    CapClears(c);
    CapKeepsNoTab(c);
    CapKeepsPairs(c, DoubleSpace);
    CapKeepsPairs(c, BlankAfterNewline);
    CapKeepsPairs(c, BlankBeforeNewline);
    CapKeepsContent(c);
    StripKeepsShapes(d);
    StripKeepsContent(d);
    SelectNarrow(d, NotNewline, NotSpace);
    SelectNarrow(c, NotNewline, NotSpace);
    SelectNarrow(c, NotBlank, NotSpace);
    SelectNarrow(text, NotBlank, NotSpace);
    Strip(d)
  }

  // ---------------------------------------------------------------------------
  // Tidy text is left alone
  // ---------------------------------------------------------------------------

  /** Without tabs or double spaces there is no run to collapse. */
  lemma {:induction false} CollapseTidy(s: string)
    requires NoTab(s) && NoPair(s, DoubleSpace)
    ensures CollapseBlanks(s) == s
  {
    CollapseKeepsTidy(s);
  }

  lemma {:induction false} CollapseKeepsTidy(s: string)
    requires NoTab(s) && NoPair(s, DoubleSpace)
    ensures Collapse(s) == s
  {
    if s != [] {
      NoTabSlice(s, 1, |s|);
      NoPairSlice(s, 1, |s|, DoubleSpace);
      CollapseKeepsTidy(s[1..]);
      if |s| > 1 {
        assert !DoubleSpace(s[0], s[1]) && s[0] != '\t' && s[1] != '\t';
      }
      assert s == [s[0]] + s[1..];
    }
  }

  /** A newline not followed by a space or tab has nothing to drop. */
  lemma {:induction false} DropAfterTidy(s: string)
    requires NoPair(s, BlankAfterNewline)
    ensures DropBlanksAfterNewline(s) == s
    decreases |s|
  {
    if s != [] {
      NoPairSlice(s, 1, |s|, BlankAfterNewline);
      DropAfterTidy(s[1..]);
      if s[0] == '\n' {
        assert TrimLeft(s[1..], IsBlank) == s[1..] by {
          assert s[1..] == [] || !IsBlank(s[1..][0]) by {
            if |s| > 1 {
              assert !BlankAfterNewline(s[0], s[1]);
            }
          }
        }
      }
      assert s == [s[0]] + s[1..];
    }
  }

  /** A newline not preceded by a space or tab has nothing to drop. */
  lemma {:induction false} DropBeforeTidy(s: string)
    requires NoPair(s, BlankBeforeNewline)
    ensures DropBlanksBeforeNewline(s) == s
    decreases |s|
  {
    if s != [] {
      var head := BeforeUnfold(s);
      var k := BeforeStep(s);
      NoPairSlice(s, k, |s|, BlankBeforeNewline);
      DropBeforeTidy(s[k..]);
      if IsBlank(s[0]) && k < |s| {
        assert !BlankBeforeNewline(s[k - 1], s[k]);
      }
      assert s == s[..k] + s[k..];
    }
  }

  /** The three substitutions leave a text alone that has none of the
      shapes they remove. */
  lemma NormalizeTidy(t: string)
    requires NoTab(t) && NoPair(t, DoubleSpace)
    requires NoPair(t, BlankAfterNewline) && NoPair(t, BlankBeforeNewline)
    ensures Normalize(t) == t
  {
    CollapseTidy(t);
    DropAfterTidy(t);
    DropBeforeTidy(t);
  }

  /** A tidy paragraph is its own clean-up. */
  lemma CleanParagraphFixed(t: string)
    requires Tidy(t)
    ensures CleanParagraph(t) == t
  {
    NormalizeTidy(t);
    StripStripped(t);
  }

  /** A tidy text without three newlines in a row is its own clean-up. */
  lemma CleanTextFixed(t: string)
    requires Tidy(t) && NoTripleNewline(t)
    ensures CleanText(t) == t
  {
    NormalizeTidy(t);
    CapNoop(t);
    StripStripped(t);
  }

  /** Cleaning a cleaned paragraph again changes nothing. */
  lemma CleanParagraphIdempotent(text: string)
    ensures CleanParagraph(CleanParagraph(text)) == CleanParagraph(text)
  {
    CleanParagraphFixed(CleanParagraph(text));
  }

  /** Cleaning a cleaned text again changes nothing. */
  lemma CleanTextIdempotent(text: string)
    ensures CleanText(CleanText(text)) == CleanText(text)
  {
    CleanTextFixed(CleanText(text));
  }

  /** A non-empty tidy piece of text. */
  predicate TidyPiece(p: string) {
    p != [] && Tidy(p)
  }

  /** Every piece is non-empty and tidy. */
  predicate AllTidy(ps: seq<string>)
    decreases |ps|
  {
    ps == [] || (TidyPiece(ps[0]) && AllTidy(ps[1..]))
  }

  lemma {:induction false} AllTidyPieces(ps: seq<string>)
    ensures AllTidy(ps) <==> forall k :: 0 <= k < |ps| ==> TidyPiece(ps[k])
    decreases |ps|
  {
    if ps != [] {
      AllTidyPieces(ps[1..]);
      assert forall k :: 1 <= k < |ps| ==> ps[k] == ps[1..][k - 1];
    }
  }

  /** The cleaned paragraphs that are not empty, in order. */
  function CleanParagraphs(texts: seq<string>): (ps: seq<string>)
    ensures |ps| <= |texts|
    ensures AllTidy(ps)
    decreases |texts|
  {
    if texts == [] then []
    else
      var p := CleanParagraph(texts[0]);
      var rest := CleanParagraphs(texts[1..]);
      if p == [] then rest
      else
        assert ([p] + rest)[1..] == rest;
        [p] + rest
  }

  /** The non-whitespace characters of every text, in order. */
  function NonSpaceOf(texts: seq<string>): string
    decreases |texts|
  {
    if texts == [] then [] else Select(texts[0], NotSpace) + NonSpaceOf(texts[1..])
  }

  /** Cleaning paragraphs and dropping the empty ones loses no
      non-whitespace character. */
  lemma {:induction false} CleanParagraphsContent(texts: seq<string>)
    ensures NonSpaceOf(CleanParagraphs(texts)) == NonSpaceOf(texts)
    decreases |texts|
  {
    if texts != [] {
      var p := CleanParagraph(texts[0]);
      CleanParagraphsContent(texts[1..]);
      if p != [] {
        assert ([p] + CleanParagraphs(texts[1..]))[1..] == CleanParagraphs(texts[1..]);
      }
    }
  }

  /** Joining with newlines adds no non-whitespace character. */
  lemma {:induction false} JoinContent(ps: seq<string>, sep: string)
    requires NewlineSeparator(sep)
    ensures Select(Join(ps, sep), NotSpace) == NonSpaceOf(ps)
    decreases |ps|
  {
    if |ps| == 1 {
      assert NonSpaceOf(ps) == Select(ps[0], NotSpace) + NonSpaceOf([]);
    } else if |ps| >= 2 {
      JoinContent(ps[1..], sep);
      SelectNone(sep, NotSpace);
      SelectConcat(ps[0], sep, NotSpace);
      SelectConcat(ps[0] + sep, Join(ps[1..], sep), NotSpace);
    }
  }

  /** What the content element of a chapter page offers: the texts of its
      `<p>` elements (after `<br>` became `\n` and the unwanted elements were
      removed) and its whole text. */
  datatype ContentElement = ContentElement(paragraphs: seq<string>, text: string)

  /** The non-empty cleaned paragraphs separated by a blank line. */
  function ParagraphText(paragraphs: seq<string>): (r: string)
    ensures Tidy(r)
  {
    var ps := CleanParagraphs(paragraphs);
    JoinTidy(ps, "\n\n");
    Join(ps, "\n\n")
  }

  /** The paragraph branch keeps, in order, every non-whitespace character
      of the paragraphs. */
  lemma ParagraphTextContent(paragraphs: seq<string>)
    ensures Select(ParagraphText(paragraphs), NotSpace) == NonSpaceOf(paragraphs)
  {
    var ps := CleanParagraphs(paragraphs);
    assert ParagraphText(paragraphs) == Join(ps, "\n\n");
    CleanParagraphsContent(paragraphs);
    JoinContent(ps, "\n\n");
  }

  /** The content of TruyenFull's, TangThuVien's and LaoPhatGia's
      `get_chapter_content`: the non-empty cleaned paragraphs separated by a
      blank line, or the cleaned whole text when there is no `<p>`, or
      `"Content not found"` when there is no content element. */
  function ChapterText(element: Option<ContentElement>): (r: string)
    ensures element.None? ==> r == "Content not found"
    ensures element.Some? ==> Tidy(r)
    ensures element.Some? && element.value.paragraphs == [] ==> NoTripleNewline(r)
  {
    match element
    case None => "Content not found"
    case Some(e) => if e.paragraphs != [] then ParagraphText(e.paragraphs) else CleanText(e.text)
  }

  /** What a chapter page offers the adapters: the text of the title element,
      if any, and the content element, if any. */
  datatype ChapterPage = ChapterPage(title: Option<string>, element: Option<ContentElement>)

  datatype Chapter = Chapter(title: string, content: string)

  /** `get_chapter_content` of the TruyenFull, TangThuVien and LaoPhatGia
      adapters; `None` for a page the fetch could not deliver. */
  function ChapterContent(page: Option<ChapterPage>): (r: Option<Chapter>)
    ensures r.None? <==> page.None?
    ensures r.Some? ==> r.value.title == page.value.title.GetOr("Unknown Chapter")
    ensures r.Some? && page.value.element.Some? ==> Tidy(r.value.content)
    ensures r.Some? && page.value.element.None? ==> r.value.content == "Content not found"
  {
    match page
    case None => None
    case Some(p) => Some(Chapter(p.title.GetOr("Unknown Chapter"), ChapterText(p.element)))
  }
}

=== FILE: download.dfy ===
/** The chapter loop of `download_story`: for each chapter of the range, read
    its file back when it exists, otherwise ask the stop callback, fetch
    the chapter, save it and ask again.  The story directory is a map from
    file name to file, the fetch is an oracle from chapter URL to chapter
    (or `None` when the adapter returns nothing), and the callback
    `is_downloading` is the sequence of answers it gives, one per call. */
module Download {
  import opened Wrappers
  import opened Text
  import opened Cleanup
  import opened ChapterLists
  import opened ChapterFiles

  /** A file of the story directory: its text, or a file that cannot be read
      (`open` or the UTF-8 decoding raises). */
  datatype File = Readable(text: string) | Unreadable

  /** What the loop works on: the chapters of the range, the names of their
      files, the story directory before the loop and the fetch. */
  datatype Job = Job(todo: seq<ChapterLink>, names: seq<string>, dir: map<string, File>,
                     fetch: string -> Option<Chapter>)

  /** Every chapter of the job has a file name. */
  predicate Named(job: Job) {
    |job.names| == |job.todo|
  }

  /** No two chapters of the job share a file. */
  predicate DistinctNames(names: seq<string>) {
    forall i, j :: 0 <= i < j < |names| ==> names[i] != names[j]
  }

  /** The file names of `n` chapters numbered from `start`. */
  function RangeNames(start: int, n: nat): (names: seq<string>)
    ensures |names| == n
  {
    seq(n, k => ChapterFileName(start + k))
  }

  /** Consecutive chapter numbers give distinct file names. */
  lemma RangeNamesDistinct(start: int, n: nat)
    ensures DistinctNames(RangeNames(start, n))
  {
    var names := RangeNames(start, n);
    forall i, j | 0 <= i < j < n
      ensures names[i] != names[j]
    {
      RangeNamesDiffer(start, n, i, j);
    }
  }

  /** The k-th name is that of chapter `start + k`. */
  lemma RangeNameAt(start: int, n: nat, k: nat)
    requires k < n
    ensures RangeNames(start, n)[k] == ChapterFileName(start + k)
  {
  }

  /** The k-th name is that of chapter `m = start + k`. */
  lemma RangeNameAtNumber(start: int, n: nat, k: nat, m: int)
    requires k < n && m == start + k
    ensures RangeNames(start, n)[k] == ChapterFileName(m)
  {
    RangeNameAt(start, n, k);
  }

  lemma RangeNamesDiffer(start: int, n: nat, i: nat, j: nat)
    requires i < j < n
    ensures RangeNames(start, n)[i] != RangeNames(start, n)[j]
  {
    RangeNameNumber(start, n, i);
    RangeNameNumber(start, n, j);
  }

  /** The k-th name reads back as chapter `start + k`. */
  lemma RangeNameNumber(start: int, n: nat, k: nat)
    requires k < n
    ensures ChapterFileNumber(RangeNames(start, n)[k]) == Some(start + k)
  {
    var m := start + k;
    RangeNameAtNumber(start, n, k, m);
    ChapterFileNameRoundTrip(m);
  }

  /** Where the loop stopped on the callback's word. */
  datatype Stop = BeforeFetch | AfterFetch

  /** The file of the k-th chapter of the range. */
  function FileOf(job: Job, k: nat): string
    requires Named(job) && k < |job.todo|
  {
    job.names[k]
  }

  /** The k-th chapter's file exists and can be read: it is skipped. */
  predicate Kept(job: Job, k: nat)
    requires Named(job) && k < |job.todo|
  {
    FileOf(job, k) in job.dir && job.dir[FileOf(job, k)].Readable?
  }

  /** The k-th chapter has no file: the callback is consulted for it. */
  predicate Missing(job: Job, k: nat)
    requires Named(job) && k < |job.todo|
  {
    FileOf(job, k) !in job.dir
  }

  /** The n-th answer of the callback; it keeps saying "go on" once the
      recorded answers run out. */
  predicate StillGoing(answers: seq<bool>, n: nat) {
    n >= |answers| || answers[n]
  }

  /** What the k-th chapter contributes to `all_chapters`: the chapter read
      back from its file, or the fetched chapter, or nothing when the fetch
      returns `None`. */
  function Entry(job: Job, k: nat): (e: seq<Chapter>)
    requires Named(job) && k < |job.todo|
    ensures |e| <= 1
  {
    var c := job.todo[k];
    if Kept(job, k) then [ReadChapterFile(job.dir[FileOf(job, k)].text, c.title)]
    else match job.fetch(c.url)
      case Some(data) => [data]
      case None => []
  }

  /** `all_chapters` after the first n chapters of the range. */
  function Collected(job: Job, n: nat): seq<Chapter>
    requires Named(job) && n <= |job.todo|
  {
    if n == 0 then [] else Collected(job, n - 1) + Entry(job, n - 1)
  }

  /** `skipped_count` after the first n chapters. */
  function Skips(job: Job, n: nat): nat
    requires Named(job) && n <= |job.todo|
  {
    if n == 0 then 0 else Skips(job, n - 1) + (if Kept(job, n - 1) then 1 else 0)
  }

  /** The chapters (by place in the range) whose URL was fetched. */
  function Fetches(job: Job, n: nat): (ks: seq<nat>)
    requires Named(job) && n <= |job.todo|
  {
    if n == 0 then [] else Fetches(job, n - 1) + (if Kept(job, n - 1) then [] else [n - 1])
  }

  /** The fetches that delivered a chapter. */
  function Delivered(job: Job, n: nat): nat
    requires Named(job) && n <= |job.todo|
  {
    if n == 0 then 0
    else Delivered(job, n - 1) + (if !Kept(job, n - 1) && job.fetch(job.todo[n - 1].url).Some? then 1 else 0)
  }

  /** The number of chapters without a file among the first n. */
  function MissingCount(job: Job, n: nat): nat
    requires Named(job) && n <= |job.todo|
  {
    if n == 0 then 0 else MissingCount(job, n - 1) + (if Missing(job, n - 1) then 1 else 0)
  }

  /** The story directory after the first n chapters: each chapter that was
      fetched and delivered is saved as `title\n\ncontent`. */
  function Saved(job: Job, n: nat): map<string, File>
    requires Named(job) && n <= |job.todo|
  {
    if n == 0 then job.dir
    else
      var m := Saved(job, n - 1);
      var k := n - 1;
      if Kept(job, k) then m
      else match job.fetch(job.todo[k].url)
        case Some(data) => m[FileOf(job, k) := Readable(ChapterFileText(data))]
        case None => m
  }

  // ---------------------------------------------------------------------------
  // The loop
  // ---------------------------------------------------------------------------

  /** The job of a `download_story` call as the code builds it: the chapters
      `chapters[start_idx:end_idx]`, the k-th of them stored under chapter
      number `start_chapter + k`.  For a start of 0 or less that number is
      not the chapter's place in the story (`NameMissesPlace`); the job
      numbered by place is `RangeJobByPlace`. */
  function RangeJob(chapters: seq<ChapterLink>, start: int, end: Option<int>, dir: map<string, File>,
                    fetch: string -> Option<Chapter>): (job: Job)
    ensures Named(job) && DistinctNames(job.names)
    ensures job.todo == InRange(chapters, start, end)
  {
    var todo := InRange(chapters, start, end);
    RangeNamesDistinct(start, |todo|);
    Job(todo, RangeNames(start, |todo|), dir, fetch)
  }

  /** The k-th chapter of the range, `chapters[start_idx + k]`, is stored
      under chapter `start_chapter + k`. */
  lemma RangeJobNames(chapters: seq<ChapterLink>, start: int, end: Option<int>, dir: map<string, File>,
                      fetch: string -> Option<Chapter>, k: nat)
    requires k < |InRange(chapters, start, end)|
    ensures RangeJob(chapters, start, end, dir, fetch).todo[k] == chapters[StartIndex(start) + k]
    ensures FileOf(RangeJob(chapters, start, end, dir, fetch), k) == ChapterFileName(start + k)
  {
    var job := RangeJob(chapters, start, end, dir, fetch);
    var n := |InRange(chapters, start, end)|;
    assert job.names == RangeNames(start, n);
    RangeNameAt(start, n, k);
    InRangeAt(chapters, start, end, k);
  }

  /** The file of the k-th chapter of the code's job is that of chapter
      `m = start_chapter + k`. */
  lemma RangeJobFile(chapters: seq<ChapterLink>, start: int, end: Option<int>, dir: map<string, File>,
                     fetch: string -> Option<Chapter>, k: nat, m: int)
    requires k < |InRange(chapters, start, end)| && m == start + k
    ensures FileOf(RangeJob(chapters, start, end, dir, fetch), k) == ChapterFileName(m)
  {
    RangeNameAtNumber(start, |InRange(chapters, start, end)|, k, m);
  }

  /** The job numbered by place: the k-th chapter of the range is stored
      under `PlaceNumber(start, k)`, its place in the story counted from 1. */
  function RangeJobByPlace(chapters: seq<ChapterLink>, start: int, end: Option<int>, dir: map<string, File>,
                           fetch: string -> Option<Chapter>): (job: Job)
    ensures Named(job) && DistinctNames(job.names)
    ensures job.todo == InRange(chapters, start, end)
  {
    var todo := InRange(chapters, start, end);
    RangeNamesDistinct(PlaceNumber(start, 0), |todo|);
    Job(todo, RangeNames(PlaceNumber(start, 0), |todo|), dir, fetch)
  }

  /** Numbered by place, the k-th chapter of the range, `chapters[start_idx
      + k]`, is stored under its place in the story counted from 1. */
  lemma RangeJobByPlaceNames(chapters: seq<ChapterLink>, start: int, end: Option<int>, dir: map<string, File>,
                             fetch: string -> Option<Chapter>, k: nat)
    requires k < |InRange(chapters, start, end)|
    ensures RangeJobByPlace(chapters, start, end, dir, fetch).todo[k] == chapters[StartIndex(start) + k]
    ensures FileOf(RangeJobByPlace(chapters, start, end, dir, fetch), k) == ChapterFileName(StartIndex(start) + k + 1)
  {
    InRangeAt(chapters, start, end, k);
    ByPlaceFile(chapters, start, end, dir, fetch, k, StartIndex(start) + k + 1);
  }

  /** The file of the k-th chapter of the job numbered by place is that of
      chapter `m = PlaceNumber(start, k)`. */
  lemma ByPlaceFile(chapters: seq<ChapterLink>, start: int, end: Option<int>, dir: map<string, File>,
                    fetch: string -> Option<Chapter>, k: nat, m: int)
    requires k < |InRange(chapters, start, end)| && m == PlaceNumber(start, k)
    ensures FileOf(RangeJobByPlace(chapters, start, end, dir, fetch), k) == ChapterFileName(m)
  {
    var p := PlaceNumber(start, 0);
    var n := |InRange(chapters, start, end)|;
    assert RangeJobByPlace(chapters, start, end, dir, fetch).names == RangeNames(p, n);
    PlaceShift(start, k);
    RangeNameAtNumber(p, n, k, m);
  }

  /** Place numbers of a range are consecutive. */
  lemma PlaceShift(start: int, k: nat)
    ensures PlaceNumber(start, 0) + k == PlaceNumber(start, k)
  {
  }

  /** For a start of 1 or more the code's job is the job numbered by place. */
  lemma RangeJobsAgree(chapters: seq<ChapterLink>, start: int, end: Option<int>, dir: map<string, File>,
                       fetch: string -> Option<Chapter>)
    requires start >= 1
    ensures RangeJob(chapters, start, end, dir, fetch) == RangeJobByPlace(chapters, start, end, dir, fetch)
  {
    assert PlaceNumber(start, 0) == start;
  }

  /** Numbered by place, a run from chapter 0 is a run from chapter 1: the
      same chapters under the same files. */
  lemma ByPlaceStartZero(chapters: seq<ChapterLink>, end: Option<int>, dir: map<string, File>,
                         fetch: string -> Option<Chapter>)
    ensures RangeJobByPlace(chapters, 0, end, dir, fetch) == RangeJobByPlace(chapters, 1, end, dir, fetch)
  {
    assert StartIndex(0) == StartIndex(1) == 0;
  }

  /** As the code numbers them, a run from chapter 0 visits the chapters of a
      run from 1 but stores each one under the file a run from 1 uses for the
      chapter before it. */
  lemma StartZeroShiftsFiles(chapters: seq<ChapterLink>, end: Option<int>, dir: map<string, File>,
                             fetch: string -> Option<Chapter>, k: nat)
    requires k + 1 < |InRange(chapters, 0, end)|
    ensures RangeJob(chapters, 0, end, dir, fetch).todo == RangeJob(chapters, 1, end, dir, fetch).todo
    ensures FileOf(RangeJob(chapters, 0, end, dir, fetch), k + 1) == FileOf(RangeJob(chapters, 1, end, dir, fetch), k)
  {
    SameRangeFromZero(chapters, end);
    RangeJobFile(chapters, 0, end, dir, fetch, k + 1, k + 1);
    RangeJobFile(chapters, 1, end, dir, fetch, k, k + 1);
  }

  /** Chapter 0 and chapter 1 both start the range at the first chapter. */
  lemma SameRangeFromZero(chapters: seq<ChapterLink>, end: Option<int>)
    ensures InRange(chapters, 0, end) == InRange(chapters, 1, end)
  {
    assert StartIndex(0) == StartIndex(1) == 0;
  }

  /** So, in a story directory where a run from chapter 1 saved the k-th
      chapter of the range, a run from chapter 0 skips the next chapter and
      collects the saved chapter in its place. */
  lemma StartZeroReadsPrevious(chapters: seq<ChapterLink>, end: Option<int>, dir: map<string, File>,
                               fetch: string -> Option<Chapter>, k: nat, saved: Chapter)
    requires k + 1 < |InRange(chapters, 0, end)|
    requires !Contains(saved.title, "\n") && IsStripped(saved.title) && IsStripped(saved.content)
    requires NoCarriageReturn(saved.title) && NoCarriageReturn(saved.content)
    requires var file := FileOf(RangeJob(chapters, 1, end, dir, fetch), k);
             file in dir && dir[file] == Readable(ChapterFileText(saved))
    ensures Kept(RangeJob(chapters, 0, end, dir, fetch), k + 1)
    ensures Entry(RangeJob(chapters, 0, end, dir, fetch), k + 1) == [saved]
  {
    var job := RangeJob(chapters, 0, end, dir, fetch);
    StartZeroShiftsFiles(chapters, end, dir, fetch, k);
    ReadChapterFileRoundTrip(saved, job.todo[k + 1].title);
  }

  /** `download_story`'s loop over `chapters[start_idx:end_idx]`, with the
      files numbered as the code numbers them; see `RunJob`. */
  method DownloadRange(chapters: seq<ChapterLink>, start: int, end: Option<int>, dir: map<string, File>,
                       fetch: string -> Option<Chapter>, monitor: Option<seq<bool>>)
    returns (all: seq<Chapter>, skipped: nat, downloaded: nat, saved: map<string, File>,
             fetched: seq<nat>, done: nat, stop: Option<Stop>)
    ensures var job := RangeJob(chapters, start, end, dir, fetch);
            && Outcome(job, monitor, all, skipped, downloaded, saved, fetched, done, stop)
  {
    var job := RangeJob(chapters, start, end, dir, fetch);
    all, skipped, downloaded, saved, fetched, done, stop := RunJob(job, monitor);
  }

  /** The same loop with the files numbered by place. */
  method DownloadRangeByPlace(chapters: seq<ChapterLink>, start: int, end: Option<int>, dir: map<string, File>,
                              fetch: string -> Option<Chapter>, monitor: Option<seq<bool>>)
    returns (all: seq<Chapter>, skipped: nat, downloaded: nat, saved: map<string, File>,
             fetched: seq<nat>, done: nat, stop: Option<Stop>)
    ensures var job := RangeJobByPlace(chapters, start, end, dir, fetch);
            && Outcome(job, monitor, all, skipped, downloaded, saved, fetched, done, stop)
  {
    var job := RangeJobByPlace(chapters, start, end, dir, fetch);
    all, skipped, downloaded, saved, fetched, done, stop := RunJob(job, monitor);
  }

  /** What the loop leaves behind after handling `done` chapters of the job:
      the chapters collected, the counts, the fetches, the directory, and
      why it stopped. */
  predicate Outcome(job: Job, monitor: Option<seq<bool>>, all: seq<Chapter>, skipped: nat, downloaded: nat,
                    saved: map<string, File>, fetched: seq<nat>, done: nat, stop: Option<Stop>)
    requires Named(job)
  {
    && done <= |job.todo|
    && all == Collected(job, done)
    && skipped == Skips(job, done) && skipped <= |all|
    && downloaded == |all| - skipped && downloaded == Delivered(job, done)
    && fetched == Fetches(job, done)
    && saved == Saved(job, done)
    && Halted(job, monitor, done, stop)
  }

  /** Why the loop ended after `done` chapters: it ran out of chapters with
      every answer saying "go on", or the callback said "stop" for the first
      time just before or just after fetching the last of them.  Without a
      callback the loop never stops early. */
  predicate Halted(job: Job, monitor: Option<seq<bool>>, done: nat, stop: Option<Stop>)
    requires Named(job)
  {
    && done <= |job.todo|
    && (monitor.None? ==> stop.None?)
    && (stop.None? ==> done == |job.todo|)
    && (stop.None? && monitor.Some? ==> AllAnswersGo(job, monitor.value, |job.todo|))
    && (stop == Some(BeforeFetch) ==>
          monitor.Some? && done < |job.todo| && Missing(job, done)
          && AllAnswersGo(job, monitor.value, done)
          && !StillGoing(monitor.value, 2 * MissingCount(job, done)))
    && (stop == Some(AfterFetch) ==>
          monitor.Some? && 0 < done && Missing(job, done - 1)
          && AllAnswersGo(job, monitor.value, done - 1)
          && StillGoing(monitor.value, 2 * MissingCount(job, done - 1))
          && !StillGoing(monitor.value, 2 * MissingCount(job, done - 1) + 1))
  }

  /** The answers fix where the loop stops: two outcomes of the same job and
      callback agree on everything. */
  lemma OutcomeDetermined(job: Job, monitor: Option<seq<bool>>,
                          all: seq<Chapter>, skipped: nat, downloaded: nat, saved: map<string, File>,
                          fetched: seq<nat>, done: nat, stop: Option<Stop>,
                          all': seq<Chapter>, skipped': nat, downloaded': nat, saved': map<string, File>,
                          fetched': seq<nat>, done': nat, stop': Option<Stop>)
    requires Named(job)
    requires Outcome(job, monitor, all, skipped, downloaded, saved, fetched, done, stop)
    requires Outcome(job, monitor, all', skipped', downloaded', saved', fetched', done', stop')
    ensures done == done' && stop == stop'
    ensures all == all' && skipped == skipped' && downloaded == downloaded'
    ensures saved == saved' && fetched == fetched'
  {
    if stop.Some? || stop'.Some? {
      if stop.Some? && Place(job, done, stop) <= Place(job, done', stop') {
        HaltedFirst(job, monitor, done, stop, done', stop');
      } else {
        HaltedFirst(job, monitor, done', stop', done, stop);
      }
    }
  }

  /** The order in which the loop meets its stop points: before the fetch of
      chapter d, after it, and at the end of the range. */
  function Place(job: Job, done: nat, stop: Option<Stop>): int {
    match stop
    case None => 2 * |job.todo|
    case Some(BeforeFetch) => 2 * done
    case Some(AfterFetch) => 2 * done - 1
  }

  /** The first stop point the answers reach is the only one they allow:
      any later one would have needed a "go on" where the earlier one
      heard "stop". */
  lemma HaltedFirst(job: Job, monitor: Option<seq<bool>>, done: nat, stop: Option<Stop>,
                    done': nat, stop': Option<Stop>)
    requires Named(job)
    requires Halted(job, monitor, done, stop) && Halted(job, monitor, done', stop')
    requires stop.Some? && Place(job, done, stop) <= Place(job, done', stop')
    ensures stop == stop' && done == done'
  {
    var answers := monitor.value;
    var n := if stop'.None? then |job.todo| else if stop' == Some(AfterFetch) then done' - 1 else done';
    if stop == stop' && done == done' {
    } else if stop == Some(BeforeFetch) {
      if stop' == Some(AfterFetch) && done' == done + 1 {
        // the answer before that fetch is the one that said "stop"
      } else {
        AnswersGoAt(job, answers, done, n);
      }
    } else {
      AnswersGoAt(job, answers, done - 1, n);
    }
  }

  /** Answers that said "go on" for n chapters said it twice for each missing
      chapter before the n-th. */
  lemma {:induction false} AnswersGoAt(job: Job, answers: seq<bool>, k: nat, n: nat)
    requires Named(job) && k < n <= |job.todo| && AllAnswersGo(job, answers, n) && Missing(job, k)
    ensures StillGoing(answers, 2 * MissingCount(job, k)) && StillGoing(answers, 2 * MissingCount(job, k) + 1)
  {
    AnswersGoBelow(job, answers, k + 1, n);
    AnswersStep(job, answers, k);
  }

  /** Answers that said "go on" for n chapters said it for fewer. */
  lemma {:induction false} AnswersGoBelow(job: Job, answers: seq<bool>, m: nat, n: nat)
    requires Named(job) && m <= n <= |job.todo| && AllAnswersGo(job, answers, n)
    ensures AllAnswersGo(job, answers, m)
    decreases n
  {
    if m < n {
      AnswersGoBelow(job, answers, m, n - 1);
    }
  }

  /** The loop's running totals after the first k chapters. */
  predicate Tally(job: Job, k: nat, all: seq<Chapter>, skipped: nat, downloaded: nat,
                  saved: map<string, File>, fetched: seq<nat>)
    requires Named(job) && k <= |job.todo|
  {
    all == Collected(job, k) && skipped == Skips(job, k) && downloaded == Delivered(job, k)
    && fetched == Fetches(job, k) && saved == Saved(job, k)
  }

  /** The callback was asked twice for each missing chapter among the first
      k, and said "go on" each time. */
  predicate Polled(job: Job, monitor: Option<seq<bool>>, k: nat, polls: nat)
    requires Named(job) && k <= |job.todo|
  {
    polls == (if monitor.Some? then 2 * MissingCount(job, k) else 0)
    && (monitor.Some? ==> AllAnswersGo(job, monitor.value, k))
  }

  /** The loop itself.  `done` is the number of chapters of the range that
      were handled: all of them, unless the callback stopped the loop.
      `monitor` is `None` when no callback was given. */
  method RunJob(job: Job, monitor: Option<seq<bool>>)
    returns (all: seq<Chapter>, skipped: nat, downloaded: nat, saved: map<string, File>,
             fetched: seq<nat>, done: nat, stop: Option<Stop>)
    requires Named(job) && DistinctNames(job.names)
    ensures Outcome(job, monitor, all, skipped, downloaded, saved, fetched, done, stop)
  {
    all, skipped, downloaded, saved, fetched, stop := [], 0, 0, job.dir, [], None;
    var polls := 0;
    var k := 0;
    while k < |job.todo|
      invariant k <= |job.todo|
      invariant Tally(job, k, all, skipped, downloaded, saved, fetched)
      invariant Polled(job, monitor, k, polls)
      invariant stop.None?
    {
      var all', skipped', downloaded', saved', fetched', polls', halt :=
        HandleChapter(job, monitor, k, all, skipped, downloaded, saved, fetched, polls);
      if halt.Some? {
        done := Handled(k, halt);
        Stopped(job, monitor, k, halt.value, all', skipped', downloaded', saved', fetched');
        return all', skipped', downloaded', saved', fetched', done, halt;
      }
      all, skipped, downloaded, saved, fetched, polls := all', skipped', downloaded', saved', fetched', polls';
      k := k + 1;
    }
    done := k;
    Finished(job, monitor, all, skipped, downloaded, saved, fetched, polls);
  }

  /** The loop ran to the end of the range. */
  lemma Finished(job: Job, monitor: Option<seq<bool>>, all: seq<Chapter>, skipped: nat, downloaded: nat,
                 saved: map<string, File>, fetched: seq<nat>, polls: nat)
    requires Named(job)
    requires Tally(job, |job.todo|, all, skipped, downloaded, saved, fetched)
    requires Polled(job, monitor, |job.todo|, polls)
    ensures Outcome(job, monitor, all, skipped, downloaded, saved, fetched, |job.todo|, None)
  {
    CollectedCounts(job, |job.todo|);
  }

  /** The callback said "stop" for the first time at the k-th chapter, which
      has no file: before its fetch, or after it. */
  predicate StopsAt(job: Job, monitor: Option<seq<bool>>, k: nat, stop: Stop)
    requires Named(job) && k < |job.todo|
  {
    && monitor.Some? && Missing(job, k) && AllAnswersGo(job, monitor.value, k)
    && match stop
       case BeforeFetch => !StillGoing(monitor.value, 2 * MissingCount(job, k))
       case AfterFetch =>
         StillGoing(monitor.value, 2 * MissingCount(job, k))
         && !StillGoing(monitor.value, 2 * MissingCount(job, k) + 1)
  }

  /** The callback stopped the loop at the k-th chapter. */
  lemma Stopped(job: Job, monitor: Option<seq<bool>>, k: nat, stop: Stop, all: seq<Chapter>, skipped: nat,
                downloaded: nat, saved: map<string, File>, fetched: seq<nat>)
    requires Named(job) && k < |job.todo| && StopsAt(job, monitor, k, stop)
    requires Tally(job, Handled(k, Some(stop)), all, skipped, downloaded, saved, fetched)
    ensures Outcome(job, monitor, all, skipped, downloaded, saved, fetched, Handled(k, Some(stop)), Some(stop))
  {
    CollectedCounts(job, Handled(k, Some(stop)));
  }

  /** The chapters handled when the callback stops the loop at the k-th. */
  function Handled(k: nat, stop: Option<Stop>): nat {
    if stop == Some(BeforeFetch) then k else k + 1
  }

  /** One pass of the loop body, for the k-th chapter of the range. */
  method HandleChapter(job: Job, monitor: Option<seq<bool>>, k: nat, all: seq<Chapter>, skipped: nat,
                       downloaded: nat, saved: map<string, File>, fetched: seq<nat>, polls: nat)
    returns (all': seq<Chapter>, skipped': nat, downloaded': nat, saved': map<string, File>,
             fetched': seq<nat>, polls': nat, stop: Option<Stop>)
    requires Named(job) && DistinctNames(job.names) && k < |job.todo|
    requires Tally(job, k, all, skipped, downloaded, saved, fetched)
    requires Polled(job, monitor, k, polls)
    ensures Tally(job, Handled(k, stop), all', skipped', downloaded', saved', fetched')
    ensures stop.Some? ==> StopsAt(job, monitor, k, stop.value)
    ensures stop.None? ==> Polled(job, monitor, k + 1, polls')
  {
    all', skipped', downloaded', saved', fetched', polls', stop := all, skipped, downloaded, saved, fetched, polls, None;
    var name := job.names[k];
    var link := job.todo[k];
    SavedAhead(job, k, k);
    if name in saved && saved[name].Readable? {
      all' := all + [ReadChapterFile(saved[name].text, link.title)];
      skipped' := skipped + 1;
      SkipChapter(job, k, all, skipped, downloaded, saved, fetched);
      PolledStep(job, monitor, k, polls);
      return;
    }
    if name !in saved && monitor.Some? {
      var go := StillGoing(monitor.value, polls');
      polls' := polls' + 1;
      if !go {
        stop := Some(BeforeFetch);
        return;
      }
    }
    all', downloaded', saved', fetched' := FetchChapter(job, k, all, skipped, downloaded, saved, fetched);
    if name !in job.dir && monitor.Some? {
      var go := StillGoing(monitor.value, polls');
      polls' := polls' + 1;
      if !go {
        stop := Some(AfterFetch);
        return;
      }
    }
    PolledStep(job, monitor, k, polls);
  }

  /** The k-th chapter's file is read back. */
  lemma SkipChapter(job: Job, k: nat, all: seq<Chapter>, skipped: nat, downloaded: nat,
                    saved: map<string, File>, fetched: seq<nat>)
    requires Named(job) && k < |job.todo| && Kept(job, k)
    requires Tally(job, k, all, skipped, downloaded, saved, fetched)
    ensures Tally(job, k + 1, all + [ReadChapterFile(job.dir[FileOf(job, k)].text, job.todo[k].title)],
                  skipped + 1, downloaded, saved, fetched)
  {
    Step(job, k);
  }

  /** The callback is asked twice for the k-th chapter when it has no file,
      and not at all otherwise. */
  lemma PolledStep(job: Job, monitor: Option<seq<bool>>, k: nat, polls: nat)
    requires Named(job) && k < |job.todo| && Polled(job, monitor, k, polls)
    requires monitor.Some? && Missing(job, k) ==>
               StillGoing(monitor.value, polls) && StillGoing(monitor.value, polls + 1)
    ensures Polled(job, monitor, k + 1, if monitor.Some? && Missing(job, k) then polls + 2 else polls)
  {
    if monitor.Some? {
      AnswersStep(job, monitor.value, k);
    }
  }

  /** The k-th chapter has no readable file: fetch it, and save it when the
      fetch delivers. */
  method FetchChapter(job: Job, k: nat, all: seq<Chapter>, skipped: nat, downloaded: nat,
                      saved: map<string, File>, fetched: seq<nat>)
    returns (all': seq<Chapter>, downloaded': nat, saved': map<string, File>, fetched': seq<nat>)
    requires Named(job) && k < |job.todo| && !Kept(job, k)
    requires Tally(job, k, all, skipped, downloaded, saved, fetched)
    ensures Tally(job, k + 1, all', skipped, downloaded', saved', fetched')
  {
    Step(job, k);
    all', downloaded', saved' := all, downloaded, saved;
    fetched' := fetched + [k];
    var data := job.fetch(job.todo[k].url);
    if data.Some? {
      all' := all + [data.value];
      downloaded' := downloaded + 1;
      saved' := saved[job.names[k] := Readable(ChapterFileText(data.value))];
    }
  }

  /** One more chapter handled, in terms of what happens to it. */
  lemma Step(job: Job, k: nat)
    requires Named(job) && k < |job.todo|
    ensures Collected(job, k + 1) == Collected(job, k) + Entry(job, k)
    ensures Skips(job, k + 1) == Skips(job, k) + (if Kept(job, k) then 1 else 0)
    ensures Fetches(job, k + 1) == Fetches(job, k) + (if Kept(job, k) then [] else [k])
    ensures Delivered(job, k + 1)
         == Delivered(job, k) + (if !Kept(job, k) && job.fetch(job.todo[k].url).Some? then 1 else 0)
    ensures MissingCount(job, k + 1) == MissingCount(job, k) + (if Missing(job, k) then 1 else 0)
    ensures Saved(job, k + 1)
         == if Kept(job, k) || job.fetch(job.todo[k].url).None? then Saved(job, k)
            else Saved(job, k)[FileOf(job, k) := Readable(ChapterFileText(job.fetch(job.todo[k].url).value))]
  {
  }

  lemma AnswersStep(job: Job, answers: seq<bool>, k: nat)
    requires Named(job) && k < |job.todo|
    ensures AllAnswersGo(job, answers, k + 1)
        <==> AllAnswersGo(job, answers, k)
             && (Missing(job, k) ==>
                   StillGoing(answers, 2 * MissingCount(job, k))
                   && StillGoing(answers, 2 * MissingCount(job, k) + 1))
  {
  }

  /** Every answer the callback gave for the first n chapters said "go on":
      two answers, at places `2 * MissingCount` and one after, for each
      chapter without a file. */
  predicate AllAnswersGo(job: Job, answers: seq<bool>, n: nat)
    requires Named(job) && n <= |job.todo|
  {
    n == 0
    || (AllAnswersGo(job, answers, n - 1)
        && (Missing(job, n - 1) ==>
              StillGoing(answers, 2 * MissingCount(job, n - 1))
              && StillGoing(answers, 2 * MissingCount(job, n - 1) + 1)))
  }

  // ---------------------------------------------------------------------------
  // What the loop guarantees
  // ---------------------------------------------------------------------------

  /** Files of chapters not yet handled are as they were before the loop:
      every chapter has a file name of its own. */
  lemma {:induction false} SavedAhead(job: Job, n: nat, j: nat)
    requires Named(job) && DistinctNames(job.names) && n <= j < |job.todo|
    ensures FileOf(job, j) in Saved(job, n) <==> FileOf(job, j) in job.dir
    ensures FileOf(job, j) in job.dir ==> Saved(job, n)[FileOf(job, j)] == job.dir[FileOf(job, j)]
    decreases n
  {
    if n > 0 {
      SavedAhead(job, n - 1, j);
    }
  }

  /** Every chapter of `all_chapters` was either read back from its file or
      fetched and delivered: the count of fetched chapters, `len(all_chapters)
      - skipped_count`, is the number of fetches that delivered. */
  lemma {:induction false} CollectedCounts(job: Job, n: nat)
    requires Named(job) && n <= |job.todo|
    ensures |Collected(job, n)| == Skips(job, n) + Delivered(job, n)
    decreases n
  {
    if n > 0 {
      CollectedCounts(job, n - 1);
    }
  }

  /** The resume rule: a chapter whose file exists and can be read is never
      fetched, and every other chapter handled is. */
  lemma {:induction false} FetchedIffNotKept(job: Job, n: nat, k: nat)
    requires Named(job) && k < n <= |job.todo|
    ensures k in Fetches(job, n) <==> !Kept(job, k)
    decreases n
  {
    if k < n - 1 {
      FetchedIffNotKept(job, n - 1, k);
    } else {
      FetchesBelow(job, n - 1);
    }
  }

  lemma {:induction false} FetchesBelow(job: Job, n: nat)
    requires Named(job) && n <= |job.todo|
    ensures forall k :: k in Fetches(job, n) ==> k < n
    decreases n
  {
    if n > 0 {
      FetchesBelow(job, n - 1);
    }
  }

  /** A kept chapter is the chapter read back from its file, at its place
      among the chapters collected before it. */
  lemma KeptIsReadBack(job: Job, k: nat)
    requires Named(job) && k < |job.todo| && Kept(job, k)
    ensures Collected(job, k + 1)
         == Collected(job, k) + [ReadChapterFile(job.dir[FileOf(job, k)].text, job.todo[k].title)]
  {
  }

  /** A fetch that returns `None` adds no chapter and writes no file. */
  lemma {:induction false} FailedFetchLeavesNoTrace(job: Job, n: nat, k: nat)
    requires Named(job) && DistinctNames(job.names) && k < n <= |job.todo|
    requires Missing(job, k) && job.fetch(job.todo[k].url).None?
    ensures Collected(job, k + 1) == Collected(job, k)
    ensures FileOf(job, k) !in Saved(job, n)
    decreases n
  {
    if n - 1 > k {
      FailedFetchLeavesNoTrace(job, n - 1, k);
    } else {
      SavedAhead(job, k, k);
    }
  }

  /** A fetch that delivers is saved in the chapter's file. */
  lemma {:induction false} DeliveredIsSaved(job: Job, n: nat, k: nat)
    requires Named(job) && DistinctNames(job.names) && k < n <= |job.todo|
    requires !Kept(job, k) && job.fetch(job.todo[k].url).Some?
    ensures FileOf(job, k) in Saved(job, n)
    ensures Saved(job, n)[FileOf(job, k)] == Readable(ChapterFileText(job.fetch(job.todo[k].url).value))
    decreases n
  {
    if n - 1 > k {
      DeliveredIsSaved(job, n - 1, k);
    }
  }

  /** A readable file is never overwritten. */
  lemma {:induction false} KeptIsUntouched(job: Job, n: nat, k: nat)
    requires Named(job) && DistinctNames(job.names) && k < |job.todo| && n <= |job.todo| && Kept(job, k)
    ensures FileOf(job, k) in Saved(job, n)
    ensures Saved(job, n)[FileOf(job, k)] == job.dir[FileOf(job, k)]
    decreases n
  {
    if n > 0 {
      KeptIsUntouched(job, n - 1, k);
    }
  }
}

=== FILE: epub.dfy ===
/** The names `create_epub` and `download_story` give things: the cover's
    extension and MIME type, the safe title of a story, the fallback file
    name built from the story's title, and the EPUB file name. */
module Epub {
  import opened Text
  import opened Numbers
  import opened Markup

  // ---------------------------------------------------------------------------
  // `os.path.splitext`
  // ---------------------------------------------------------------------------

  /** `s.rfind(c)`: the last position of `c`, or -1. */
  function RFind(s: string, c: char): (r: int)
    ensures -1 <= r < |s|
    ensures r >= 0 ==> s[r] == c
    ensures forall i :: r < i < |s| ==> s[i] != c
    decreases |s|
  {
    if s == [] then -1 else if s[|s| - 1] == c then |s| - 1 else RFind(s[..|s| - 1], c)
  }

  /** `rfind` is determined by its contract. */
  lemma RFindUnique(s: string, c: char, k: int)
    requires -1 <= k < |s| && (k >= 0 ==> s[k] == c)
    requires forall i :: k < i < |s| ==> s[i] != c
    ensures RFind(s, c) == k
  {
  }

  /** Some character of the file name before the dot is not a dot: a
      leading dot (`.bashrc`) does not start an extension. */
  predicate NameBeforeDot(p: string, sep: int, dot: int)
    requires -1 <= sep && dot <= |p|
  {
    exists i :: sep + 1 <= i < dot && p[i] != '.'
  }

  /** The extension `os.path.splitext(p)[1]` (POSIX rules): from the last dot
      of the last path component, unless the component has only dots before
      it. */
  function Ext(p: string): (e: string)
    ensures e == [] || (e[0] == '.' && EndsWith(p, e))
    ensures forall i :: 1 <= i < |e| ==> e[i] != '.' && e[i] != '/'
  {
    var sep, dot := RFind(p, '/'), RFind(p, '.');
    if dot > sep && NameBeforeDot(p, sep, dot) then
      assert forall i :: 1 <= i < |p| - dot ==> p[dot..][i] == p[dot + i];
      p[dot..]
    else []
  }

  // ---------------------------------------------------------------------------
  // The cover image
  // ---------------------------------------------------------------------------

  /** The extensions a cover is saved under. */
  const CoverExts: seq<string> := [".jpg", ".jpeg", ".png", ".gif"]

  /** The extension of the cover file: the image URL's extension when it is
      one of `CoverExts`, `.jpg` otherwise (also when there is none). */
  function CoverExt(url: string): (r: string)
    ensures r in CoverExts
  {
    var e := if Ext(url) == [] then ".jpg" else Ext(url);
    if e in CoverExts then e else ".jpg"
  }

  /** The MIME type the cover is added with. */
  function Mime(ext: string): string {
    if ext == ".jpg" || ext == ".jpeg" then "image/jpeg"
    else if ext == ".png" then "image/png"
    else if ext == ".gif" then "image/gif"
    else "image/jpeg"
  }

  /** The cover keeps the URL's extension exactly when it is a known one. */
  lemma CoverExtOfUrl(url: string)
    ensures CoverExt(url) == Ext(url) <==> Ext(url) in CoverExts
    ensures Ext(url) !in CoverExts ==> CoverExt(url) == ".jpg"
  {
  }

  /** A query string hides the extension: when the URL's extension runs on
      into a `?`, no known extension matches, and the cover is saved as
      `.jpg` and typed `image/jpeg` whatever the image is. */
  lemma QueryHidesExtension(url: string)
    requires exists i :: 0 <= i < |Ext(url)| && Ext(url)[i] == '?'
    ensures CoverExt(url) == ".jpg"
    ensures Mime(CoverExt(url)) == "image/jpeg"
  {
    var e := Ext(url);
    if e in CoverExts {
      CoverExtNoQuery(e);
    }
  }

  /** No known extension holds a `?`. */
  lemma CoverExtNoQuery(e: string)
    requires e in CoverExts
    ensures forall i :: 0 <= i < |e| ==> e[i] != '?'
  {
  }

  /** For instance a PNG cover addressed with `?v=2`. */
  lemma QueryHidesExtensionExample()
    ensures Ext("https://x.vn/cover.png?v=2") == ".png?v=2"
    ensures CoverExt("https://x.vn/cover.png?v=2") == ".jpg"
    ensures Mime(CoverExt("https://x.vn/cover.png?v=2")) == "image/jpeg"
  {
    var p := "https://x.vn/cover.png?v=2";
    RFindUnique(p, '/', 12);
    RFindUnique(p, '.', 18);
    assert p[13] != '.';
    assert p[18..] == ".png?v=2";
  }

  /** The MIME subtype is the extension without its dot, with `jpg` spelled
      `jpeg`. */
  lemma MimeOfCover(url: string)
    ensures var e := CoverExt(url);
            Mime(e) == "image/" + (if e == ".jpg" then "jpeg" else e[1..])
  {
    MimeOfExt(CoverExt(url));
  }

  lemma MimeOfExt(e: string)
    requires e in CoverExts
    ensures Mime(e) == "image/" + (if e == ".jpg" then "jpeg" else e[1..])
  {
    if e == ".jpg" {
    } else if e == ".jpeg" {
      assert e[1..] == "jpeg";
    } else if e == ".png" {
      assert e[1..] == "png";
    } else {
      assert e == ".gif";
      assert e[1..] == "gif";
    }
  }

  /** `os.path.join(dir, name)` for a relative name. */
  function PathJoin(dir: string, name: string): string {
    if dir == [] || dir[|dir| - 1] == '/' then dir + name else dir + "/" + name
  }

  /** The title page reads the extension back from the saved cover's path
      and gets the one it was saved under, whatever the story directory. */
  lemma CoverExtStable(dir: string, url: string)
    ensures var e := CoverExt(url); Ext(PathJoin(dir, "cover" + e)) == e
  {
    var e := CoverExt(url);
    var pre := if dir == [] || dir[|dir| - 1] == '/' then dir else dir + "/";
    var p := PathJoin(dir, "cover" + e);
    assert p == pre + "cover" + e;
    CoverPathExt(pre, e);
  }

  lemma CoverPathExt(pre: string, e: string)
    requires pre == [] || pre[|pre| - 1] == '/'
    requires e in CoverExts
    ensures Ext(pre + "cover" + e) == e
  {
    var p := pre + "cover" + e;
    var n := |pre|;
    CoverExtChars(e);
    assert p[n] == 'c' && p[n + 5..] == e && p[n + 5] == '.';
    assert forall i :: n + 6 <= i < |p| ==> p[i] != '.' && p[i] != '/' by {
      assert forall i :: n + 6 <= i < |p| ==> p[i] == e[i - n - 5];
    }
    assert forall i :: n <= i < n + 5 ==> p[i] != '.' && p[i] != '/' by {
      assert forall i :: n <= i < n + 5 ==> p[i] == "cover"[i - n];
    }
    RFindUnique(p, '/', n - 1);
    RFindUnique(p, '.', n + 5);
  }

  /** Each known extension is a dot followed by letters. */
  lemma CoverExtChars(e: string)
    requires e in CoverExts
    ensures |e| >= 4 && e[0] == '.'
    ensures forall i :: 1 <= i < |e| ==> e[i] != '.' && e[i] != '/'
  {
  }

  // ---------------------------------------------------------------------------
  // `re.sub(r'[-\s]+', '-', s)`
  // ---------------------------------------------------------------------------

  predicate IsDashOrSpace(c: char) {
    c == '-' || IsSpace(c)
  }

  predicate NotDashOrSpace(c: char) {
    !IsDashOrSpace(c)
  }

  /** Every run of hyphens and whitespace replaced by one hyphen. */
  function Hyphenate(s: string): (r: string)
    ensures |r| <= |s|
    ensures s != [] ==> r != [] && r[0] == (if IsDashOrSpace(s[0]) then '-' else s[0])
    decreases |s|
  {
    if s == [] then []
    else if IsDashOrSpace(s[0]) then "-" + Hyphenate(TrimLeft(s, IsDashOrSpace))
    else [s[0]] + Hyphenate(s[1..])
  }

  /** No whitespace and no two hyphens in a row. */
  predicate Hyphenated(r: string) {
    && (forall i :: 0 <= i < |r| ==> !IsSpace(r[i]))
    && (forall i :: 0 <= i < |r| - 1 ==> !(r[i] == '-' && r[i + 1] == '-'))
  }

  lemma HyphenatedCons(c: char, r: string)
    requires Hyphenated(r) && !IsSpace(c)
    requires c == '-' ==> r == [] || r[0] != '-'
    ensures Hyphenated([c] + r)
  {
    var s := [c] + r;
    assert forall i :: 1 <= i < |s| ==> s[i] == r[i - 1];
  }

  lemma HyphenatedTail(s: string)
    requires Hyphenated(s) && s != []
    ensures Hyphenated(s[1..])
  {
    assert forall i :: 0 <= i < |s| - 1 ==> s[1..][i] == s[i + 1];
  }

  /** The result has no whitespace and no doubled hyphen. */
  lemma {:induction false} HyphenateShape(s: string)
    ensures Hyphenated(Hyphenate(s))
    decreases |s|
  {
    if s != [] {
      if IsDashOrSpace(s[0]) {
        var t := TrimLeft(s, IsDashOrSpace);
        HyphenateShape(t);
        HyphenatedCons('-', Hyphenate(t));
      } else {
        HyphenateShape(s[1..]);
        HyphenatedCons(s[0], Hyphenate(s[1..]));
      }
    }
  }

  /** Every character other than a hyphen or whitespace is kept, in order. */
  lemma {:induction false} HyphenateContent(s: string)
    ensures Select(Hyphenate(s), NotDashOrSpace) == Select(s, NotDashOrSpace)
    decreases |s|
  {
    if s != [] {
      if IsDashOrSpace(s[0]) {
        var t := TrimLeft(s, IsDashOrSpace);
        HyphenateContent(t);
        var gap := s[..|s| - |t|];
        assert s == gap + t;
        SelectConcat(gap, t, NotDashOrSpace);
        SelectNone(gap, NotDashOrSpace);
        SelectConcat("-", Hyphenate(t), NotDashOrSpace);
      } else {
        HyphenateContent(s[1..]);
        assert s == [s[0]] + s[1..];
        SelectConcat([s[0]], s[1..], NotDashOrSpace);
        SelectConcat([s[0]], Hyphenate(s[1..]), NotDashOrSpace);
      }
    }
  }

  /** Text that is already hyphenated is left as it is. */
  lemma {:induction false} HyphenateFixed(s: string)
    requires Hyphenated(s)
    ensures Hyphenate(s) == s
    decreases |s|
  {
    if s != [] {
      HyphenatedTail(s);
      HyphenateFixed(s[1..]);
      if s[0] == '-' {
        assert TrimLeft(s, IsDashOrSpace) == s[1..] by {
          assert s[1..] == [] || !IsDashOrSpace(s[1..][0]);
          assert TrimLeft(s, IsDashOrSpace) == TrimLeft(s[1..], IsDashOrSpace);
        }
      }
      assert s == [s[0]] + s[1..];
    }
  }

  // ---------------------------------------------------------------------------
  // The safe title
  // ---------------------------------------------------------------------------

  /** The characters `re.sub(r'[^\w\s-]', '', ...)` keeps, with `isWord`
      standing for the Unicode class `\w`. */
  function TitleChar(isWord: char -> bool): char -> bool {
    c => isWord(c) || IsSpace(c) || c == '-'
  }

  /** The characters of the title that count: word characters. */
  function WordChar(isWord: char -> bool): char -> bool {
    c => isWord(c) && NotDashOrSpace(c)
  }

  /** `download_story`'s `safe_title`: word characters, whitespace and
      hyphens kept, the ends stripped, and runs of hyphens and whitespace
      turned into one hyphen.  It is the EPUB's file name when not empty. */
  function SafeTitle(title: string, isWord: char -> bool): string {
    Hyphenate(Strip(Select(title, TitleChar(isWord))))
  }

  /** The safe title has no whitespace and no doubled hyphen. */
  lemma SafeTitleHyphenated(title: string, isWord: char -> bool)
    ensures Hyphenated(SafeTitle(title, isWord))
  {
    HyphenateShape(Strip(Select(title, TitleChar(isWord))));
  }

  /** The safe title keeps every word character of the title, in order. */
  lemma SafeTitleWords(title: string, isWord: char -> bool)
    ensures Select(SafeTitle(title, isWord), WordChar(isWord)) == Select(title, WordChar(isWord))
  {
    var kept := Select(title, TitleChar(isWord));
    var stripped := Strip(kept);
    var r := Hyphenate(stripped);
    HyphenateContent(stripped);
    StripKeepsWords(kept);
    WordsOfPlain(r, isWord);
    WordsOfPlain(kept, isWord);
    SelectNarrow(title, TitleChar(isWord), WordChar(isWord));
  }

  /** The safe title holds nothing but word characters and hyphens. */
  lemma SafeTitleChars(title: string, isWord: char -> bool)
    ensures var r := SafeTitle(title, isWord); forall i :: 0 <= i < |r| ==> isWord(r[i]) || r[i] == '-'
  {
    var kept := Select(title, TitleChar(isWord));
    StripChars(kept, TitleChar(isWord));
    var stripped := Strip(kept);
    assert forall i :: 0 <= i < |stripped| ==> isWord(stripped[i]) || IsDashOrSpace(stripped[i]);
    HyphenateWords(stripped, isWord);
    assert SafeTitle(title, isWord) == Hyphenate(stripped);
  }

  /** Hyphenating text of word characters, hyphens and whitespace leaves
      word characters and hyphens. */
  lemma {:induction false} HyphenateWords(s: string, isWord: char -> bool)
    requires forall i :: 0 <= i < |s| ==> isWord(s[i]) || IsDashOrSpace(s[i])
    ensures WordsAndDashes(Hyphenate(s), isWord)
    decreases |s|
  {
    if s != [] {
      if IsDashOrSpace(s[0]) {
        var t := TrimLeft(s, IsDashOrSpace);
        assert forall i :: 0 <= i < |t| ==> isWord(t[i]) || IsDashOrSpace(t[i]) by {
          assert forall i :: 0 <= i < |t| ==> t[i] == s[|s| - |t| + i];
        }
        HyphenateWords(t, isWord);
        WordsCons('-', Hyphenate(t), isWord);
      } else {
        HyphenateWords(s[1..], isWord);
        WordsCons(s[0], Hyphenate(s[1..]), isWord);
      }
    }
  }

  /** Nothing but word characters and hyphens. */
  predicate WordsAndDashes(r: string, isWord: char -> bool) {
    forall i :: 0 <= i < |r| ==> isWord(r[i]) || r[i] == '-'
  }

  lemma WordsCons(c: char, r: string, isWord: char -> bool)
    requires isWord(c) || c == '-'
    requires WordsAndDashes(r, isWord)
    ensures WordsAndDashes([c] + r, isWord)
  {
    var s := [c] + r;
    assert forall i :: 1 <= i < |s| ==> s[i] == r[i - 1];
  }

  /** Stripping drops only whitespace. */
  lemma StripKeepsWords(s: string)
    ensures Select(Strip(s), NotDashOrSpace) == Select(s, NotDashOrSpace)
  {
    TrimKeeps(s, IsSpace, NotDashOrSpace);
  }

  lemma StripChars(s: string, p: char -> bool)
    requires forall i :: 0 <= i < |s| ==> p(s[i])
    ensures var t := Strip(s); forall i :: 0 <= i < |t| ==> p(t[i])
  {
    var t := Strip(s);
    var lo :| TrimmedSliceAt(s, t, lo, IsSpace);
    assert forall i :: 0 <= i < |t| ==> t[i] == s[lo + i];
  }

  /** Among characters that are not hyphens or whitespace, the word
      characters are picked the same way from the text and from its
      non-separator characters. */
  lemma WordsOfPlain(s: string, isWord: char -> bool)
    ensures Select(Select(s, NotDashOrSpace), WordChar(isWord)) == Select(s, WordChar(isWord))
  {
    SelectNarrow(s, NotDashOrSpace, WordChar(isWord));
  }

  /** The safe title is empty exactly when the title has no word character
      and no hyphen: only then does the EPUB fall back to a name built from
      the title's letters. */
  lemma SafeTitleEmpty(title: string, isWord: char -> bool)
    ensures SafeTitle(title, isWord) == []
        <==> forall i :: 0 <= i < |title| ==> !((isWord(title[i]) || title[i] == '-') && !IsSpace(title[i]))
  {
    var kept := Select(title, TitleChar(isWord));
    var solid := c => (isWord(c) || c == '-') && !IsSpace(c);
    StripEmpty(kept);
    SelectNarrow(title, TitleChar(isWord), solid);
    SelectEmpty(kept, solid);
    SelectEmpty(title, solid);
  }

  /** Selecting yields nothing exactly when no character is selected. */
  lemma {:induction false} SelectEmpty(s: string, p: char -> bool)
    ensures Select(s, p) == [] <==> forall i :: 0 <= i < |s| ==> !p(s[i])
    decreases |s|
  {
    if s != [] {
      SelectEmpty(s[1..], p);
      assert forall i :: 1 <= i < |s| ==> s[i] == s[1..][i - 1];
    }
  }

  /** Computing the safe title of a safe title changes nothing. */
  lemma SafeTitleIdempotent(title: string, isWord: char -> bool)
    ensures SafeTitle(SafeTitle(title, isWord), isWord) == SafeTitle(title, isWord)
  {
    var r := SafeTitle(title, isWord);
    SafeTitleHyphenated(title, isWord);
    SafeTitleChars(title, isWord);
    SelectAll(r, TitleChar(isWord));
    assert IsStripped(r);
    StripStripped(r);
    HyphenateFixed(r);
  }

  // ---------------------------------------------------------------------------
  // The fallback file name
  // ---------------------------------------------------------------------------

  /** The single-character replacements, in the order written: the
      Vietnamese d with stroke (and the look-alike eth) to `d`, and the en
      dash, em dash and horizontal bar to `-`. */
  const Folds: seq<(char, char)> := [
    ('đ', 'd'), ('Đ', 'D'), ('ð', 'd'), ('Ð', 'D'),
    ('–', '-'), ('—', '-'), ('―', '-')
  ]

  /** `for a, b in folds: s = s.replace(a, b)`. */
  function ReplaceEach(s: string, folds: seq<(char, char)>): string
    decreases |folds|
  {
    if folds == [] then s else ReplaceEach(ReplaceAll(s, [folds[0].0], [folds[0].1]), folds[1..])
  }

  /** Where the replacements take one character. */
  function FoldChar(folds: seq<(char, char)>, c: char): char
    decreases |folds|
  {
    if folds == [] then c else FoldChar(folds[1..], if c == folds[0].0 then folds[0].1 else c)
  }

  /** Replacing one character by one character maps the text character by
      character. */
  lemma {:induction false} ReplaceCharSingle(s: string, c: char, d: char)
    ensures |ReplaceChar(s, c, [d])| == |s|
    ensures forall i :: 0 <= i < |s| ==> ReplaceChar(s, c, [d])[i] == if s[i] == c then d else s[i]
    decreases |s|
  {
    if s != [] {
      ReplaceCharSingle(s[1..], c, d);
      var h := if s[0] == c then [d] else [s[0]];
      assert ReplaceChar(s, c, [d]) == h + ReplaceChar(s[1..], c, [d]);
    }
  }

  /** The replacements map the text character by character. */
  lemma {:induction false} ReplaceEachChars(s: string, folds: seq<(char, char)>)
    ensures |ReplaceEach(s, folds)| == |s|
    ensures forall i :: 0 <= i < |s| ==> ReplaceEach(s, folds)[i] == FoldChar(folds, s[i])
    decreases |folds|
  {
    if folds != [] {
      var c, d := folds[0].0, folds[0].1;
      ReplaceAllChar(s, c, [d]);
      ReplaceCharSingle(s, c, d);
      ReplaceEachChars(ReplaceAll(s, [c], [d]), folds[1..]);
    }
  }

  /** The characters removed as invalid in file names. */
  predicate IsInvalid(c: char) {
    c == '<' || c == '>' || c == ':' || c == '"' || c == '/' || c == '\\' || c == '|' || c == '?'
    || c == '*' || c == '[' || c == ']' || c == '(' || c == ')' || c == '{' || c == '}'
  }

  /** The punctuation removed as well. */
  predicate IsPunct(c: char) {
    c == '.' || c == ',' || c == '!' || c == '?' || c == ';' || c == ':' || c == '\'' || c == '"'
    || c == '`' || c == '~' || c == '@' || c == '#' || c == '$' || c == '%' || c == '^' || c == '&'
    || c == '*' || c == '+' || c == '='
  }

  /** The characters the replacements take away. */
  predicate IsFolded(c: char) {
    c == 'đ' || c == 'Đ' || c == 'ð' || c == 'Ð' || c == '–' || c == '—' || c == '―'
  }

  /** The characters a fallback name is built from. */
  predicate Allowed(c: char) {
    !IsInvalid(c) && !IsPunct(c)
  }

  /** The characters a fallback name can hold. */
  predicate NameChar(c: char) {
    Allowed(c) && !IsFolded(c)
  }

  predicate NameChars(s: string) {
    forall i :: 0 <= i < |s| ==> NameChar(s[i])
  }

  /** The name `create_epub` builds when it is given no base name.
      `folded` is the story title after Unicode decomposition (NFD) with
      the combining marks (category Mn) removed. */
  function FallbackName(folded: string): string {
    CapName(Strip(Trim(Hyphenate(Cleaned(folded)), IsDash)))
  }

  predicate NotInvalid(c: char) { !IsInvalid(c) }
  predicate NotPunct(c: char) { !IsPunct(c) }

  /** The letters of the title after the replacements and both removals. */
  function Cleaned(folded: string): string {
    Select(Select(ReplaceEach(folded, Folds), NotInvalid), NotPunct)
  }

  /** A name longer than 200 characters is cut to 200, then trimmed of
      hyphens again. */
  function CapName(d: string): string {
    if |d| > 200 then Trim(d[..200], IsDash) else d
  }

  /** The two removals together keep the allowed characters. */
  lemma {:induction false} RemovalsAllowed(a: string)
    ensures Select(Select(a, NotInvalid), NotPunct) == Select(a, Allowed)
    decreases |a|
  {
    if a != [] {
      RemovalsAllowed(a[1..]);
      var h := if NotInvalid(a[0]) then [a[0]] else [];
      SelectConcat(h, Select(a[1..], NotInvalid), NotPunct);
    }
  }

  /** No character is left for the replacements to take. */
  lemma FoldCharFixed(c: char)
    ensures !IsFolded(FoldChar(Folds, c))
  {
  }

  /** The replacements leave every other character as it is. */
  lemma FoldCharOther(c: char)
    requires !IsFolded(c)
    ensures FoldChar(Folds, c) == c
  {
  }

  /** After the replacements and the removals only name characters remain. */
  lemma CleanedNameChars(folded: string)
    ensures NameChars(Select(ReplaceEach(folded, Folds), Allowed))
  {
    var a := ReplaceEach(folded, Folds);
    ReplaceEachChars(folded, Folds);
    forall j | 0 <= j < |a|
      ensures !IsFolded(a[j])
    {
      FoldCharFixed(folded[j]);
    }
    SelectNames(a);
  }

  /** Removing the disallowed characters from text without replaced
      characters leaves name characters. */
  lemma {:induction false} SelectNames(s: string)
    requires forall i :: 0 <= i < |s| ==> !IsFolded(s[i])
    ensures NameChars(Select(s, Allowed))
    decreases |s|
  {
    if s != [] {
      SelectNames(s[1..]);
      var r := Select(s[1..], Allowed);
      if Allowed(s[0]) {
        NameCharsCons(s[0], r);
        assert Select(s, Allowed) == [s[0]] + r;
      } else {
        assert Select(s, Allowed) == r;
      }
    }
  }

  /** Hyphenating name characters leaves name characters. */
  lemma {:induction false} HyphenateNames(s: string)
    requires NameChars(s)
    ensures NameChars(Hyphenate(s))
    decreases |s|
  {
    if s != [] {
      var r := Hyphenate(s);
      if IsDashOrSpace(s[0]) {
        var t := TrimLeft(s, IsDashOrSpace);
        assert NameChars(t) by {
          assert forall i :: 0 <= i < |t| ==> t[i] == s[|s| - |t| + i];
        }
        HyphenateNames(t);
        NameCharsCons('-', Hyphenate(t));
      } else {
        assert NameChars(s[1..]) by {
          assert forall i :: 0 <= i < |s| - 1 ==> s[1..][i] == s[i + 1];
        }
        HyphenateNames(s[1..]);
        NameCharsCons(s[0], Hyphenate(s[1..]));
      }
    }
  }

  lemma NameCharsCons(c: char, r: string)
    requires NameChar(c) && NameChars(r)
    ensures NameChars([c] + r)
  {
    assert forall i :: 1 <= i < |r| + 1 ==> ([c] + r)[i] == r[i - 1];
  }

  /** A slice of hyphenated name characters is hyphenated name characters. */
  lemma HyphenatedSlice(s: string, lo: int, hi: int)
    requires 0 <= lo <= hi <= |s| && Hyphenated(s) && NameChars(s)
    ensures Hyphenated(s[lo..hi]) && NameChars(s[lo..hi])
  {
    assert forall i :: 0 <= i < hi - lo ==> s[lo..hi][i] == s[lo + i];
  }

  /** Where the trimmed text sits. */
  lemma TrimSlice(s: string, drop: char -> bool) returns (lo: int)
    ensures TrimmedSliceAt(s, Trim(s, drop), lo, drop)
  {
    lo :| TrimmedSliceAt(s, Trim(s, drop), lo, drop);
  }

  /** Trimming hyphens off hyphenated name characters. */
  lemma TrimHyphenated(s: string)
    requires Hyphenated(s) && NameChars(s)
    ensures var t := Trim(s, IsDash);
            && Hyphenated(t) && NameChars(t) && (t == [] || (t[0] != '-' && t[|t| - 1] != '-'))
  {
    var t := Trim(s, IsDash);
    var lo := TrimSlice(s, IsDash);
    assert t == s[lo..lo + |t|];
    HyphenatedSlice(s, lo, lo + |t|);
  }

  /** The fallback name is at most 200 characters long, has no whitespace,
      no doubled hyphen and no hyphen at either end, and none of the
      removed or replaced characters. */
  lemma FallbackNameShape(folded: string)
    ensures var r := FallbackName(folded);
            && |r| <= 200 && Hyphenated(r) && NameChars(r)
            && (r == [] || (r[0] != '-' && r[|r| - 1] != '-'))
  {
    var b := Cleaned(folded);
    assert NameChars(b) by {
      RemovalsAllowed(ReplaceEach(folded, Folds));
      CleanedNameChars(folded);
    }
    var h := Hyphenate(b);
    HyphenateShape(b);
    HyphenateNames(b);
    var d := Strip(Trim(h, IsDash));
    TrimmedShape(h);
    CapShape(d);
  }

  /** Trimming the hyphens and the whitespace keeps the shape and leaves no
      hyphen at either end. */
  lemma TrimmedShape(h: string)
    requires Hyphenated(h) && NameChars(h)
    ensures var d := Strip(Trim(h, IsDash));
            && Hyphenated(d) && NameChars(d) && (d == [] || (d[0] != '-' && d[|d| - 1] != '-'))
  {
    var t := Trim(h, IsDash);
    TrimHyphenated(h);
    assert IsStripped(t);
    StripStripped(t);
  }

  /** Capping the length keeps the shape. */
  lemma CapShape(d: string)
    requires Hyphenated(d) && NameChars(d) && (d == [] || (d[0] != '-' && d[|d| - 1] != '-'))
    ensures var r := CapName(d);
            && |r| <= 200 && Hyphenated(r) && NameChars(r)
            && (r == [] || (r[0] != '-' && r[|r| - 1] != '-'))
  {
    if |d| > 200 {
      HyphenatedSlice(d, 0, 200);
      TrimHyphenated(d[..200]);
    }
  }

  // ---------------------------------------------------------------------------
  // File names of the book
  // ---------------------------------------------------------------------------

  /** `f"{safe_story_title}.epub"`: the base name when one is given and not
      empty, the fallback name otherwise. */
  function EpubFileName(base: string, folded: string): (name: string)
    ensures EndsWith(name, ".epub")
  {
    WithEpub(if base != [] then base else FallbackName(folded))
  }

  /** `f"{stem}.epub"`. */
  function WithEpub(stem: string): (name: string)
    ensures EndsWith(name, ".epub") && |name| == |stem| + 5 && name[..|stem|] == stem
  {
    assert (stem + ".epub")[|stem|..] == ".epub";
    stem + ".epub"
  }

  /** The default stem is a name of the same shape as the others. */
  lemma DefaultStemShape()
    ensures DefaultStem != [] && Hyphenated(DefaultStem)
  {
    var d := DefaultStem;
    forall i | 0 <= i < |d|
      ensures !IsSpace(d[i])
    {
      assert d[i] == 's' || d[i] == 't' || d[i] == 'o' || d[i] == 'r' || d[i] == 'y';
    }
  }

  /** The EPUB of `download_story` is named after the safe title; a title
      without a word character or hyphen falls back to the name built from
      the title's letters, and (as corrected in `BookFileName`) one that
      leaves none to `DefaultStem`.  Either way the stem is not empty and has
      no whitespace and no doubled hyphen. */
  lemma StoryEpubName(title: string, isWord: char -> bool, folded: string)
    ensures var safe := SafeTitle(title, isWord);
            var fallback := FallbackName(folded);
            var stem := if safe != [] then safe else if fallback != [] then fallback else DefaultStem;
            && BookFileName(safe, folded) == stem + ".epub"
            && stem != [] && Hyphenated(stem)
  {
    SafeTitleHyphenated(title, isWord);
    FallbackNameShape(folded);
    DefaultStemShape();
  }

  /** A title without a word character or hyphen whose letters all fall to
      the removals gives a book with an empty stem, `.epub`. */
  lemma PunctuationTitle(title: string, isWord: char -> bool, folded: string)
    requires forall i :: 0 <= i < |title| ==> !((isWord(title[i]) || title[i] == '-') && !IsSpace(title[i]))
    requires forall i :: 0 <= i < |folded| ==> !IsFolded(folded[i]) && !Allowed(folded[i])
    ensures EpubFileName(SafeTitle(title, isWord), folded) == ".epub"
  {
    SafeTitleEmpty(title, isWord);
    NoneAllowed(folded);
    NothingLeft(folded);
    EmptyStem(SafeTitle(title, isWord), folded);
  }

  /** For instance the title `?!`. */
  lemma PunctuationTitleExample(isWord: char -> bool)
    requires !isWord('?') && !isWord('!')
    ensures EpubFileName(SafeTitle("?!", isWord), "?!") == ".epub"
  {
    var t := "?!";
    assert SafeTitle(t, isWord) == [] by {
      assert t[0] == '?' && t[1] == '!';
      SafeTitleEmpty(t, isWord);
    }
    PunctuationFallback();
    EmptyStem(SafeTitle(t, isWord), t);
  }

  /** The stem a book gets when the title leaves nothing to name it by, in
      the way `create_epub` names an untitled chapter page `chapter-{idx}`. */
  const DefaultStem := "story"

  /** The EPUB file name as evidently intended: like `EpubFileName`, except
      that an empty fallback name gives way to `DefaultStem`, so the stem is
      never empty. */
  function BookFileName(base: string, folded: string): (name: string)
    ensures EndsWith(name, ".epub") && |name| > |".epub"|
  {
    var fallback := FallbackName(folded);
    WithEpub(if base != [] then base else if fallback != [] then fallback else DefaultStem)
  }

  /** The corrected name differs from the name as written exactly when the
      latter has an empty stem. */
  lemma BookFileNameCorrects(base: string, folded: string)
    ensures BookFileName(base, folded) == EpubFileName(base, folded)
        <==> EpubFileName(base, folded) != ".epub"
  {
    var fallback := FallbackName(folded);
    if base == [] && fallback == [] {
      assert |BookFileName(base, folded)| > |EpubFileName(base, folded)|;
    }
  }

  /** With an empty base and an empty fallback the book is named `.epub`. */
  lemma EmptyStem(base: string, folded: string)
    requires base == [] && FallbackName(folded) == []
    ensures EpubFileName(base, folded) == ".epub"
  {
  }

  lemma PunctuationFallback()
    ensures FallbackName("?!") == []
  {
    PunctuationCleaned();
    NothingLeft("?!");
  }

  /** Question and exclamation marks are both removed. */
  lemma PunctuationCleaned()
    ensures Cleaned("?!") == []
  {
    var s := "?!";
    assert s[0] == '?' && s[1] == '!';
    NoneAllowed(s);
  }

  /** Text with no replaced and no allowed character is removed entirely. */
  lemma NoneAllowed(folded: string)
    requires forall i :: 0 <= i < |folded| ==> !IsFolded(folded[i]) && !Allowed(folded[i])
    ensures Cleaned(folded) == []
  {
    var a := ReplaceEach(folded, Folds);
    ReplaceEachChars(folded, Folds);
    forall i | 0 <= i < |a|
      ensures !Allowed(a[i])
    {
      FoldCharOther(folded[i]);
    }
    SelectNone(a, Allowed);
    RemovalsAllowed(a);
  }

  /** When nothing survives the removals the fallback name is empty. */
  lemma NothingLeft(folded: string)
    requires Cleaned(folded) == []
    ensures FallbackName(folded) == []
  {
    assert Hyphenate([]) == [];
    TrimUnique([], [], 0, IsDash);
    TrimUnique([], [], 0, IsSpace);
  }

  /** The page of the idx-th chapter, counted from 1. */
  function ChapterPageName(idx: int): string {
    "chapter_" + Format04(idx) + ".xhtml"
  }

  /** Different chapters get different pages. */
  lemma ChapterPageNamesDistinct(i: int, j: int)
    requires i != j
    ensures ChapterPageName(i) != ChapterPageName(j)
  {
    var a, b := ChapterPageName(i), ChapterPageName(j);
    if a == b {
      assert a[8..|a| - 6] == Format04(i);
      assert b[8..|b| - 6] == Format04(j);
      Format04Injective(i, j);
    }
  }
}

=== FILE: markup.dfy ===
/** The XHTML text `create_epub` writes: the escaping of titles,
    descriptions and paragraphs, and the paragraphs a chapter's content is
    cut into. */
module Markup {
  import opened Wrappers
  import opened Text
  import opened ChapterLists

  // ---------------------------------------------------------------------------
  // Replacing one character
  // ---------------------------------------------------------------------------

  /** Every `c` of `s` replaced by `rep`, one character at a time. */
  function ReplaceChar(s: string, c: char, rep: string): string
    decreases |s|
  {
    if s == [] then [] else (if s[0] == c then rep else [s[0]]) + ReplaceChar(s[1..], c, rep)
  }

  lemma {:induction false} ReplaceCharConcat(a: string, b: string, c: char, rep: string)
    ensures ReplaceChar(a + b, c, rep) == ReplaceChar(a, c, rep) + ReplaceChar(b, c, rep)
    decreases |a|
  {
    if a == [] {
      assert a + b == b;
    } else {
      assert (a + b)[1..] == a[1..] + b;
      ReplaceCharConcat(a[1..], b, c, rep);
    }
  }

  lemma {:induction false} ReplaceCharAbsent(s: string, c: char, rep: string)
    requires forall i :: 0 <= i < |s| ==> s[i] != c
    ensures ReplaceChar(s, c, rep) == s
    decreases |s|
  {
    if s != [] {
      ReplaceCharAbsent(s[1..], c, rep);
    }
  }

  /** A string that does not contain `[c]` has no character `c`. */
  lemma NoCharOf(s: string, c: char)
    requires !Contains(s, [c])
    ensures forall i :: 0 <= i < |s| ==> s[i] != c
  {
    forall i | 0 <= i < |s|
      ensures s[i] != c
    {
      if s[i] == c {
        assert s[i..i + 1] == [c];
        ContainsAt(s, [c], i);
      }
    }
  }

  /** `s.replace(c, rep)` for a one-character pattern replaces each `c` on its
      own. */
  lemma {:induction false} ReplaceAllChar(s: string, c: char, rep: string)
    ensures ReplaceAll(s, [c], rep) == ReplaceChar(s, c, rep)
    decreases |s|
  {
    match IndexOf(s, [c])
    case None =>
      NoCharOf(s, c);
      ReplaceAbsent(s, [c], rep);
      ReplaceCharAbsent(s, c, rep);
    case Some(i) =>
      ReplaceAllStep(s, c, rep, i);
      ReplaceAllChar(s[i + 1..], c, rep);
      ReplaceCharAround(s[..i], c, s[i + 1..], rep);
      assert s == s[..i] + [c] + s[i + 1..];
  }

  /** The text up to the first `c`, the replacement, and the rest replaced. */
  lemma ReplaceAllStep(s: string, c: char, rep: string, i: nat)
    requires IndexOf(s, [c]) == Some(i)
    ensures i < |s| && forall k :: 0 <= k < i ==> s[k] != c
    ensures ReplaceAll(s, [c], rep) == s[..i] + rep + ReplaceAll(s[i + 1..], [c], rep)
  {
    var parts := SplitOn(s, [c]);
    assert parts == [s[..i]] + SplitOn(s[i + 1..], [c]);
    NoCharOf(s[..i], c);
  }

  lemma ReplaceCharAround(h: string, c: char, t: string, rep: string)
    requires forall k :: 0 <= k < |h| ==> h[k] != c
    ensures ReplaceChar(h + [c] + t, c, rep) == h + rep + ReplaceChar(t, c, rep)
  {
    ReplaceCharAbsent(h, c, rep);
    ReplaceCharConcat(h + [c], t, c, rep);
    ReplaceCharConcat(h, [c], c, rep);
    ReplaceCharOne(c, c, rep);
  }

  /** Replacing in a one-character string. */
  lemma ReplaceCharOne(c: char, d: char, rep: string)
    ensures ReplaceChar([c], d, rep) == if c == d then rep else [c]
  {
    assert [c][1..] == [];
  }

  // ---------------------------------------------------------------------------
  // Escaping
  // ---------------------------------------------------------------------------

  /** `s.replace('&', '&amp;').replace('<', '&lt;').replace('>', '&gt;')`. */
  function Escape(s: string): string {
    ReplaceAll(ReplaceAll(ReplaceAll(s, "&", "&amp;"), "<", "&lt;"), ">", "&gt;")
  }

  /** The entity a character is written as. */
  function EscapeChar(c: char): string {
    if c == '&' then "&amp;" else if c == '<' then "&lt;" else if c == '>' then "&gt;" else [c]
  }

  /** Escaping one character at a time. */
  function EscapeChars(s: string): string
    decreases |s|
  {
    if s == [] then [] else EscapeChar(s[0]) + EscapeChars(s[1..])
  }

  /** The three replacements, in the order written, escape each character
      on its own: `&` comes first, so the `&` of `&lt;` and `&gt;` is not
      escaped again. */
  lemma EscapeIsCharwise(s: string)
    ensures Escape(s) == EscapeChars(s)
  {
    ReplaceAllChar(s, '&', "&amp;");
    var a := ReplaceChar(s, '&', "&amp;");
    ReplaceAllChar(a, '<', "&lt;");
    var b := ReplaceChar(a, '<', "&lt;");
    ReplaceAllChar(b, '>', "&gt;");
    ThreeReplacements(s);
  }

  lemma {:induction false} ThreeReplacements(s: string)
    ensures ReplaceChar(ReplaceChar(ReplaceChar(s, '&', "&amp;"), '<', "&lt;"), '>', "&gt;") == EscapeChars(s)
    decreases |s|
  {
    if s != [] {
      var h, t := [s[0]], s[1..];
      assert s == h + t;
      ReplaceCharConcat(h, t, '&', "&amp;");
      var a, a' := ReplaceChar(h, '&', "&amp;"), ReplaceChar(t, '&', "&amp;");
      ReplaceCharConcat(a, a', '<', "&lt;");
      var b, b' := ReplaceChar(a, '<', "&lt;"), ReplaceChar(a', '<', "&lt;");
      ReplaceCharConcat(b, b', '>', "&gt;");
      ThreeReplacements(t);
      EscapeOneChar(s[0]);
    }
  }

  lemma EscapeOneChar(c: char)
    ensures ReplaceChar(ReplaceChar(ReplaceChar([c], '&', "&amp;"), '<', "&lt;"), '>', "&gt;") == EscapeChar(c)
  {
    ReplaceCharOne(c, '&', "&amp;");
    if c == '&' {
      ReplaceCharAbsent("&amp;", '<', "&lt;");
      ReplaceCharAbsent("&amp;", '>', "&gt;");
    } else {
      ReplaceCharOne(c, '<', "&lt;");
      if c == '<' {
        ReplaceCharAbsent("&lt;", '>', "&gt;");
      } else {
        ReplaceCharOne(c, '>', "&gt;");
      }
    }
  }

  /** No `<` or `>`: nothing in the text can open or close a tag. */
  predicate NoBrackets(r: string) {
    forall i :: 0 <= i < |r| ==> r[i] != '<' && r[i] != '>'
  }

  lemma NoBracketsConcat(a: string, b: string)
    requires NoBrackets(a) && NoBrackets(b)
    ensures NoBrackets(a + b)
  {
    assert forall i :: |a| <= i < |a| + |b| ==> (a + b)[i] == b[i - |a|];
  }

  /** Escaped text holds no `<` or `>`. */
  lemma EscapedHasNoBrackets(s: string)
    ensures NoBrackets(Escape(s))
  {
    EscapeIsCharwise(s);
    NoBracketsCharwise(s);
  }

  lemma {:induction false} NoBracketsCharwise(s: string)
    ensures NoBrackets(EscapeChars(s))
    decreases |s|
  {
    if s != [] {
      NoBracketsCharwise(s[1..]);
      var e := EscapeChar(s[0]);
      assert NoBrackets(e);
      NoBracketsConcat(e, EscapeChars(s[1..]));
    }
  }

  /** Text without `&`, `<` and `>` is written as it is. */
  lemma {:induction false} EscapePlain(s: string)
    requires forall i :: 0 <= i < |s| ==> s[i] != '&' && s[i] != '<' && s[i] != '>'
    ensures Escape(s) == s
  {
    EscapeIsCharwise(s);
    EscapeCharsPlain(s);
  }

  lemma {:induction false} EscapeCharsPlain(s: string)
    requires forall i :: 0 <= i < |s| ==> s[i] != '&' && s[i] != '<' && s[i] != '>'
    ensures EscapeChars(s) == s
    decreases |s|
  {
    if s != [] {
      EscapeCharsPlain(s[1..]);
    }
  }

  /** What an XHTML reader makes of the three entities. */
  function Unescape(r: string): string
    decreases |r|
  {
    if r == [] then []
    else if StartsWith(r, "&amp;") then "&" + Unescape(r[5..])
    else if StartsWith(r, "&lt;") then "<" + Unescape(r[4..])
    else if StartsWith(r, "&gt;") then ">" + Unescape(r[4..])
    else [r[0]] + Unescape(r[1..])
  }

  /** A reader gets back exactly the text that was escaped. */
  lemma EscapeRoundTrip(s: string)
    ensures Unescape(Escape(s)) == s
  {
    EscapeIsCharwise(s);
    UnescapeCharwise(s);
  }

  lemma {:induction false} UnescapeCharwise(s: string)
    ensures Unescape(EscapeChars(s)) == s
    decreases |s|
  {
    if s != [] {
      UnescapeCharwise(s[1..]);
      UnescapeStep(s[0], EscapeChars(s[1..]));
      assert s == [s[0]] + s[1..];
    }
  }

  lemma UnescapeStep(c: char, r: string)
    ensures Unescape(EscapeChar(c) + r) == [c] + Unescape(r)
  {
    var e := EscapeChar(c);
    var s := e + r;
    assert s[|e|..] == r && s[..|e|] == e;
    if c == '&' {
      assert StartsWith(s, "&amp;");
    } else if c == '<' {
      assert s[1] == 'l';
      assert StartsWith(s, "&lt;");
    } else if c == '>' {
      assert s[1] == 'g';
      assert StartsWith(s, "&gt;");
    } else {
      assert s[0] == c;
    }
  }

  // ---------------------------------------------------------------------------
  // Paragraphs
  // ---------------------------------------------------------------------------

  predicate NonBlank(p: string) {
    Strip(p) != []
  }

  /** The paragraphs of a chapter: the content cut at each blank line
      (`"\n\n"`), each piece stripped, the empty ones dropped. */
  function Paragraphs(content: string): seq<string> {
    FilterMap(SplitOn(content, "\n\n"), NonBlank, Strip)
  }

  /** Each paragraph is stripped and non-empty. */
  predicate GoodParagraphs(ps: seq<string>) {
    forall k :: 0 <= k < |ps| ==> ps[k] != [] && IsStripped(ps[k])
  }

  lemma GoodConcat(a: seq<string>, b: seq<string>)
    requires GoodParagraphs(a) && GoodParagraphs(b)
    ensures GoodParagraphs(a + b)
  {
    assert forall k :: |a| <= k < |a| + |b| ==> (a + b)[k] == b[k - |a|];
  }

  lemma {:induction false} FilterMapStripped(parts: seq<string>)
    ensures GoodParagraphs(FilterMap(parts, NonBlank, Strip))
    decreases |parts|
  {
    if parts != [] {
      FilterMapStripped(parts[1..]);
      var h := if NonBlank(parts[0]) then [Strip(parts[0])] else [];
      assert GoodParagraphs(h);
      GoodConcat(h, FilterMap(parts[1..], NonBlank, Strip));
    }
  }

  /** Every paragraph written is a stripped, non-empty piece of text. */
  lemma ParagraphsAreGood(content: string)
    ensures GoodParagraphs(Paragraphs(content))
  {
    FilterMapStripped(SplitOn(content, "\n\n"));
  }

  /** Content that has nothing but whitespace between its blank-line breaks
      gives no paragraph at all, and the chapter page has an empty body. */
  lemma BlankContent(content: string)
    requires forall i :: 0 <= i < |content| ==> IsSpace(content[i])
    ensures Paragraphs(content) == []
  {
    var parts := SplitOn(content, "\n\n");
    assert Join(parts, "\n\n") == content;
    forall k | 0 <= k < |parts|
      ensures !NonBlank(parts[k])
    {
      PartOfBlank(content, parts, k);
    }
    FilterMapNone(parts, NonBlank, Strip);
  }

  lemma PartOfBlank(content: string, parts: seq<string>, k: nat)
    requires forall i :: 0 <= i < |content| ==> IsSpace(content[i])
    requires Join(parts, "\n\n") == content && k < |parts|
    ensures Strip(parts[k]) == []
  {
    PartIsBlank(content, parts, k);
    StripEmpty(parts[k]);
  }

  /** A part of an all-whitespace text is all whitespace. */
  lemma PartIsBlank(content: string, parts: seq<string>, k: nat)
    requires forall i :: 0 <= i < |content| ==> IsSpace(content[i])
    requires Join(parts, "\n\n") == content && k < |parts|
    ensures forall i :: 0 <= i < |parts[k]| ==> IsSpace(parts[k][i])
  {
    var lo := JoinPartOffset(parts, "\n\n", k);
    AllSpaceSlice(content, lo, parts[k]);
  }

  lemma AllSpaceSlice(s: string, lo: nat, p: string)
    requires forall i :: 0 <= i < |s| ==> IsSpace(s[i])
    requires lo + |p| <= |s| && s[lo..lo + |p|] == p
    ensures forall i :: 0 <= i < |p| ==> IsSpace(p[i])
  {
    assert forall i :: 0 <= i < |p| ==> p[i] == s[lo + i];
  }

  /** Where the k-th part sits in the joined text. */
  lemma {:induction false} JoinPartOffset(parts: seq<string>, sep: string, k: nat) returns (lo: nat)
    requires k < |parts|
    ensures lo + |parts[k]| <= |Join(parts, sep)|
    ensures Join(parts, sep)[lo..lo + |parts[k]|] == parts[k]
    decreases |parts|
  {
    if k == 0 {
      lo := 0;
      if |parts| == 1 {
        assert Join(parts, sep)[..|parts[0]|] == parts[0];
      } else {
        assert Join(parts, sep) == parts[0] + (sep + Join(parts[1..], sep));
      }
    } else {
      var rest := Join(parts[1..], sep);
      var lo' := JoinPartOffset(parts[1..], sep, k - 1);
      lo := |parts[0]| + |sep| + lo';
      var j := Join(parts, sep);
      assert j == (parts[0] + sep) + rest;
      assert j[lo..lo + |parts[k]|] == rest[lo'..lo' + |parts[k]|];
    }
  }

  /** Paragraphs written with a blank line between them are read back as
      those paragraphs: the cut undoes the join. */
  lemma ParagraphsOfJoin(ps: seq<string>)
    requires ps != [] && GoodParagraphs(ps)
    requires forall k :: 0 <= k < |ps| ==> !Contains(ps[k], "\n\n")
    ensures Paragraphs(Join(ps, "\n\n")) == ps
  {
    SplitJoinBreak(ps);
    FilterMapGood(ps);
  }

  lemma {:induction false} FilterMapGood(ps: seq<string>)
    requires GoodParagraphs(ps)
    ensures FilterMap(ps, NonBlank, Strip) == ps
    decreases |ps|
  {
    if ps != [] {
      StripStripped(ps[0]);
      assert GoodParagraphs(ps[1..]) by {
        assert forall k :: 0 <= k < |ps| - 1 ==> ps[1..][k] == ps[k + 1];
      }
      FilterMapGood(ps[1..]);
      assert ps == [ps[0]] + ps[1..];
    }
  }

  /** Cutting at blank lines undoes joining with blank lines, for parts
      that neither contain a blank line nor end with a newline. */
  lemma {:induction false} SplitJoinBreak(ps: seq<string>)
    requires ps != [] && GoodParagraphs(ps)
    requires forall k :: 0 <= k < |ps| ==> !Contains(ps[k], "\n\n")
    ensures SplitOn(Join(ps, "\n\n"), "\n\n") == ps
    decreases |ps|
  {
    if |ps| == 1 {
      ReplaceAbsent(ps[0], "\n\n", "\n\n");
    } else {
      var rest := Join(ps[1..], "\n\n");
      assert GoodParagraphs(ps[1..]) && forall k :: 0 <= k < |ps| - 1 ==> !Contains(ps[1..][k], "\n\n") by {
        assert forall k :: 0 <= k < |ps| - 1 ==> ps[1..][k] == ps[k + 1];
      }
      SplitJoinBreak(ps[1..]);
      SplitBreakStep(ps[0], rest);
      assert ps == [ps[0]] + ps[1..];
    }
  }

  lemma SplitBreakStep(a: string, rest: string)
    requires !Contains(a, "\n\n") && IsStripped(a)
    ensures SplitOn(a + "\n\n" + rest, "\n\n") == [a] + SplitOn(rest, "\n\n")
  {
    FirstBreakAfter(a, rest);
    var s := a + "\n\n" + rest;
    assert s[|a| + 2..] == rest;
    assert s[..|a|] == a;
  }

  /** The first blank line of `a + "\n\n" + b` is the one after `a`, when
      `a` has none and does not end with a newline. */
  lemma FirstBreakAfter(a: string, b: string)
    requires !Contains(a, "\n\n") && IsStripped(a)
    ensures IndexOf(a + "\n\n" + b, "\n\n") == Some(|a|)
  {
    var s := a + "\n\n" + b;
    assert OccursAt(s, "\n\n", |a|);
    forall j | 0 <= j < |a|
      ensures !OccursAt(s, "\n\n", j)
    {
      if j + 2 <= |a| {
        assert s[j..j + 2] == a[j..j + 2];
        assert !OccursAt(a, "\n\n", j);
      } else {
        assert s[j] == a[|a| - 1] && a[|a| - 1] != '\n';
        assert s[j..j + 2][0] == s[j];
      }
    }
  }

  /** The `<p>` elements of a chapter page, one per paragraph, each escaped. */
  function ParagraphElements(content: string): (r: seq<string>)
    ensures |r| == |Paragraphs(content)|
  {
    var ps := Paragraphs(content);
    seq(|ps|, k requires 0 <= k < |ps| => "        <p>" + Escape(ps[k]) + "</p>\n")
  }

  /** Each `<p>` element holds exactly one paragraph: its text has no tag
      inside, and a reader gets the paragraph back from it. */
  lemma ParagraphElementHolds(content: string, k: nat)
    requires k < |Paragraphs(content)|
    ensures var e, p := ParagraphElements(content)[k], Paragraphs(content)[k];
            && StartsWith(e, "        <p>") && EndsWith(e, "</p>\n")
            && var inner := e[11..|e| - 5];
            && Unescape(inner) == p && NoBrackets(inner)
  {
    var p := Paragraphs(content)[k];
    var e := ParagraphElements(content)[k];
    assert e[11..|e| - 5] == Escape(p);
    EscapeRoundTrip(p);
    EscapedHasNoBrackets(p);
  }
}

=== FILE: numbers.dfy ===
/** Decimal digits: Python's `int(digits)`, `str(n)` and the `{:04d}` format
    used for chapter file names. */
module Numbers {
  import opened Wrappers
  import opened Text

  predicate AllDigits(s: string) {
    forall i :: 0 <= i < |s| ==> IsAsciiDigit(s[i])
  }

  function DigitValue(c: char): nat
    requires IsAsciiDigit(c)
  {
    c as int - '0' as int
  }

  function DigitChar(d: nat): (c: char)
    requires d < 10
    ensures IsAsciiDigit(c) && DigitValue(c) == d
  {
    ('0' as int + d) as char
  }

  /** Python's `int(s)` on a run of ASCII digits (leading zeros allowed). */
  function Value(s: string): nat
    requires AllDigits(s)
  {
    if s == [] then 0 else Value(s[..|s| - 1]) * 10 + DigitValue(s[|s| - 1])
  }

  /** The number of decimal digits of `n`. */
  function NumDigits(n: nat): nat {
    if n < 10 then 1 else 1 + NumDigits(n / 10)
  }

  function Pow10(k: nat): nat {
    if k == 0 then 1 else 10 * Pow10(k - 1)
  }

  lemma {:induction false} DigitsBelow(n: nat, k: nat)
    requires 1 <= k && n < Pow10(k)
    ensures NumDigits(n) <= k
    decreases k
  {
    if n >= 10 {
      assert k >= 2;
      assert n / 10 < Pow10(k - 1);
      DigitsBelow(n / 10, k - 1);
    }
  }

  lemma {:induction false} DigitsAbove(n: nat, k: nat)
    requires Pow10(k) <= n
    ensures NumDigits(n) >= k + 1
    decreases k
  {
    if k >= 1 {
      assert Pow10(k) >= 10 by { PowAtLeast(k); }
      assert Pow10(k - 1) <= n / 10;
      DigitsAbove(n / 10, k - 1);
    }
  }

  lemma {:induction false} PowAtLeast(k: nat)
    requires k >= 1
    ensures Pow10(k) >= 10
    decreases k
  {
    if k > 1 {
      PowAtLeast(k - 1);
    }
  }

  lemma NumDigitsBounds(n: nat)
    ensures n <= 9999 ==> NumDigits(n) <= 4
    ensures n >= 10000 ==> NumDigits(n) >= 5
  {
    if n <= 9999 {
      DigitsBelow(n, 4);
    } else {
      DigitsAbove(n, 4);
    }
  }

  /** Python's `str(n)` for a natural number: the shortest decimal numeral. */
  function NatToString(n: nat): (s: string)
    ensures |s| == NumDigits(n) && AllDigits(s)
    ensures Value(s) == n
    ensures s[0] == '0' ==> n == 0
    decreases n
  {
    if n < 10 then [DigitChar(n)]
    else
      var init := NatToString(n / 10);
      var s := init + [DigitChar(n % 10)];
      assert s[..|s| - 1] == init;
      s
  }

  function Zeros(k: nat): (z: string)
    ensures |z| == k && AllDigits(z)
    ensures forall i :: 0 <= i < k ==> z[i] == '0'
  {
    seq(k, _ => '0')
  }

  /** A leading zero does not change the value of a numeral. */
  lemma {:induction false} LeadingZero(s: string)
    requires AllDigits(s)
    ensures AllDigits("0" + s) && Value("0" + s) == Value(s)
    decreases |s|
  {
    var t := "0" + s;
    if s != [] {
      assert t[..|t| - 1] == "0" + s[..|s| - 1];
      LeadingZero(s[..|s| - 1]);
    }
  }

  /** Any number of leading zeros does not change the value of a numeral. */
  lemma {:induction false} LeadingZeros(k: nat, s: string)
    requires AllDigits(s)
    ensures AllDigits(Zeros(k) + s) && Value(Zeros(k) + s) == Value(s)
    decreases k
  {
    if k == 0 {
      assert Zeros(k) + s == s;
    } else {
      assert Zeros(k) + s == "0" + (Zeros(k - 1) + s);
      LeadingZeros(k - 1, s);
      LeadingZero(Zeros(k - 1) + s);
    }
  }

  /** Left-pads a numeral with zeros to at least `width` characters. */
  function ZeroPad(s: string, width: nat): (r: string)
    requires AllDigits(s)
    ensures AllDigits(r) && Value(r) == Value(s)
    ensures |r| == if |s| < width then width else |s|
  {
    var k := if |s| < width then width - |s| else 0;
    LeadingZeros(k, s);
    Zeros(k) + s
  }

  /** Python's `f"{i:04d}"`: zero-padded to four characters including the
      sign, so a negative number gets a `-` followed by at least three digits. */
  function Format04(i: int): (r: string)
    ensures 0 <= i <= 9999 ==> |r| == 4 && AllDigits(r)
    ensures i >= 10000 ==> r == NatToString(i)
    ensures i < 0 ==> |r| >= 4 && r[0] == '-'
  {
    NumDigitsBounds(if i >= 0 then i else -i);
    if i >= 0 then ZeroPad(NatToString(i), 4)
    else "-" + ZeroPad(NatToString(-i), 3)
  }

  /** Reads back a numeral written by `Format04`. */
  function ParseSigned(s: string): Option<int> {
    if |s| >= 1 && s[0] == '-' && AllDigits(s[1..]) then Some(-(Value(s[1..]) as int))
    else if AllDigits(s) then Some(Value(s))
    else None
  }

  /** `Format04` loses no information: reading the numeral back gives the
      number, so distinct numbers never share a formatted name. */
  lemma Format04RoundTrip(i: int)
    ensures ParseSigned(Format04(i)) == Some(i)
  {
    var r := Format04(i);
    if i < 0 {
      assert r[1..] == ZeroPad(NatToString(-i), 3);
    }
  }

  lemma Format04Injective(i: int, j: int)
    requires Format04(i) == Format04(j)
    ensures i == j
  {
    Format04RoundTrip(i);
    Format04RoundTrip(j);
  }
}

=== FILE: ordinals.dfy ===
/** Chapter and page ordinals read out of URLs.  Each adapter searches a URL
    with a case-insensitive regular expression such as `/chuong-(\d+)|/chapter-(\d+)`
    and takes the integer value of the digits, or 0 when nothing matches.  A
    family of tokens stands for the alternatives of one such expression. */
module Ordinals {
  import opened Wrappers
  import opened Text
  import opened Numbers

  /** The alternatives of `_extract_chapter_number` in the TruyenFull and
      TangThuVien adapters. */
  const ChapterTokens: seq<string> := ["/chuong-", "/chapter-"]

  /** The alternatives of `_extract_chapter_number` in the LaoPhatGia and
      WordPress adapters. */
  const ChapterTokensWithChap: seq<string> := ["/chuong-", "/chap-", "/chapter-"]

  /** The alternatives of `_extract_page_number`. */
  const PageTokens: seq<string> := ["/trang-", "/page-"]

  /** The alternatives the pagination container's links are filtered with. */
  const PaginationTokens: seq<string> := ["/trang-", "/page-", "/p/"]

  /** ASCII case folding; with `re.I`, a lower-case ASCII letter other than
      `i`, `k` and `s` matches exactly itself and its upper-case form, and
      none of the tokens contains those three letters. */
  function FoldAscii(c: char): char {
    if 'A' <= c <= 'Z' then (c as int + 32) as char else c
  }

  /** A token all of whose characters are their own ASCII fold. */
  predicate IsFolded(tok: string) {
    forall k :: 0 <= k < |tok| ==> FoldAscii(tok[k]) == tok[k]
  }

  /** `tok` occurs at position `i` of `s`, ignoring ASCII case. */
  predicate CaselessAt(s: string, tok: string, i: int) {
    0 <= i && i + |tok| <= |s| && forall k :: 0 <= k < |tok| ==> FoldAscii(s[i + k]) == tok[k]
  }

  /** The maximal run of ASCII digits starting at position `j`.  Python's
      `\d` also matches the other Unicode decimal digits, such as the
      full-width `３`; this model reads only `0`-`9`. */
  function DigitsAt(s: string, j: int): (d: string)
    ensures AllDigits(d)
  {
    if 0 <= j <= |s| then TakeWhile(s[j..], IsAsciiDigit) else []
  }

  /** The alternative `tok(\d+)` matches at position `i`. */
  predicate MatchesAt(s: string, tok: string, i: int) {
    CaselessAt(s, tok, i) && |DigitsAt(s, i + |tok|)| >= 1
  }

  /** The first true entry from the `k`-th on. */
  function FirstTrue(b: seq<bool>, k: nat): (r: Option<nat>)
    ensures r.Some? ==> k <= r.value < |b| && b[r.value]
    ensures r.Some? ==> forall m :: k <= m < r.value ==> !b[m]
    ensures r.None? ==> forall m :: k <= m < |b| ==> !b[m]
    decreases |b| - k
  {
    if k >= |b| then None
    else if b[k] then Some(k)
    else FirstTrue(b, k + 1)
  }

  /** Which alternatives match at position `i`. */
  function Hits(s: string, toks: seq<string>, i: int): (b: seq<bool>)
    ensures |b| == |toks|
    ensures forall m :: 0 <= m < |toks| ==> (b[m] <==> MatchesAt(s, toks[m], i))
  {
    seq(|toks|, m requires 0 <= m < |toks| => MatchesAt(s, toks[m], i))
  }

  /** The first alternative, from the `k`-th on, that matches at position `i`:
      the regular-expression engine tries the alternatives in order. */
  function FirstTokenFrom(s: string, toks: seq<string>, i: int, k: nat): (r: Option<nat>)
    ensures r.Some? ==> k <= r.value < |toks| && MatchesAt(s, toks[r.value], i)
    ensures r.Some? ==> forall m :: k <= m < r.value ==> !MatchesAt(s, toks[m], i)
    ensures r.None? ==> forall m :: k <= m < |toks| ==> !MatchesAt(s, toks[m], i)
  {
    FirstTrue(Hits(s, toks, i), k)
  }

  /** Some alternative matches at position `i`. */
  predicate HitAt(s: string, toks: seq<string>, i: int) {
    FirstTokenFrom(s, toks, i, 0).Some?
  }

  /** The leftmost position, from `i` on, where some alternative matches: the
      position `re.search` reports. */
  function FirstHitFrom(s: string, toks: seq<string>, i: nat): (r: Option<nat>)
    ensures r.Some? ==> i <= r.value && HitAt(s, toks, r.value)
    ensures r.Some? ==> forall j :: i <= j < r.value ==> !HitAt(s, toks, j)
    ensures r.None? ==> forall j :: i <= j <= |s| ==> !HitAt(s, toks, j)
  {
    FirstTrue(HitsAlong(s, toks), i)
  }

  /** At which positions of `s`, up to and including `|s|`, an alternative
      matches. */
  function HitsAlong(s: string, toks: seq<string>): (b: seq<bool>)
    ensures |b| == |s| + 1
    ensures forall j :: 0 <= j <= |s| ==> (b[j] <==> HitAt(s, toks, j))
  {
    seq(|s| + 1, j requires 0 <= j <= |s| => HitAt(s, toks, j))
  }

  /** `re.search(pattern, s, re.I)` is not `None`. */
  predicate Found(s: string, toks: seq<string>) {
    FirstHitFrom(s, toks, 0).Some?
  }

  /** `int(match.group(...))` for the group that matched, or 0 without a match. */
  function Ordinal(s: string, toks: seq<string>): nat {
    match FirstHitFrom(s, toks, 0)
    case None => 0
    case Some(i) => HitValue(s, toks, i)
  }

  /** The number after the first alternative that matches at position `i`. */
  function HitValue(s: string, toks: seq<string>, i: nat): nat {
    match FirstTokenFrom(s, toks, i, 0)
    case None => 0
    case Some(k) => Value(DigitsAt(s, i + |toks[k]|))
  }

  /** The chapter ordinal of the TruyenFull and TangThuVien adapters. */
  function ChapterNumber(url: string): nat {
    Ordinal(url, ChapterTokens)
  }

  /** The chapter ordinal of the LaoPhatGia adapter. */
  function ChapterNumberWithChap(url: string): nat {
    Ordinal(url, ChapterTokensWithChap)
  }

  /** `_extract_page_number`. */
  function PageNumber(url: string): nat {
    Ordinal(url, PageTokens)
  }

  /** A URL in which no alternative matches anywhere has ordinal 0. */
  lemma OrdinalWithoutMatch(s: string, toks: seq<string>)
    requires forall i, k :: 0 <= i <= |s| && 0 <= k < |toks| ==> !MatchesAt(s, toks[k], i)
    ensures !Found(s, toks) && Ordinal(s, toks) == 0
  {
  }

  /** The ordinal is the value of the digits after the first match: when the
      `k`-th alternative matches at `i`, no alternative matches before `i` and
      no earlier alternative matches at `i`, the ordinal is `int` of the digits
      that follow the `k`-th token there. */
  lemma OrdinalOfFirstMatch(s: string, toks: seq<string>, i: nat, k: nat)
    requires k < |toks| && MatchesAt(s, toks[k], i)
    requires forall j :: 0 <= j < i ==> !HitAt(s, toks, j)
    requires forall m :: 0 <= m < k ==> !MatchesAt(s, toks[m], i)
    ensures Found(s, toks)
    ensures Ordinal(s, toks) == Value(DigitsAt(s, i + |toks[k]|))
  {
    FirstTokenIs(s, toks, i, k);
    FirstHitIs(s, toks, i);
    OrdinalAt(s, toks, i, k);
  }

  /** The ordinal reads the digits after the token the search settled on. */
  lemma OrdinalAt(s: string, toks: seq<string>, i: nat, k: nat)
    requires k < |toks|
    requires FirstHitFrom(s, toks, 0) == Some(i) && FirstTokenFrom(s, toks, i, 0) == Some(k)
    ensures Found(s, toks) && Ordinal(s, toks) == Value(DigitsAt(s, i + |toks[k]|))
  {
    OrdinalIsHitValue(s, toks, i);
    HitValueIs(s, toks, i, k);
  }

  /** Where the search finds a hit, the ordinal is the number read there. */
  lemma OrdinalIsHitValue(s: string, toks: seq<string>, i: nat)
    requires FirstHitFrom(s, toks, 0) == Some(i)
    ensures Ordinal(s, toks) == HitValue(s, toks, i)
  {
  }

  /** The number read at a hit follows the alternative that matched there. */
  lemma HitValueIs(s: string, toks: seq<string>, i: nat, k: nat)
    requires k < |toks| && FirstTokenFrom(s, toks, i, 0) == Some(k)
    ensures HitValue(s, toks, i) == Value(DigitsAt(s, i + |toks[k]|))
  {
  }

  /** The alternatives are tried in order. */
  lemma FirstTokenIs(s: string, toks: seq<string>, i: int, k: nat)
    requires k < |toks| && MatchesAt(s, toks[k], i)
    requires forall m :: 0 <= m < k ==> !MatchesAt(s, toks[m], i)
    ensures FirstTokenFrom(s, toks, i, 0) == Some(k)
  {
    FirstTrueIs(Hits(s, toks, i), 0, k);
  }

  /** The first true entry is the one with no true entry before it. */
  lemma FirstTrueIs(b: seq<bool>, k: nat, i: nat)
    requires k <= i < |b| && b[i]
    requires forall m :: k <= m < i ==> !b[m]
    ensures FirstTrue(b, k) == Some(i)
  {
  }

  /** The search reports the leftmost position where some alternative matches. */
  lemma FirstHitIs(s: string, toks: seq<string>, i: nat)
    requires HitAt(s, toks, i)
    requires forall j :: 0 <= j < i ==> !HitAt(s, toks, j)
    ensures FirstHitFrom(s, toks, 0) == Some(i)
  {
    assert i <= |s| by {
      var k := FirstTokenFrom(s, toks, i, 0).value;
      assert MatchesAt(s, toks[k], i);
    }
    var b := HitsAlong(s, toks);
    assert forall j :: 0 <= j < i ==> !b[j];
    FirstTrueIs(b, 0, i);
  }

  /** The token matches where it was placed, followed by exactly the digits. */
  lemma TokenThenDigits(s: string, p: string, tok: string, digits: string, suffix: string)
    requires s == p + tok + digits + suffix
    requires IsFolded(tok) && |digits| >= 1 && AllDigits(digits)
    requires suffix == [] || !IsAsciiDigit(suffix[0])
    ensures DigitsAt(s, |p| + |tok|) == digits
    ensures MatchesAt(s, tok, |p|)
  {
    DigitsThenStop(p + tok, digits, suffix);
    TokenPlaced(p, tok, digits, suffix);
  }

  /** The digits run up to the first character that is not a digit. */
  lemma DigitsThenStop(front: string, digits: string, suffix: string)
    requires AllDigits(digits)
    requires suffix == [] || !IsAsciiDigit(suffix[0])
    ensures DigitsAt(front + digits + suffix, |front|) == digits
  {
    var s := front + digits + suffix;
    assert s[|front|..] == digits + suffix;
    TakeWhileStop(suffix, IsAsciiDigit);
    TakeWhileAppend(digits, suffix, IsAsciiDigit);
    assert digits + [] == digits;
  }

  /** A token written in lower case matches where it was placed. */
  lemma TokenPlaced(p: string, tok: string, digits: string, suffix: string)
    requires IsFolded(tok)
    ensures CaselessAt(p + tok + digits + suffix, tok, |p|)
  {
    var s := p + tok + digits + suffix;
    forall m | 0 <= m < |tok|
      ensures FoldAscii(s[|p| + m]) == tok[m]
    {
      assert s[|p| + m] == tok[m];
    }
  }

  /** Python's `str(n)` after a chapter token is read back as `n`. */
  lemma ChapterNumberOf(p: string, n: nat, suffix: string)
    requires suffix == [] || !IsAsciiDigit(suffix[0])
    requires forall i :: 0 <= i < |p| ==> !HitAt(p + "/chuong-" + NatToString(n) + suffix, ChapterTokens, i)
    ensures ChapterNumber(p + "/chuong-" + NatToString(n) + suffix) == n
  {
    assert ChapterTokens[0] == "/chuong-";
    var s := p + "/chuong-" + NatToString(n) + suffix;
    TokenThenDigits(s, p, "/chuong-", NatToString(n), suffix);
    OrdinalOfFirstMatch(s, ChapterTokens, |p|, 0);
  }
}

=== FILE: sites.dfy ===
/** Which adapter handles a URL, and how each adapter turns a chapter URL
    into the URL of its story page. */
module Sites {
  import opened Wrappers
  import opened Text
  import opened Urls
  import opened WordPress

  datatype Site = TruyenFull | TangThuVien | LaoPhatGia | WordPressSite

  /** The registry of `SiteDetector`, in the order it is consulted. */
  const Adapters: seq<Site> := [TruyenFull, TangThuVien, LaoPhatGia, WordPressSite]

  /** A site's place in the registry. */
  function Rank(site: Site): (k: nat)
    ensures k < |Adapters| && Adapters[k] == site
  {
    match site
    case TruyenFull => 0
    case TangThuVien => 1
    case LaoPhatGia => 2
    case WordPressSite => 3
  }

  /** `supported_domains`. */
  function Domains(site: Site): seq<string> {
    match site
    case TruyenFull => ["truyenfull.vision", "truyenfull.vn"]
    case TangThuVien => ["tangthuvien.vn", "truyen.tangthuvien.vn"]
    case LaoPhatGia => ["laophatgia.net", "www.laophatgia.net"]
    case WordPressSite => ["wordpress.com"]
  }

  /** `urlparse(url).netloc.lower()`. */
  function Domain(url: string): string {
    Lower(Parse(url).netloc)
  }

  /** The default `supports_url`: some supported domain is a substring of
      the lower-cased network location. */
  predicate DomainMatches(site: Site, url: string) {
    SomeFound(Domain(url), Domains(site))
  }

  /** `supports_url`.  `probe` is the page the WordPress adapter fetches to
      look for indicators: `None` when it has no session or the fetch raises.
      The WordPress adapter accepts a `wordpress.com` host, then a page with
      two indicators, then falls back to the default test. */
  predicate Supports(site: Site, url: string, probe: Option<string>) {
    match site
    case WordPressSite =>
      || Contains(Domain(url), "wordpress.com")
      || (probe.Some? && LooksLikeWordPress(probe.value))
      || DomainMatches(site, url)
    case _ => DomainMatches(site, url)
  }

  /** The WordPress fallback adds nothing: it repeats the first test. */
  lemma WordPressSupports(url: string, probe: Option<string>)
    ensures Supports(WordPressSite, url, probe)
        <==> Contains(Domain(url), "wordpress.com") || (probe.Some? && LooksLikeWordPress(probe.value))
  {
    if DomainMatches(WordPressSite, url) {
      var i :| 0 <= i < |Domains(WordPressSite)| && Contains(Domain(url), Domains(WordPressSite)[i]);
      assert i == 0;
    }
  }

  /** The index of the first site of `sites`, from position `i` on, that
      `ok` accepts. */
  function FirstFrom(sites: seq<Site>, ok: Site -> bool, i: nat): (r: Option<nat>)
    requires i <= |sites|
    ensures r.Some? ==> i <= r.value < |sites| && ok(sites[r.value])
    ensures r.Some? ==> forall j :: i <= j < r.value ==> !ok(sites[j])
    ensures r.None? <==> forall j :: i <= j < |sites| ==> !ok(sites[j])
    decreases |sites| - i
  {
    if i == |sites| then None
    else if ok(sites[i]) then Some(i)
    else FirstFrom(sites, ok, i + 1)
  }

  /** The first adapter of the registry that `ok` accepts. */
  function FirstAdapter(ok: Site -> bool): (r: Option<Site>)
    ensures r.Some? ==> ok(r.value)
    ensures r.Some? ==> forall s :: Rank(s) < Rank(r.value) ==> !ok(s)
    ensures r.None? <==> forall s :: !ok(s)
  {
    match FirstFrom(Adapters, ok, 0)
    case None =>
      forall s
        ensures !ok(s)
      {
        assert Adapters[Rank(s)] == s;
      }
      None
    case Some(k) =>
      RankOfAdapter(k);
      assert forall s :: Rank(s) < k ==> !ok(Adapters[Rank(s)]);
      Some(Adapters[k])
  }

  /** `SiteDetector.detect_site`: the first adapter of the registry that
      supports the URL, or none. */
  function DetectSite(url: string, probe: Option<string>): (r: Option<Site>)
    ensures r.Some? ==> Supports(r.value, url, probe)
    ensures r.Some? ==> forall s :: Rank(s) < Rank(r.value) ==> !Supports(s, url, probe)
    ensures r.None? <==> forall s :: !Supports(s, url, probe)
  {
    FirstAdapter(s => Supports(s, url, probe))
  }

  lemma RankOfAdapter(k: nat)
    requires k < |Adapters|
    ensures Rank(Adapters[k]) == k
  {
  }

  /** A TruyenFull host goes to the TruyenFull adapter, whatever the page. */
  lemma TruyenFullHostDetected(url: string, probe: Option<string>)
    requires DomainMatches(TruyenFull, url)
    ensures DetectSite(url, probe) == Some(TruyenFull)
  {
  }

  /** When an adapter other than WordPress takes the URL, the page does not
      change the outcome. */
  lemma SameDetection(url: string, p1: Option<string>, p2: Option<string>)
    ensures (exists s :: s != WordPressSite && Supports(s, url, p1)) ==> DetectSite(url, p1) == DetectSite(url, p2)
  {
    if exists s :: s != WordPressSite && Supports(s, url, p1) {
      var s :| s != WordPressSite && Supports(s, url, p1);
      var r1, r2 := DetectSite(url, p1), DetectSite(url, p2);
      assert Supports(s, url, p2);
      assert Rank(s) < Rank(WordPressSite);
      assert r1.value != WordPressSite && r2.value != WordPressSite;
      assert Supports(r1.value, url, p2) && Supports(r2.value, url, p1);
      assert Rank(r1.value) == Rank(r2.value);
      assert r1.value == Adapters[Rank(r1.value)];
    }
  }

  /** Only the WordPress adapter looks at the page; it is consulted last, so
      the page matters only when no other adapter takes the URL. */
  lemma ProbeMattersLast(url: string, p1: Option<string>, p2: Option<string>)
    requires DetectSite(url, p1) != DetectSite(url, p2)
    ensures forall s :: s != WordPressSite ==> !Supports(s, url, p1)
    ensures DetectSite(url, p1) == Some(WordPressSite) || DetectSite(url, p2) == Some(WordPressSite)
  {
    SameDetection(url, p1, p2);
  }

  // ---------------------------------------------------------------------------
  // normalize_url
  // ---------------------------------------------------------------------------

  predicate IsSlash(c: char) {
    c == '/'
  }

  /** `parsed.path.strip('/').split('/')`. */
  function PathParts(url: string): (parts: seq<string>)
    ensures |parts| >= 1
  {
    SplitOn(Trim(Parse(url).path, IsSlash), "/")
  }

  /** `'/'.join(path_parts[:-1])`. */
  function StoryPath(parts: seq<string>): string
    requires |parts| >= 1
  {
    Join(parts[..|parts| - 1], "/")
  }

  /** The tokens the whole URL is searched for. */
  function UrlTokens(site: Site): seq<string> {
    match site
    case TruyenFull => ["/chuong-", "/chapter-"]
    case TangThuVien => ["/chuong-"]
    case LaoPhatGia => ["/chuong-", "/chap-", "/chapter-"]
    case WordPressSite => ["chuong-", "chapter-", "chap-"]
  }

  /** The tokens the last path segment is searched for. */
  function SegmentTokens(site: Site): seq<string> {
    match site
    case TruyenFull => ["chuong-", "chapter-"]
    case TangThuVien => ["chuong-"]
    case LaoPhatGia => ["chuong-", "chap-", "chapter-"]
    case WordPressSite => ["chuong-", "chapter-", "chap-"]
  }

  /** TruyenFull matches its tokens case-sensitively; the others lower-case
      first. */
  function Folded(site: Site, s: string): string {
    if site == TruyenFull then s else Lower(s)
  }

  /** The adapters disagree on a trailing slash: only TruyenFull adds one. */
  function Trailer(site: Site): string {
    if site == TruyenFull then "/" else ""
  }

  /** `path_parts[-1]`. */
  function LastSegment(url: string): string {
    var parts := PathParts(url);
    parts[|parts| - 1]
  }

  /** The story URL a named site rebuilds from a chapter URL: its scheme, its
      host and every path segment but the last. */
  function StoryUrl(site: Site, url: string): string {
    Origin(url) + "/" + StoryPath(PathParts(url)) + Trailer(site)
  }

  /** Whether `normalize_url` takes the URL for a chapter URL.  The three
      named sites look for their tokens in the whole URL and then in the last
      path segment; the WordPress adapter looks in the lower-cased path, and
      only when it has a session. */
  predicate LooksLikeChapter(site: Site, url: string, hasSession: bool) {
    if site == WordPressSite then hasSession && SomeFound(Lower(Parse(url).path), SegmentTokens(site))
    else SomeFound(Folded(site, url), UrlTokens(site)) && SomeFound(Folded(site, LastSegment(url)), SegmentTokens(site))
  }

  /** `normalize_url`, returning the URL to read the story from and whether
      the input was a chapter URL.  A named site rebuilds the story URL from a
      chapter URL.  The WordPress adapter only classifies the URL: the page
      fetch it then attempts always raises (the adapter has no `_get_page`),
      and the handler returns the URL as it is. */
  function NormalizeUrl(site: Site, url: string, hasSession: bool): (r: (string, bool))
    ensures r.1 <==> LooksLikeChapter(site, url, hasSession)
    ensures r.0 == if r.1 && site != WordPressSite then StoryUrl(site, url) else url
  {
    if site == WordPressSite then (url, LooksLikeChapter(site, url, hasSession))
    else if !SomeFound(Folded(site, url), UrlTokens(site)) then (url, false)
    else if SomeFound(Folded(site, LastSegment(url)), SegmentTokens(site)) then (StoryUrl(site, url), true)
    else (url, false)
  }

  // ---------------------------------------------------------------------------
  // The round trip from a story URL to one of its chapters and back
  // ---------------------------------------------------------------------------

  /** Path text without query, fragment, parameters or control characters. */
  predicate PathText(s: string) {
    forall i :: 0 <= i < |s| ==> s[i] !in "?#;" && !IsUnsafe(s[i])
  }

  lemma PathTextConcat(a: string, b: string)
    requires PathText(a) && PathText(b)
    ensures PathText(a + b)
  {
    assert forall i :: |a| <= i < |a + b| ==> (a + b)[i] == b[i - |a|];
  }

  /** A host. */
  predicate HostText(s: string) {
    forall i :: 0 <= i < |s| ==> IsNetlocChar(s[i]) && !IsUnsafe(s[i])
  }

  /** The story's path below the host: no slash at either end. */
  predicate StoryPathText(p: string) {
    p != [] && p[0] != '/' && p[|p| - 1] != '/' && PathText(p)
  }

  /** One path segment. */
  predicate SegmentText(seg: string) {
    seg != [] && PathText(seg) && forall i :: 0 <= i < |seg| ==> seg[i] != '/'
  }

  /** The path of a chapter: the story's path and one more segment. */
  function ChapterPath(storyPath: string, seg: string): string {
    "/" + storyPath + "/" + seg
  }

  /** A chapter URL: a story URL with one more segment. */
  function ChapterUrl(scheme: string, host: string, storyPath: string, seg: string): string {
    scheme + "://" + host + ChapterPath(storyPath, seg)
  }

  /** A chapter segment of `site`: it starts with one of the site's segment
      tokens. */
  predicate ChapterSegment(site: Site, seg: string) {
    exists k :: 0 <= k < |SegmentTokens(site)| && StartsWith(seg, SegmentTokens(site)[k])
  }

  /** Normalising the URL of a chapter of a story yields the story's URL:
      the chapter segment is dropped and the rest rebuilt, with a trailing
      slash for TruyenFull. */
  lemma NormalizeChapterUrl(site: Site, scheme: string, host: string, storyPath: string, seg: string, hasSession: bool)
    requires site != WordPressSite
    requires IsSchemeName(scheme) && HostText(host)
    requires StoryPathText(storyPath) && SegmentText(seg)
    requires ChapterSegment(site, seg)
    ensures NormalizeUrl(site, ChapterUrl(scheme, host, storyPath, seg), hasSession)
         == (scheme + "://" + host + "/" + storyPath + Trailer(site), true)
  {
    var url := ChapterUrl(scheme, host, storyPath, seg);
    var origin := scheme + "://" + host;
    ParseChapterUrl(scheme, host, storyPath, seg);
    ChapterUrlSegments(scheme, host, storyPath, seg);
    var k :| 0 <= k < |SegmentTokens(site)| && StartsWith(seg, SegmentTokens(site)[k]);
    ChapterUrlRegroup(origin, storyPath, seg);
    TokenFound(site, url, origin + "/" + storyPath, seg, k);
  }

  /** The last segment of a chapter URL is the chapter's, and the story path
      rebuilt from the others is the story's. */
  lemma ChapterUrlSegments(scheme: string, host: string, storyPath: string, seg: string)
    requires Parse(ChapterUrl(scheme, host, storyPath, seg)).path == ChapterPath(storyPath, seg)
    requires StoryPathText(storyPath) && SegmentText(seg)
    ensures LastSegment(ChapterUrl(scheme, host, storyPath, seg)) == seg
    ensures StoryPath(PathParts(ChapterUrl(scheme, host, storyPath, seg))) == storyPath
  {
    ChapterPathParts(storyPath, seg);
    var pp := SplitOn(storyPath, "/");
    assert (pp + [seg])[..|pp|] == pp;
  }

  lemma ChapterUrlRegroup(origin: string, storyPath: string, seg: string)
    ensures origin + ChapterPath(storyPath, seg) == origin + "/" + storyPath + "/" + seg
  {
  }

  /** The URL and the last segment both show the token the segment starts
      with. */
  lemma TokenFound(site: Site, url: string, x: string, seg: string, k: nat)
    requires site != WordPressSite && k < |SegmentTokens(site)|
    requires StartsWith(seg, SegmentTokens(site)[k])
    requires url == x + "/" + seg
    ensures SomeFound(Folded(site, url), UrlTokens(site))
    ensures SomeFound(Folded(site, seg), SegmentTokens(site))
  {
    var tok := SegmentTokens(site)[k];
    TokenLiterals(site, k);
    SlashTokenAt(x, tok, seg);
    assert OccursAt(seg, tok, 0);
    LowerKeeps(url, "/" + tok, |x|);
    LowerKeeps(seg, tok, 0);
    ContainsAt(Folded(site, url), UrlTokens(site)[k], |x|);
    ContainsAt(Folded(site, seg), SegmentTokens(site)[k], 0);
  }

  /** Each URL token is the segment token behind a slash, and both are
      lower-case ASCII. */
  lemma TokenLiterals(site: Site, k: nat)
    requires site != WordPressSite && k < |SegmentTokens(site)|
    ensures UrlTokens(site)[k] == "/" + SegmentTokens(site)[k]
    ensures LowerAscii(SegmentTokens(site)[k]) && LowerAscii("/" + SegmentTokens(site)[k])
  {
  }

  predicate LowerAscii(sub: string) {
    forall k :: 0 <= k < |sub| ==> sub[k] == '/' || sub[k] == '-' || 'a' <= sub[k] <= 'z'
  }

  lemma SlashTokenAt(x: string, tok: string, seg: string)
    requires StartsWith(seg, tok)
    ensures OccursAt(x + "/" + seg, "/" + tok, |x|)
  {
    var u := x + "/" + seg;
    assert forall i :: 0 <= i < |tok| ==> u[|x| + 1 + i] == seg[i];
    assert u[|x|..|x| + 1 + |tok|] == "/" + tok;
  }

  /** Lower-casing keeps an occurrence of lower-case ASCII text. */
  lemma LowerKeeps(s: string, sub: string, i: int)
    requires OccursAt(s, sub, i) && LowerAscii(sub)
    ensures OccursAt(Lower(s), sub, i)
  {
    var l := Lower(s);
    assert forall k :: 0 <= k < |sub| ==> l[i + k] == LowerChar(s[i + k]) && s[i + k] == sub[k];
    assert l[i..i + |sub|] == sub;
  }

  /** `urlparse` of a chapter URL. */
  lemma ParseChapterUrl(scheme: string, host: string, storyPath: string, seg: string)
    requires IsSchemeName(scheme) && HostText(host)
    requires StoryPathText(storyPath) && SegmentText(seg)
    ensures Parse(ChapterUrl(scheme, host, storyPath, seg)) == Url(scheme, host, ChapterPath(storyPath, seg))
  {
    assert PathText("/");
    PathTextConcat("/", storyPath);
    PathTextConcat("/" + storyPath, "/");
    PathTextConcat("/" + storyPath + "/", seg);
    ParseComposed(scheme, host, ChapterPath(storyPath, seg));
  }

  /** The segments of a chapter path: the story's segments, then the
      chapter's. */
  lemma ChapterPathParts(storyPath: string, seg: string)
    requires StoryPathText(storyPath) && SegmentText(seg)
    ensures SplitOn(Trim(ChapterPath(storyPath, seg), IsSlash), "/") == SplitOn(storyPath, "/") + [seg]
  {
    TrimChapterPath(storyPath, seg);
    var pp := SplitOn(storyPath, "/");
    JoinSnoc(pp, seg, "/");
    NotContainsChar(seg, '/');
    PartsFree(pp, seg);
    SplitJoin(pp + [seg], "/");
  }

  lemma PartsFree(pp: seq<string>, seg: string)
    requires forall k :: 0 <= k < |pp| ==> !Contains(pp[k], "/")
    requires !Contains(seg, "/")
    ensures forall k :: 0 <= k < |pp + [seg]| ==> !Contains((pp + [seg])[k], "/")
  {
    forall k | 0 <= k < |pp + [seg]|
      ensures !Contains((pp + [seg])[k], "/")
    {
      if k < |pp| {
        assert (pp + [seg])[k] == pp[k];
      }
    }
  }

  /** Stripping the slashes of a chapter path leaves the story path, a
      slash and the segment. */
  lemma TrimChapterPath(storyPath: string, seg: string)
    requires StoryPathText(storyPath) && SegmentText(seg)
    ensures Trim(ChapterPath(storyPath, seg), IsSlash) == storyPath + "/" + seg
  {
    var inner := storyPath + "/" + seg;
    var path := ChapterPath(storyPath, seg);
    assert path == "/" + inner;
    assert path[1..1 + |inner|] == inner;
    assert inner[|inner| - 1] == seg[|seg| - 1];
    TrimUnique(path, inner, 1, IsSlash);
  }
}

=== FILE: sorting.dfy ===
/** Python's `list.sort(key=...)`: a stable sort by an integer key.  It is
    modelled as insertion sort and characterised independently: the result is
    ordered by key, and for every key it lists the elements with that key in
    their input order.  `SortUnique` shows those two properties determine the
    result, so any stable sort agrees with this one. */
module StableSort {

  /** Non-decreasing in `key`. */
  predicate SortedBy<T>(s: seq<T>, key: T -> int) {
    forall i, j :: 0 <= i < j < |s| ==> key(s[i]) <= key(s[j])
  }

  /** The elements of `s` whose key is `k`, in order. */
  function WithKey<T>(s: seq<T>, key: T -> int, k: int): seq<T>
    decreases |s|
  {
    if s == [] then []
    else WithKey(s[..|s| - 1], key, k) + (if key(s[|s| - 1]) == k then [s[|s| - 1]] else [])
  }

  /** Inserts `x` after every element of `s`, from the end, whose key is not
      greater than `x`'s. */
  function Insert<T>(s: seq<T>, x: T, key: T -> int): (r: seq<T>)
    ensures |r| == |s| + 1
    decreases |s|
  {
    if s == [] || key(s[|s| - 1]) <= key(x) then s + [x]
    else Insert(s[..|s| - 1], x, key) + [s[|s| - 1]]
  }

  lemma {:induction false} InsertMultiset<T>(s: seq<T>, x: T, key: T -> int)
    ensures multiset(Insert(s, x, key)) == multiset(s) + multiset{x}
    decreases |s|
  {
    if !(s == [] || key(s[|s| - 1]) <= key(x)) {
      var init := s[..|s| - 1];
      assert s == init + [s[|s| - 1]];
      InsertMultiset(init, x, key);
    }
  }

  lemma {:induction false} InsertSorted<T>(s: seq<T>, x: T, key: T -> int)
    requires SortedBy(s, key)
    ensures SortedBy(Insert(s, x, key), key)
    decreases |s|
  {
    if !(s == [] || key(s[|s| - 1]) <= key(x)) {
      var init := s[..|s| - 1];
      var last := s[|s| - 1];
      var r0 := Insert(init, x, key);
      InsertSorted(init, x, key);
      InsertMultiset(init, x, key);
      forall i | 0 <= i < |r0|
        ensures key(r0[i]) <= key(last)
      {
        assert r0[i] in multiset(r0);
        if r0[i] != x {
          assert r0[i] in multiset(init);
          var j :| 0 <= j < |init| && init[j] == r0[i];
          assert init[j] == s[j];
        }
      }
    }
  }

  lemma {:induction false} InsertWithKey<T>(s: seq<T>, x: T, key: T -> int, k: int)
    ensures WithKey(Insert(s, x, key), key, k) == WithKey(s, key, k) + (if key(x) == k then [x] else [])
    decreases |s|
  {
    var r := Insert(s, x, key);
    if s == [] || key(s[|s| - 1]) <= key(x) {
      assert r[..|r| - 1] == s;
    } else {
      var init := s[..|s| - 1];
      var last := s[|s| - 1];
      InsertWithKey(init, x, key, k);
      assert r[..|r| - 1] == Insert(init, x, key);
    }
  }

  /** Python's `sorted(s, key=key)`. */
  function SortBy<T>(s: seq<T>, key: T -> int): (r: seq<T>)
    ensures SortedBy(r, key)
    ensures multiset(r) == multiset(s)
    ensures forall k :: WithKey(r, key, k) == WithKey(s, key, k)
    decreases |s|
  {
    if s == [] then []
    else
      var init := s[..|s| - 1];
      var x := s[|s| - 1];
      assert s == init + [x];
      var r0 := SortBy(init, key);
      InsertSorted(r0, x, key);
      InsertMultiset(r0, x, key);
      assert forall k :: WithKey(Insert(r0, x, key), key, k) == WithKey(s, key, k) by {
        forall k ensures WithKey(Insert(r0, x, key), key, k) == WithKey(s, key, k) {
          InsertWithKey(r0, x, key, k);
        }
      }
      Insert(r0, x, key)
  }

  /** Every element `WithKey` lists is an element of `s` with that key. */
  lemma {:induction false} WithKeyMember<T>(s: seq<T>, key: T -> int, k: int, y: T)
    requires y in WithKey(s, key, k)
    ensures y in s && key(y) == k
    decreases |s|
  {
    var init := s[..|s| - 1];
    if y in WithKey(init, key, k) {
      WithKeyMember(init, key, k, y);
      assert s == init + [s[|s| - 1]];
    }
  }

  /** The last element's key selects a non-empty subsequence. */
  lemma LastKeyListed<T>(s: seq<T>, key: T -> int)
    ensures s != [] ==> WithKey(s, key, key(s[|s| - 1])) != []
    ensures s == [] ==> forall k :: WithKey(s, key, k) == []
  {
  }

  /** A sequence ordered by key is determined by its per-key subsequences. */
  lemma {:induction false} SortUnique<T>(a: seq<T>, b: seq<T>, key: T -> int)
    requires SortedBy(a, key) && SortedBy(b, key)
    requires forall k :: WithKey(a, key, k) == WithKey(b, key, k)
    ensures a == b
    decreases |a| + |b|
  {
    if a == [] || b == [] {
      LastKeyListed(a, key);
      LastKeyListed(b, key);
    } else {
      var ai, bi := a[..|a| - 1], b[..|b| - 1];
      var la, lb := a[|a| - 1], b[|b| - 1];
      assert a == ai + [la] && b == bi + [lb];
      SameLast(ai, la, bi, lb, key);
      SortUnique(ai, bi, key);
    }
  }

  lemma WithKeySnoc<T>(s: seq<T>, x: T, key: T -> int, k: int)
    ensures WithKey(s + [x], key, k) == WithKey(s, key, k) + (if key(x) == k then [x] else [])
  {
    assert (s + [x])[..|s|] == s;
  }

  /** Two sequences ordered by key with the same per-key subsequences end
      with the same element, and what precedes it again has the same per-key
      subsequences. */
  lemma SameLast<T>(ai: seq<T>, la: T, bi: seq<T>, lb: T, key: T -> int)
    requires SortedBy(ai + [la], key) && SortedBy(bi + [lb], key)
    requires forall k :: WithKey(ai + [la], key, k) == WithKey(bi + [lb], key, k)
    ensures la == lb
    ensures forall k :: WithKey(ai, key, k) == WithKey(bi, key, k)
  {
    var a, b := ai + [la], bi + [lb];
    WithKeySnoc(ai, la, key, key(la));
    WithKeySnoc(bi, lb, key, key(lb));
    assert key(la) <= key(lb) by {
      assert la in WithKey(b, key, key(la));
      WithKeyMember(b, key, key(la), la);
      var j :| 0 <= j < |b| && b[j] == la;
    }
    assert key(lb) <= key(la) by {
      assert lb in WithKey(a, key, key(lb));
      WithKeyMember(a, key, key(lb), lb);
      var j :| 0 <= j < |a| && a[j] == lb;
    }
    var m := key(la);
    var wa := WithKey(a, key, m);
    assert wa[|wa| - 1] == la && wa[|wa| - 1] == lb;
    forall k
      ensures WithKey(ai, key, k) == WithKey(bi, key, k)
    {
      WithKeySnoc(ai, la, key, k);
      WithKeySnoc(bi, lb, key, k);
      if k == m {
        assert WithKey(ai, key, k) == wa[..|wa| - 1];
        assert WithKey(bi, key, k) == wa[..|wa| - 1];
      }
    }
  }

  /** Python's sort is stable: any ordering by key that keeps the input order
      among equal keys is exactly `SortBy`. */
  lemma StableSortIsSortBy<T>(s: seq<T>, r: seq<T>, key: T -> int)
    requires SortedBy(r, key)
    requires forall k :: WithKey(r, key, k) == WithKey(s, key, k)
    ensures r == SortBy(s, key)
  {
    SortUnique(r, SortBy(s, key), key);
  }
}

=== FILE: stories.dfy ===
/** The chapter list each adapter's `get_story_info` returns: the adapter's
    tiers of anchor queries, the first tier that yields anything, and a
    stable sort by chapter ordinal. */
module StoryChapters {
  import opened Wrappers
  import opened Text
  import opened Ordinals
  import opened StableSort
  import opened ChapterLists

  /** The sort key of the TruyenFull and TangThuVien adapters. */
  function ByChapter(c: ChapterLink): int {
    ChapterNumber(c.url)
  }

  /** The sort key of the LaoPhatGia adapter. */
  function ByChapterWithChap(c: ChapterLink): int {
    ChapterNumberWithChap(c.url)
  }

  // ---------------------------------------------------------------------------
  // TruyenFull
  // ---------------------------------------------------------------------------

  /** What `_get_chapters_from_page` reads off one page: the anchors of the
      chapter-list container (empty when there is none) and all anchors. */
  datatype ListPage = ListPage(listed: seq<Anchor>, all: seq<Anchor>)

  /** The chapters of each pagination page, in link order; a page the fetch
      could not deliver contributes nothing. */
  function FetchedPages(links: seq<string>, fetch: string -> Option<ListPage>, base: string): (pages: seq<seq<ChapterLink>>)
    ensures |pages| == |links|
  {
    seq(|links|, i requires 0 <= i < |links| =>
      match fetch(links[i])
      case None => []
      case Some(p) => PageChapters(p.listed, p.all, base))
  }

  /** `_get_chapters_pagination`: the story page's own chapters followed by
      the new chapters of every pagination page. */
  function PaginationChapters(story: ListPage, pagination: seq<Anchor>, nextLinks: seq<Anchor>,
                              fetch: string -> Option<ListPage>, base: string): (r: seq<ChapterLink>)
    ensures PageChapters(story.listed, story.all, base) <= r
    ensures FreshFrom(r, |PageChapters(story.listed, story.all, base)|, LinkUrl)
  {
    var first := PageChapters(story.listed, story.all, base);
    var pages := FetchedPages(PaginationLinks(pagination, nextLinks, base), fetch, base);
    MergePagesFresh(first, pages);
    MergePages(first, pages)
  }

  /** The TruyenFull chapter list before sorting: the AJAX chapters when
      there are any (no `truyen-id`, a failed AJAX fetch and an empty answer
      all give no options), else the pagination chapters. */
  function TruyenFullUnsorted(options: seq<OptionTag>, story: ListPage, pagination: seq<Anchor>,
                              nextLinks: seq<Anchor>, fetch: string -> Option<ListPage>,
                              base: string, storyPath: string): seq<ChapterLink>
  {
    var ajax := AjaxChapters(options, base, storyPath);
    if ajax != [] then ajax else PaginationChapters(story, pagination, nextLinks, fetch, base)
  }

  /** The chapters of TruyenFull's `get_story_info`. */
  function TruyenFullChapters(options: seq<OptionTag>, story: ListPage, pagination: seq<Anchor>,
                              nextLinks: seq<Anchor>, fetch: string -> Option<ListPage>,
                              base: string, storyPath: string): (r: seq<ChapterLink>)
    ensures var u := TruyenFullUnsorted(options, story, pagination, nextLinks, fetch, base, storyPath);
            && SortedBy(r, ByChapter)
            && multiset(r) == multiset(u)
            && forall k :: WithKey(r, ByChapter, k) == WithKey(u, ByChapter, k)
  {
    SortBy(TruyenFullUnsorted(options, story, pagination, nextLinks, fetch, base, storyPath), ByChapter)
  }

  /** When the AJAX endpoint yields chapters the pages are never consulted:
      the list is the AJAX chapters, sorted. */
  lemma TruyenFullPrefersAjax(options: seq<OptionTag>, story: ListPage, pagination: seq<Anchor>,
                              nextLinks: seq<Anchor>, fetch: string -> Option<ListPage>,
                              base: string, storyPath: string)
    requires exists i :: 0 <= i < |options| && KeepsOption(options[i])
    ensures TruyenFullChapters(options, story, pagination, nextLinks, fetch, base, storyPath)
         == SortBy(AjaxChapters(options, base, storyPath), ByChapter)
  {
    FilterMapEmpty(options, KeepsOption, (o: OptionTag) => OptionLink(base, storyPath, o));
  }

  // ---------------------------------------------------------------------------
  // TangThuVien
  // ---------------------------------------------------------------------------

  /** The first tier's href filter, on the lower-cased href; `/chapter` has
      no dash here. */
  predicate TangThuVienListed(a: Anchor) {
    var h := Lower(a.href);
    Contains(h, "/chuong-") || Contains(h, "/chapter")
  }

  /** The second tier's filter: a `/chuong-` href and a non-empty title. */
  predicate TangThuVienAnywhere(a: Anchor) {
    Contains(Lower(a.href), "/chuong-") && a.text != ""
  }

  /** The TangThuVien chapter list before sorting: the chapter anchors of the
      list container (empty when there is none), or failing that the titled
      `/chuong-` anchors of the whole page; each without repeated URLs. */
  function TangThuVienUnsorted(listed: seq<Anchor>, all: seq<Anchor>, base: string): (r: seq<ChapterLink>)
    ensures DistinctIds(r, LinkUrl)
  {
    var primary := ResolveDistinct(listed, TangThuVienListed, base);
    if primary != [] then primary else ResolveDistinct(all, TangThuVienAnywhere, base)
  }

  /** The chapters of TangThuVien's `get_story_info`. */
  function TangThuVienChapters(listed: seq<Anchor>, all: seq<Anchor>, base: string): (r: seq<ChapterLink>)
    ensures var u := TangThuVienUnsorted(listed, all, base);
            && SortedBy(r, ByChapter)
            && multiset(r) == multiset(u)
            && (forall k :: WithKey(r, ByChapter, k) == WithKey(u, ByChapter, k))
            && DistinctIds(r, LinkUrl)
  {
    var u := TangThuVienUnsorted(listed, all, base);
    SortKeepsDistinct(u, ByChapter, LinkUrl);
    SortBy(u, ByChapter)
  }

  // ---------------------------------------------------------------------------
  // LaoPhatGia
  // ---------------------------------------------------------------------------

  /** The href filter of every tier: one of `/chuong-`, `/chap-`, `/chapter-`
      in the lower-cased href. */
  predicate LaoPhatGiaHref(href: string) {
    var h := Lower(href);
    Contains(h, "/chuong-") || Contains(h, "/chap-") || Contains(h, "/chapter-")
  }

  predicate LaoPhatGiaAnchor(a: Anchor) {
    LaoPhatGiaHref(a.href)
  }

  /** The last tier also needs a non-empty title. */
  predicate LaoPhatGiaTitled(a: Anchor) {
    LaoPhatGiaHref(a.href) && a.text != ""
  }

  /** The second tier: the first of the fallback containers (those of the
      selector list that exist, in selector order) whose chapter anchors
      yield anything. */
  function FirstContainerChapters(containers: seq<seq<Anchor>>, base: string): (r: seq<ChapterLink>)
    ensures DistinctIds(r, LinkUrl)
    ensures r == [] <==> forall k :: 0 <= k < |containers| ==> ResolveDistinct(containers[k], LaoPhatGiaAnchor, base) == []
    ensures r != [] ==> exists k :: 0 <= k < |containers| && r == ResolveDistinct(containers[k], LaoPhatGiaAnchor, base)
    decreases |containers|
  {
    if containers == [] then []
    else
      var here := ResolveDistinct(containers[0], LaoPhatGiaAnchor, base);
      if here != [] then here
      else
        var r := FirstContainerChapters(containers[1..], base);
        assert forall k :: 1 <= k < |containers| ==> containers[1..][k - 1] == containers[k];
        r
  }

  /** The LaoPhatGia chapter list before sorting.  `items` holds, for each
      `<li>` of the listing container that has one, its first anchor with an
      href; `containers` the fallback containers; `all` every anchor of the
      page.  Every tier leaves out repeated URLs. */
  function LaoPhatGiaUnsorted(items: seq<Anchor>, containers: seq<seq<Anchor>>, all: seq<Anchor>, base: string): (r: seq<ChapterLink>)
    ensures DistinctIds(r, LinkUrl)
  {
    var tier1 := ResolveDistinct(items, LaoPhatGiaAnchor, base);
    if tier1 != [] then tier1
    else
      var tier2 := FirstContainerChapters(containers, base);
      if tier2 != [] then tier2 else ResolveDistinct(all, LaoPhatGiaTitled, base)
  }

  /** The chapters of LaoPhatGia's `get_story_info`. */
  function LaoPhatGiaChapters(items: seq<Anchor>, containers: seq<seq<Anchor>>, all: seq<Anchor>, base: string): (r: seq<ChapterLink>)
    ensures var u := LaoPhatGiaUnsorted(items, containers, all, base);
            && SortedBy(r, ByChapterWithChap)
            && multiset(r) == multiset(u)
            && (forall k :: WithKey(r, ByChapterWithChap, k) == WithKey(u, ByChapterWithChap, k))
            && DistinctIds(r, LinkUrl)
  {
    var u := LaoPhatGiaUnsorted(items, containers, all, base);
    SortKeepsDistinct(u, ByChapterWithChap, LinkUrl);
    SortBy(u, ByChapterWithChap)
  }
}

=== FILE: text.dfy ===
/** Character classes and the string operations of Python's `str` that the
    adapters and the downloader rely on: `in`, `startswith`, `lower`, `strip`,
    `split(sep)`, `sep.join(...)` and `replace`. */
module Text {
  import opened Wrappers

  // ---------------------------------------------------------------------------
  // Character classes
  // ---------------------------------------------------------------------------

  /** The characters `str.isspace()` (and therefore `str.strip()`, `str.split()`
      and the regex class `\s`) treat as whitespace. */
  predicate IsSpace(c: char) {
    || ('\t' <= c <= '\r')
    || ('\U{1C}' <= c <= '\U{1F}')
    || c == ' ' || c == '\U{85}' || c == '\U{A0}' || c == '\U{1680}'
    || ('\U{2000}' <= c <= '\U{200A}')
    || c == '\U{2028}' || c == '\U{2029}' || c == '\U{202F}' || c == '\U{205F}'
    || c == '\U{3000}'
  }

  predicate NotSpace(c: char) {
    !IsSpace(c)
  }

  /** The regex class `[ \t]`. */
  predicate IsBlank(c: char) {
    c == ' ' || c == '\t'
  }

  predicate IsDash(c: char) {
    c == '-'
  }

  predicate IsAsciiDigit(c: char) {
    '0' <= c <= '9'
  }

  /** The regex class `[a-z0-9]`. */
  predicate IsLowerAlnum(c: char) {
    ('a' <= c <= 'z') || IsAsciiDigit(c)
  }

  /** `str.lower()` on one character, for ASCII, Latin-1 and the letters of the
      Vietnamese alphabet; every other character is left as it is, where
      Python would lower-case it too. */
  function LowerChar(c: char): char {
    if 'A' <= c <= 'Z' then (c as int + 32) as char
    else if '\U{C0}' <= c <= '\U{DE}' && c != '\U{D7}' then (c as int + 32) as char
    else if '\U{100}' <= c <= '\U{12F}' && c as int % 2 == 0 then (c as int + 1) as char
    else if c == '\U{168}' || c == '\U{1A0}' || c == '\U{1AF}' then (c as int + 1) as char
    else if '\U{1EA0}' <= c <= '\U{1EF8}' && c as int % 2 == 0 then (c as int + 1) as char
    else c
  }

  function Lower(s: string): (r: string)
    ensures |r| == |s|
    ensures forall i :: 0 <= i < |s| ==> r[i] == LowerChar(s[i])
  {
    seq(|s|, i requires 0 <= i < |s| => LowerChar(s[i]))
  }

  /** The `LowerChar` of this model never turns a character outside `[A-Z]`
      into an ASCII lower-case letter.  Python's `lower()` does: the Kelvin
      sign U+212A becomes `k` and U+0130 becomes `i` followed by a combining
      dot, and `LowerChar` does not cover them. */
  lemma LowerCharToAsciiLetter(c: char)
    requires 'a' <= LowerChar(c) <= 'z'
    ensures c == LowerChar(c) || c as int == LowerChar(c) as int - 32
  {
  }

  // ---------------------------------------------------------------------------
  // Substrings
  // ---------------------------------------------------------------------------

  predicate OccursAt(s: string, sub: string, i: int) {
    0 <= i && i + |sub| <= |s| && s[i..i + |sub|] == sub
  }

  /** The first occurrence of `sub` in `s` at or after position `k`. */
  function IndexFrom(s: string, sub: string, k: nat): (r: Option<nat>)
    ensures r.Some? ==> k <= r.value && OccursAt(s, sub, r.value)
    ensures r.Some? ==> forall j :: k <= j < r.value ==> !OccursAt(s, sub, j)
    ensures r.None? ==> forall j :: k <= j ==> !OccursAt(s, sub, j)
    decreases |s| - k
  {
    if k + |sub| > |s| then None
    else if s[k..k + |sub|] == sub then Some(k)
    else IndexFrom(s, sub, k + 1)
  }

  /** `s.find(sub)`, with `None` for -1. */
  function IndexOf(s: string, sub: string): (r: Option<nat>)
    ensures r.Some? ==> OccursAt(s, sub, r.value)
    ensures r.Some? ==> forall j :: 0 <= j < r.value ==> !OccursAt(s, sub, j)
    ensures r.None? <==> forall j :: !OccursAt(s, sub, j)
  {
    IndexFrom(s, sub, 0)
  }

  /** Python's `sub in s`. */
  predicate Contains(s: string, sub: string) {
    IndexOf(s, sub).Some?
  }

  lemma ContainsAt(s: string, sub: string, i: int)
    requires OccursAt(s, sub, i)
    ensures Contains(s, sub)
  {
  }

  /** An occurrence inside a slice of `s` is an occurrence in `s`. */
  lemma OccursInSlice(s: string, lo: nat, hi: nat, sub: string, j: int)
    requires lo <= hi <= |s|
    requires OccursAt(s[lo..hi], sub, j)
    ensures OccursAt(s, sub, lo + j)
  {
    var u := s[lo..hi][j..j + |sub|];
    var v := s[lo + j..lo + j + |sub|];
    assert forall k :: 0 <= k < |u| ==> u[k] == v[k];
  }

  lemma ContainsSlice(s: string, lo: nat, hi: nat, sub: string)
    requires lo <= hi <= |s|
    requires Contains(s[lo..hi], sub)
    ensures Contains(s, sub)
  {
    var j := IndexOf(s[lo..hi], sub).value;
    OccursInSlice(s, lo, hi, sub, j);
  }

  predicate StartsWith(s: string, prefix: string) {
    prefix <= s
  }

  predicate EndsWith(s: string, suffix: string) {
    |suffix| <= |s| && s[|s| - |suffix|..] == suffix
  }

  // ---------------------------------------------------------------------------
  // Stripping
  // ---------------------------------------------------------------------------

  /** Removes the longest prefix of characters satisfying `drop`. */
  function TrimLeft(s: string, drop: char -> bool): (r: string)
    ensures |r| <= |s| && r == s[|s| - |r|..]
    ensures r == [] || !drop(r[0])
    ensures forall i :: 0 <= i < |s| - |r| ==> drop(s[i])
  {
    if s != [] && drop(s[0]) then TrimLeft(s[1..], drop) else s
  }

  /** Trimming a concatenation trims into the second part only when the
      first is dropped entirely. */
  lemma {:induction false} TrimLeftConcat(a: string, b: string, drop: char -> bool)
    ensures TrimLeft(a + b, drop) == if TrimLeft(a, drop) == [] then TrimLeft(b, drop) else TrimLeft(a, drop) + b
  {
    if a != [] && drop(a[0]) {
      assert (a + b)[1..] == a[1..] + b;
      TrimLeftConcat(a[1..], b, drop);
    } else if a == [] {
      assert a + b == b;
    }
  }

  /** Removes the longest suffix of characters satisfying `drop`
      (Python's `rstrip(chars)`). */
  function TrimRight(s: string, drop: char -> bool): (r: string)
    ensures |r| <= |s| && r == s[..|r|]
    ensures r == [] || !drop(r[|r| - 1])
    ensures forall i :: |r| <= i < |s| ==> drop(s[i])
  {
    if s != [] && drop(s[|s| - 1]) then TrimRight(s[..|s| - 1], drop) else s
  }

  /** `r` is the slice of `s` starting at `lo`, and every character of `s`
      outside that slice satisfies `drop`. */
  predicate TrimmedSliceAt(s: string, r: string, lo: int, drop: char -> bool) {
    && 0 <= lo <= |s| - |r| && r == s[lo..lo + |r|]
    && (forall i :: 0 <= i < lo ==> drop(s[i]))
    && (forall i :: lo + |r| <= i < |s| ==> drop(s[i]))
  }

  /** Python's `strip(chars)`: a slice of `s` that neither starts nor ends with
      a dropped character, and outside of which every character is dropped. */
  function Trim(s: string, drop: char -> bool): (r: string)
    ensures exists lo :: TrimmedSliceAt(s, r, lo, drop)
    ensures r == [] || (!drop(r[0]) && !drop(r[|r| - 1]))
  {
    var l := TrimLeft(s, drop);
    var r := TrimRight(l, drop);
    var lo := |s| - |l|;
    assert TrimmedSliceAt(s, r, lo, drop);
    r
  }

  /** `Trim` is determined by its contract: a slice with kept ends and only
      dropped characters around it is the trimmed text. */
  lemma TrimUnique(s: string, r: string, lo: int, drop: char -> bool)
    requires TrimmedSliceAt(s, r, lo, drop)
    requires r == [] || (!drop(r[0]) && !drop(r[|r| - 1]))
    ensures Trim(s, drop) == r
  {
    var t := Trim(s, drop);
    var lo' :| TrimmedSliceAt(s, t, lo', drop);
    if r != [] && t != [] {
      assert s[lo] == r[0] && s[lo'] == t[0];
      assert s[lo + |r| - 1] == r[|r| - 1] && s[lo' + |t| - 1] == t[|t| - 1];
      assert lo == lo';
      assert |r| == |t|;
    }
  }

  /** Python's `str.strip()` with no argument. */
  function Strip(s: string): (r: string)
    ensures r == [] || (!IsSpace(r[0]) && !IsSpace(r[|r| - 1]))
    ensures |r| <= |s|
  {
    Trim(s, IsSpace)
  }

  /** Stripping cannot make a substring appear. */
  lemma StripKeepsAbsent(s: string, sub: string)
    requires !Contains(s, sub)
    ensures !Contains(Strip(s), sub)
  {
    var t := Strip(s);
    var lo :| TrimmedSliceAt(s, t, lo, IsSpace);
    AbsentFromSlice(s, lo, lo + |t|, t, sub);
  }

  /** A slice of `s` holds no substring that `s` does not hold. */
  lemma AbsentFromSlice(s: string, lo: nat, hi: nat, t: string, sub: string)
    requires lo <= hi <= |s| && t == s[lo..hi] && !Contains(s, sub)
    ensures !Contains(t, sub)
  {
    if Contains(t, sub) {
      ContainsSlice(s, lo, hi, sub);
    }
  }

  /** A string strips to nothing exactly when it is all whitespace. */
  lemma StripEmpty(s: string)
    ensures Strip(s) == [] <==> forall i :: 0 <= i < |s| ==> IsSpace(s[i])
  {
    if forall i :: 0 <= i < |s| ==> IsSpace(s[i]) {
      TrimUnique(s, [], 0, IsSpace);
    } else {
      var t := Strip(s);
      var lo :| TrimmedSliceAt(s, t, lo, IsSpace);
    }
  }

  predicate IsStripped(s: string) {
    s == [] || (!IsSpace(s[0]) && !IsSpace(s[|s| - 1]))
  }

  /** Stripping text that has nothing to strip changes nothing. */
  lemma StripStripped(s: string)
    requires IsStripped(s)
    ensures Strip(s) == s
  {
  }

  /** The longest prefix of `s` whose characters all satisfy `keep`. */
  function TakeWhile(s: string, keep: char -> bool): (r: string)
    ensures r <= s
    ensures forall i :: 0 <= i < |r| ==> keep(r[i])
    ensures |r| == |s| || !keep(s[|r|])
  {
    var rest := TrimLeft(s, keep);
    s[..|s| - |rest|]
  }

  /** `TakeWhile` passes over a prefix of kept characters. */
  lemma {:induction false} TakeWhileAppend(a: string, b: string, keep: char -> bool)
    requires forall i :: 0 <= i < |a| ==> keep(a[i])
    ensures TakeWhile(a + b, keep) == a + TakeWhile(b, keep)
  {
    var r := TakeWhile(a + b, keep);
    var t := TakeWhile(b, keep);
    assert forall i :: 0 <= i < |a| ==> (a + b)[i] == a[i];
    assert |r| >= |a|;
    assert r[..|a|] == a;
    var u := r[|a|..];
    assert u <= b;
    assert forall i :: 0 <= i < |u| ==> keep(u[i]) by {
      forall i | 0 <= i < |u| ensures keep(u[i]) {
        assert u[i] == r[|a| + i];
      }
    }
    assert |u| == |b| || !keep(b[|u|]) by {
      if |u| < |b| {
        assert b[|u|] == (a + b)[|r|];
      }
    }
    TakeWhileUnique(b, u, keep);
    assert r == r[..|a|] + r[|a|..];
  }

  /** `TakeWhile` is the only prefix of kept characters that stops at a dropped
      character or at the end. */
  lemma TakeWhileUnique(s: string, u: string, keep: char -> bool)
    requires u <= s
    requires forall i :: 0 <= i < |u| ==> keep(u[i])
    requires |u| == |s| || !keep(s[|u|])
    ensures u == TakeWhile(s, keep)
  {
    var r := TakeWhile(s, keep);
    assert forall i :: 0 <= i < |u| ==> u[i] == s[i];
    assert forall i :: 0 <= i < |r| ==> r[i] == s[i];
  }

  // ---------------------------------------------------------------------------
  // Filtering
  // ---------------------------------------------------------------------------

  /** The characters of `s` that satisfy `keep`, in order. */
  function Select(s: string, keep: char -> bool): (r: string)
    ensures |r| <= |s|
    ensures forall i :: 0 <= i < |r| ==> keep(r[i])
  {
    if s == [] then [] else (if keep(s[0]) then [s[0]] else []) + Select(s[1..], keep)
  }

  lemma {:induction false} SelectConcat(a: string, b: string, keep: char -> bool)
    ensures Select(a + b, keep) == Select(a, keep) + Select(b, keep)
  {
    if a == [] {
      assert a + b == b;
    } else {
      assert (a + b)[1..] == a[1..] + b;
      SelectConcat(a[1..], b, keep);
    }
  }
  /** Filtering by a weaker condition first changes nothing. */
  lemma {:induction false} SelectNarrow(s: string, p: char -> bool, q: char -> bool)
    requires forall c :: q(c) ==> p(c)
    ensures Select(Select(s, p), q) == Select(s, q)
    decreases |s|
  {
    if s != [] {
      SelectNarrow(s[1..], p, q);
      var head := if p(s[0]) then [s[0]] else [];
      SelectConcat(head, Select(s[1..], p), q);
    }
  }

  /** Trimming drops only characters the filter drops too. */
  lemma TrimKeeps(s: string, drop: char -> bool, keep: char -> bool)
    requires forall c :: drop(c) ==> !keep(c)
    ensures Select(Trim(s, drop), keep) == Select(s, keep)
  {
    var r := Trim(s, drop);
    var lo :| TrimmedSliceAt(s, r, lo, drop);
    var hi := lo + |r|;
    SelectDropPrefix(s, lo, keep);
    assert s[lo..][..hi - lo] == r;
    SelectDropSuffix(s[lo..], hi - lo, keep);
  }

  /** Dropping a prefix of unselected characters selects the same. */
  lemma SelectDropPrefix(s: string, lo: int, keep: char -> bool)
    requires 0 <= lo <= |s|
    requires forall i :: 0 <= i < lo ==> !keep(s[i])
    ensures Select(s[lo..], keep) == Select(s, keep)
  {
    assert s == s[..lo] + s[lo..];
    SelectConcat(s[..lo], s[lo..], keep);
    SelectNone(s[..lo], keep);
  }

  /** Dropping a suffix of unselected characters selects the same. */
  lemma SelectDropSuffix(s: string, hi: int, keep: char -> bool)
    requires 0 <= hi <= |s|
    requires forall i :: hi <= i < |s| ==> !keep(s[i])
    ensures Select(s[..hi], keep) == Select(s, keep)
  {
    assert s == s[..hi] + s[hi..];
    SelectConcat(s[..hi], s[hi..], keep);
    SelectNone(s[hi..], keep);
  }



  /** Selecting from a string of dropped characters yields nothing. */
  lemma {:induction false} SelectNone(s: string, keep: char -> bool)
    requires forall i :: 0 <= i < |s| ==> !keep(s[i])
    ensures Select(s, keep) == []
  {
    if s != [] {
      SelectNone(s[1..], keep);
    }
  }

  /** Selecting from a string every character of which is kept is the identity. */
  lemma {:induction false} SelectAll(s: string, keep: char -> bool)
    requires forall i :: 0 <= i < |s| ==> keep(s[i])
    ensures Select(s, keep) == s
  {
    if s != [] {
      SelectAll(s[1..], keep);
    }
  }

  // ---------------------------------------------------------------------------
  // Split, join and replace
  // ---------------------------------------------------------------------------

  /** Python's `sep.join(parts)`. */
  function Join(parts: seq<string>, sep: string): string
    decreases |parts|
  {
    if |parts| == 0 then []
    else if |parts| == 1 then parts[0]
    else parts[0] + sep + Join(parts[1..], sep)
  }

  /** Joining one more part appends the separator and the part. */
  lemma {:induction false} JoinSnoc(parts: seq<string>, p: string, sep: string)
    requires |parts| >= 1
    ensures Join(parts + [p], sep) == Join(parts, sep) + sep + p
    decreases |parts|
  {
    if |parts| == 1 {
      assert Join(parts + [p], sep) == parts[0] + sep + Join([p], sep);
    } else {
      assert (parts + [p])[1..] == parts[1..] + [p];
      JoinSnoc(parts[1..], p, sep);
    }
  }

  lemma JoinInitLast(parts: seq<string>, sep: string)
    requires |parts| >= 2
    ensures Join(parts, sep) == Join(parts[..|parts| - 1], sep) + sep + parts[|parts| - 1]
  {
    var n := |parts|;
    assert parts == parts[..n - 1] + [parts[n - 1]];
    JoinSnoc(parts[..n - 1], parts[n - 1], sep);
  }

  lemma SuffixOfJoin(parts: seq<string>, sep: string)
    requires |parts| >= 2
    ensures EndsWith(Join(parts, sep), sep + parts[|parts| - 1])
  {
    var n := |parts|;
    var last := parts[n - 1];
    JoinInitLast(parts, sep);
    var s := Join(parts, sep);
    assert s == Join(parts[..n - 1], sep) + (sep + last);
  }

  /** Python's `s.split(sep)`: cut at each occurrence of `sep`, scanning from
      the left.  Joining the parts back gives `s`, and no part contains `sep`. */
  function SplitOn(s: string, sep: string): (parts: seq<string>)
    requires |sep| > 0
    ensures |parts| >= 1
    ensures |parts| == 1 <==> !Contains(s, sep)
    ensures Join(parts, sep) == s
    ensures forall k :: 0 <= k < |parts| ==> !Contains(parts[k], sep)
    decreases |s|
  {
    match IndexOf(s, sep)
    case None => [s]
    case Some(i) =>
      var rest := SplitOn(s[i + |sep|..], sep);
      SplitHead(s, sep, i);
      JoinCons(s[..i], rest, sep);
      [s[..i]] + rest
  }

  /** The text before the first occurrence holds no separator. */
  lemma SplitHead(s: string, sep: string, i: nat)
    requires |sep| > 0 && IndexOf(s, sep) == Some(i)
    ensures !Contains(s[..i], sep) && s == s[..i] + sep + s[i + |sep|..]
  {
    var head := s[..i];
    if Contains(head, sep) {
      var j := IndexOf(head, sep).value;
      OccursInSlice(s, 0, i, sep, j);
    }
  }

  /** Joining a part in front of at least one more puts the separator
      between them. */
  lemma JoinCons(head: string, rest: seq<string>, sep: string)
    requires |rest| >= 1
    ensures Join([head] + rest, sep) == head + sep + Join(rest, sep)
  {
    assert ([head] + rest)[1..] == rest;
  }

  /** The last part of a split is the text after the last cut: `s` ends with
      the separator followed by it whenever `sep` occurs in `s`. */
  lemma LastPartFollowsSeparator(s: string, sep: string, parts: seq<string>)
    requires |sep| > 0 && Contains(s, sep)
    requires parts == SplitOn(s, sep)
    ensures |parts| >= 2 && EndsWith(s, sep + parts[|parts| - 1])
  {
    SuffixOfJoin(parts, sep);
  }

  /** The first part of a split is the text before the first occurrence. */
  lemma FirstPartPrecedesSeparator(s: string, sep: string)
    requires |sep| > 0 && Contains(s, sep)
    ensures var parts := SplitOn(s, sep);
            |parts| >= 2 && StartsWith(s, parts[0] + sep) && !Contains(parts[0], sep)
  {
  }

  /** A string none of whose characters is `c` does not contain `[c]`. */
  lemma NotContainsChar(a: string, c: char)
    requires forall i :: 0 <= i < |a| ==> a[i] != c
    ensures !Contains(a, [c])
  {
    forall j | 0 <= j < |a|
      ensures !OccursAt(a, [c], j)
    {
      assert a[j..j + 1][0] == a[j];
    }
  }

  /** `TakeWhile` stops at once at a dropped first character. */
  lemma TakeWhileStop(s: string, keep: char -> bool)
    requires s == [] || !keep(s[0])
    ensures TakeWhile(s, keep) == []
  {
  }

  /** `TakeWhile` of a string whose characters are all kept is the string. */
  lemma TakeWhileAll(s: string, keep: char -> bool)
    requires forall i :: 0 <= i < |s| ==> keep(s[i])
    ensures TakeWhile(s, keep) == s
  {
  }

  /** A one-character separator first occurs right after a prefix that does
      not contain it. */
  lemma FirstSeparatorAfter(a: string, sep: string, b: string)
    requires |sep| == 1 && !Contains(a, sep)
    ensures IndexOf(a + sep + b, sep) == Some(|a|)
  {
    var s := a + sep + b;
    assert OccursAt(s, sep, |a|);
    forall j | 0 <= j < |a|
      ensures !OccursAt(s, sep, j)
    {
      if OccursAt(s, sep, j) {
        assert s[j..j + 1] == a[j..j + 1];
        ContainsAt(a, sep, j);
      }
    }
  }

  /** Splitting at a one-character separator undoes joining parts that do not
      contain it. */
  lemma {:induction false} SplitJoin(parts: seq<string>, sep: string)
    requires |sep| == 1 && |parts| >= 1
    requires forall k :: 0 <= k < |parts| ==> !Contains(parts[k], sep)
    ensures SplitOn(Join(parts, sep), sep) == parts
    decreases |parts|
  {
    if |parts| > 1 {
      var rest := Join(parts[1..], sep);
      var s := parts[0] + sep + rest;
      assert Join(parts, sep) == s;
      FirstSeparatorAfter(parts[0], sep, rest);
      SplitAt(s, sep, |parts[0]|);
      AroundSeparator(parts[0], sep, rest);
      SplitJoin(parts[1..], sep);
      assert parts == [parts[0]] + parts[1..];
    } else {
      ReplaceAbsent(parts[0], sep, sep);
    }
  }

  /** A split cuts at the first occurrence and splits the rest. */
  lemma SplitAt(s: string, sep: string, i: nat)
    requires |sep| > 0 && IndexOf(s, sep) == Some(i)
    ensures i + |sep| <= |s| && SplitOn(s, sep) == [s[..i]] + SplitOn(s[i + |sep|..], sep)
  {
    assert OccursAt(s, sep, i);
    match IndexOf(s, sep)
    case Some(j) =>
      assert j == i;
  }

  /** The pieces around a separator are cut back out of the whole. */
  lemma AroundSeparator(a: string, sep: string, b: string)
    ensures var s := a + sep + b; s[..|a|] == a && s[|a| + |sep|..] == b
  {
  }

  /** Python's `s.replace(pattern, replacement)`, which equals
      `replacement.join(s.split(pattern))`. */
  function ReplaceAll(s: string, pattern: string, replacement: string): string
    requires |pattern| > 0
  {
    Join(SplitOn(s, pattern), replacement)
  }

  /** Replacing a string that does not occur changes nothing. */
  lemma ReplaceAbsent(s: string, pattern: string, replacement: string)
    requires |pattern| > 0 && !Contains(s, pattern)
    ensures ReplaceAll(s, pattern, replacement) == s
  {
  }
}

=== FILE: urls.dfy ===
/** The parts of Python's `urllib.parse` the adapters use: `urlparse` (scheme,
    network location and path), the `scheme://netloc` origin every adapter
    builds as its base URL, and `urljoin` against such an origin. */
module Urls {
  import opened Wrappers
  import opened Text

  datatype Url = Url(scheme: string, netloc: string, path: string)

  /** The characters `urlsplit` removes from the front of a URL (C0 controls
      and the space). */
  predicate IsC0OrSpace(c: char) {
    c <= ' '
  }

  /** The characters `urlsplit` deletes wherever they occur. */
  predicate IsUnsafe(c: char) {
    c == '\t' || c == '\r' || c == '\n'
  }

  predicate IsAsciiLetter(c: char) {
    ('a' <= c <= 'z') || ('A' <= c <= 'Z')
  }

  /** Letters, digits, `+`, `-` and `.`: the characters of a URL scheme. */
  predicate IsSchemeChar(c: char) {
    IsAsciiLetter(c) || IsAsciiDigit(c) || c == '+' || c == '-' || c == '.'
  }

  /** The schemes for which `urlparse` splits `;params` off the path. */
  predicate UsesParams(scheme: string) {
    scheme in ["", "ftp", "hdl", "prospero", "http", "imap", "https", "shttp", "rtsp",
               "rtsps", "rtspu", "sip", "sips", "mms", "sftp", "tel"]
  }

  /** The URL after the clean-up `urlsplit` does before parsing. */
  function Preclean(url: string): (r: string)
    ensures forall i :: 0 <= i < |r| ==> !IsUnsafe(r[i])
  {
    Select(TrimLeft(url, IsC0OrSpace), c => !IsUnsafe(c))
  }

  /** The position of the `:` that ends a scheme, if the text has one: the
      first `:`, preceded by at least one scheme character, the first of
      which is a letter. */
  function SchemeEnd(t: string): (r: Option<nat>)
    ensures r.Some? ==> 0 < r.value < |t| && t[r.value] == ':'
    ensures r.Some? ==> IsAsciiLetter(t[0]) && forall k :: 0 <= k < r.value ==> IsSchemeChar(t[k])
  {
    match IndexOf(t, ":")
    case None => None
    case Some(i) =>
      if 0 < i && IsAsciiLetter(t[0]) && (forall k :: 0 <= k < i ==> IsSchemeChar(t[k]))
      then Some(i) else None
  }

  /** Removes `;params` from the last segment of a path. */
  function DropParams(path: string): (r: string)
    ensures r <= path
  {
    var head := TrimRight(path, c => c != '/');
    var last := path[|head|..];
    assert path == head + last;
    head + TakeWhile(last, c => c != ';')
  }

  /** The scheme (lower-cased) and what follows its `:`; no scheme leaves
      the text whole. */
  function SplitScheme(t: string): (string, string) {
    match SchemeEnd(t)
    case Some(i) => (Lower(t[..i]), t[i + 1..])
    case None => ("", t)
  }

  /** The network location after a leading `//`, up to the first `/`, `?` or
      `#`, and the rest of the text. */
  function SplitNetloc(rest: string): (r: (string, string))
    ensures forall i :: 0 <= i < |r.0| ==> IsNetlocChar(r.0[i])
  {
    if StartsWith(rest, "//") then
      var netloc := TakeWhile(rest[2..], IsNetlocChar);
      (netloc, rest[2 + |netloc|..])
    else ("", rest)
  }

  /** The path: everything before the query or fragment. */
  function PathPart(rest: string): (path: string)
    ensures forall i :: 0 <= i < |path| ==> path[i] != '?' && path[i] != '#'
  {
    TakeWhile(rest, c => c != '?' && c != '#')
  }

  /** Python's `urlparse(url)`, keeping the scheme (lower-cased), the network
      location and the path; the query, fragment and parameters are dropped. */
  function Parse(url: string): (u: Url)
    ensures forall i :: 0 <= i < |u.netloc| ==> IsNetlocChar(u.netloc[i])
  {
    var (scheme, afterScheme) := SplitScheme(Preclean(url));
    var (netloc, afterNetloc) := SplitNetloc(afterScheme);
    var path := PathPart(afterNetloc);
    Url(scheme, netloc, if UsesParams(scheme) then DropParams(path) else path)
  }

  /** Characters that do not end the network location. */
  predicate IsNetlocChar(c: char) {
    c != '/' && c != '?' && c != '#'
  }

  /** Whether `urlparse` finds a scheme in `url`. */
  predicate HasScheme(url: string) {
    SchemeEnd(Preclean(url)).Some?
  }

  /** `f"{parsed.scheme}://{parsed.netloc}"`, the base URL of every adapter. */
  function Origin(url: string): string {
    var u := Parse(url);
    u.scheme + "://" + u.netloc
  }

  /** Python's `urljoin(base, href)` for a base of the form `scheme://netloc`
      with an empty path, following section 5.2 of RFC 3986:
      - an empty reference yields the base;
      - a reference with its own scheme is returned as it is;
      - a network-path reference (`//host/...`) takes only the base's scheme;
      - an absolute path, a query or a fragment is appended to the origin;
      - a relative path is merged with the base's empty path, giving `/` + path.
      Dot segments are not removed. */
  function UrlJoin(base: string, href: string): (r: string)
    ensures EndsWith(r, href)
    ensures HasScheme(href) ==> r == href
    ensures !HasScheme(href) && !StartsWith(href, "//") ==> StartsWith(r, base)
    ensures !HasScheme(href) && StartsWith(href, "/") && !StartsWith(href, "//") ==> r == base + href
  {
    if href == [] then base
    else if HasScheme(href) then href
    else if StartsWith(href, "//") then Parse(base).scheme + ":" + href
    else if href[0] == '/' || href[0] == '?' || href[0] == '#' then base + href
    else base + "/" + href
  }

  /** A scheme as `urlparse` reports it: a letter, then letters, digits, `+`,
      `-` or `.`, all lower-case. */
  predicate IsSchemeName(scheme: string) {
    && |scheme| >= 1 && 'a' <= scheme[0] <= 'z'
    && forall i :: 0 <= i < |scheme| ==> IsSchemeChar(scheme[i]) && !('A' <= scheme[i] <= 'Z')
  }

  /** `urlparse` takes a URL assembled from a scheme, a network location and
      a path (with no query, fragment, parameters or control characters) back
      apart into those three pieces. */
  lemma ParseComposed(scheme: string, netloc: string, path: string)
    requires IsSchemeName(scheme)
    requires forall i :: 0 <= i < |netloc| ==> IsNetlocChar(netloc[i]) && !IsUnsafe(netloc[i])
    requires path == [] || path[0] == '/'
    requires forall i :: 0 <= i < |path| ==> path[i] !in "?#;" && !IsUnsafe(path[i])
    ensures Parse(scheme + "://" + netloc + path) == Url(scheme, netloc, path)
  {
    var url := scheme + "://" + netloc + path;
    var rest := "//" + netloc + path;
    assert url == scheme + ":" + rest;
    PrecleanComposed(scheme, netloc, path);
    SplitSchemeComposed(scheme, rest);
    assert SplitScheme(Preclean(url)) == (scheme, rest);
    SplitNetlocComposed(netloc, path);
    PathComposed(path);
    assert UsesParams(scheme) ==> DropParams(path) == path;
  }

  lemma PrecleanComposed(scheme: string, netloc: string, path: string)
    requires IsSchemeName(scheme)
    requires forall i :: 0 <= i < |netloc| ==> !IsUnsafe(netloc[i])
    requires forall i :: 0 <= i < |path| ==> !IsUnsafe(path[i])
    ensures Preclean(scheme + "://" + netloc + path) == scheme + "://" + netloc + path
  {
    var url := scheme + "://" + netloc + path;
    assert TrimLeft(url, IsC0OrSpace) == url;
    forall i | 0 <= i < |url|
      ensures !IsUnsafe(url[i])
    {
      if i < |scheme| {
        assert url[i] == scheme[i];
      } else if i < |scheme| + 3 {
      } else if i < |scheme| + 3 + |netloc| {
        assert url[i] == netloc[i - |scheme| - 3];
      } else {
        assert url[i] == path[i - |scheme| - 3 - |netloc|];
      }
    }
    SelectAll(url, c => !IsUnsafe(c));
  }

  lemma SplitSchemeComposed(scheme: string, rest: string)
    requires IsSchemeName(scheme)
    ensures SplitScheme(scheme + ":" + rest) == (scheme, rest)
  {
    var url := scheme + ":" + rest;
    NotContainsChar(scheme, ':');
    FirstSeparatorAfter(scheme, ":", rest);
    assert url[..|scheme|] == scheme && url[|scheme| + 1..] == rest;
    assert Lower(scheme) == scheme;
  }

  lemma SplitNetlocComposed(netloc: string, path: string)
    requires forall i :: 0 <= i < |netloc| ==> IsNetlocChar(netloc[i])
    requires path == [] || path[0] == '/'
    ensures SplitNetloc("//" + netloc + path) == (netloc, path)
  {
    var rest := "//" + netloc + path;
    assert StartsWith(rest, "//");
    assert rest[2..] == netloc + path;
    TakeWhileStop(path, IsNetlocChar);
    TakeWhileAppend(netloc, path, IsNetlocChar);
    assert netloc + [] == netloc;
    assert rest[2 + |netloc|..] == path;
  }

  lemma PathComposed(path: string)
    requires forall i :: 0 <= i < |path| ==> path[i] !in "?#;"
    ensures PathPart(path) == path && DropParams(path) == path
  {
    TakeWhileAll(path, c => c != '?' && c != '#');
    var head := TrimRight(path, c => c != '/');
    TakeWhileAll(path[|head|..], c => c != ';');
  }
}

=== FILE: wordpress.dfy ===
/** The story side of the WordPress adapter: the indicator count that
    recognises a WordPress page and the slug-style story id. */
module WordPress {
  import opened Wrappers
  import opened Text
  import opened Numbers
  import opened Words
  import opened Cleanup
  import opened ChapterLists

  // ---------------------------------------------------------------------------
  // Recognising a WordPress page
  // ---------------------------------------------------------------------------

  /** The markers `supports_url` looks for in the lower-cased page. */
  const Indicators: seq<string> := [
    "wp-content",
    "wp-includes",
    "wordpress",
    "wp-json",
    "class=\"entry-content\"",
    "class=\"post-",
    "/wp-login.php",
    "generator\" content=\"wordpress"
  ]

  /** How many of `markers` occur in `page`. */
  function CountFound(page: string, markers: seq<string>): (n: nat)
    ensures n <= |markers|
    decreases |markers|
  {
    if markers == [] then 0
    else (if Contains(page, markers[0]) then 1 else 0) + CountFound(page, markers[1..])
  }

  /** The number of indicators on a page, compared case-insensitively. */
  function IndicatorCount(html: string): nat {
    CountFound(Lower(html), Indicators)
  }

  /** A page with at least two indicators counts as WordPress. */
  predicate LooksLikeWordPress(html: string) {
    IndicatorCount(html) >= 2
  }

  /** Some marker occurs. */
  predicate SomeFound(page: string, markers: seq<string>) {
    exists i :: 0 <= i < |markers| && Contains(page, markers[i])
  }

  /** Two different markers occur. */
  predicate TwoFound(page: string, markers: seq<string>) {
    exists i, j :: 0 <= i < j < |markers| && Contains(page, markers[i]) && Contains(page, markers[j])
  }

  lemma {:induction false} CountFoundOne(page: string, markers: seq<string>)
    ensures CountFound(page, markers) >= 1 <==> SomeFound(page, markers)
    decreases |markers|
  {
    if markers != [] {
      CountFoundOne(page, markers[1..]);
      if SomeFound(page, markers[1..]) {
        var i :| 0 <= i < |markers[1..]| && Contains(page, markers[1..][i]);
        assert Contains(page, markers[i + 1]);
      }
      if SomeFound(page, markers) && !Contains(page, markers[0]) {
        var i :| 0 <= i < |markers| && Contains(page, markers[i]);
        assert Contains(page, markers[1..][i - 1]);
      }
    }
  }

  /** The count reaches two exactly when two different markers occur. */
  lemma {:induction false} CountFoundTwo(page: string, markers: seq<string>)
    ensures CountFound(page, markers) >= 2 <==> TwoFound(page, markers)
    decreases |markers|
  {
    if markers != [] {
      var rest := markers[1..];
      CountFoundTwo(page, rest);
      CountFoundOne(page, rest);
      if TwoFound(page, rest) {
        var i, j :| 0 <= i < j < |rest| && Contains(page, rest[i]) && Contains(page, rest[j]);
        assert Contains(page, markers[i + 1]) && Contains(page, markers[j + 1]);
      }
      if Contains(page, markers[0]) && SomeFound(page, rest) {
        var j :| 0 <= j < |rest| && Contains(page, rest[j]);
        assert Contains(page, markers[j + 1]);
      }
      if TwoFound(page, markers) {
        var i, j :| 0 <= i < j < |markers| && Contains(page, markers[i]) && Contains(page, markers[j]);
        assert Contains(page, rest[j - 1]);
        if i > 0 {
          assert Contains(page, rest[i - 1]);
        }
      }
    }
  }

  /** A substring of a substring is a substring. */
  lemma ContainsTrans(s: string, mid: string, sub: string)
    requires Contains(s, mid) && Contains(mid, sub)
    ensures Contains(s, sub)
  {
    var i := IndexOf(s, mid).value;
    var j := IndexOf(mid, sub).value;
    assert s[i + j..i + j + |sub|] == mid[j..j + |sub|];
    ContainsAt(s, sub, i + j);
  }

  /** The generator tag alone makes a page WordPress: it contains the
      indicator `wordpress` too. */
  lemma GeneratorTagSuffices(html: string)
    requires Contains(Lower(html), Indicators[7])
    ensures LooksLikeWordPress(html)
  {
    var page := Lower(html);
    assert OccursAt(Indicators[7], Indicators[2], 20);
    ContainsAt(Indicators[7], Indicators[2], 20);
    ContainsTrans(page, Indicators[7], Indicators[2]);
    CountFoundTwo(page, Indicators);
  }

  // ---------------------------------------------------------------------------
  // The story id
  // ---------------------------------------------------------------------------

  /** `re.sub(r'[^a-z0-9]+', '-', s)`: every maximal run of characters
      outside `[a-z0-9]` becomes one dash. */
  function DashRuns(s: string): string
    decreases |s|
  {
    if s == [] then []
    else if IsLowerAlnum(s[0]) then
      var w := TakeWhile(s, IsLowerAlnum);
      w + DashRuns(s[|w|..])
    else
      "-" + DashRuns(SkipGap(s, IsLowerAlnum))
  }

  /** A slug: characters of `[a-z0-9]` and single dashes between them. */
  predicate IsSlug(r: string) {
    && (forall i :: 0 <= i < |r| ==> IsLowerAlnum(r[i]) || r[i] == '-')
    && (forall i :: 0 <= i < |r| - 1 ==> !(r[i] == '-' && r[i + 1] == '-'))
    && (r == [] || (IsLowerAlnum(r[0]) && IsLowerAlnum(r[|r| - 1])))
  }

  /** The story id of `get_story_info`: the lower-cased story URL with every
      run of other characters replaced by a dash, and the dashes at either
      end stripped.  It is a slug holding every `[a-z0-9]` character of the
      lower-cased URL, in order. */
  function StoryId(storyUrl: string): (r: string)
    ensures IsSlug(r)
    ensures Select(r, IsLowerAlnum) == Select(Lower(storyUrl), IsLowerAlnum)
  {
    var s := Lower(storyUrl);
    TrimmedDashRuns(s);
    JoinedRunsSlug(s);
    Trim(DashRuns(s), IsDash)
  }

  /** The runs joined by dashes form a slug with the same `[a-z0-9]`
      characters as the text. */
  lemma JoinedRunsSlug(s: string)
    ensures IsSlug(Join(Runs(s, IsLowerAlnum), "-"))
    ensures Select(Join(Runs(s, IsLowerAlnum), "-"), IsLowerAlnum) == Select(s, IsLowerAlnum)
  {
    var ws := Runs(s, IsLowerAlnum);
    RunsAreRuns(s, IsLowerAlnum);
    JoinedSlug(ws);
    DashFree();
    JoinSelect(ws, "-", IsLowerAlnum);
    RunsContent(s, IsLowerAlnum);
  }

  lemma DashFree()
    ensures forall i :: 0 <= i < |"-"| ==> !IsLowerAlnum("-"[i])
  {
  }

  lemma JoinedSlug(ws: seq<string>)
    requires AllRuns(ws, IsLowerAlnum)
    ensures IsSlug(Join(ws, "-"))
  {
    JoinRunsShape(ws, '-', IsLowerAlnum);
    JoinRunsEnds(ws, "-", IsLowerAlnum);
    assert "-" == ['-'];
  }

  /** A text starting with an accepted character, or empty, is its own gap-free rest. */
  lemma SkipGapNone(s: string, keep: char -> bool)
    requires s == [] || keep(s[0])
    ensures SkipGap(s, keep) == s
  {
  }

  /** `Runs` ignores a leading gap. */
  lemma RunsAfterGap(s: string, keep: char -> bool)
    ensures Runs(SkipGap(s, keep), keep) == Runs(s, keep)
  {
    SkipGapNone(SkipGap(s, keep), keep);
  }

  /** `DashRuns` is the runs joined by dashes, with at most one dash added at
      either end; the added dash at the end needs a run before it, and none
      is added at the front of a text that starts with a run. */
  lemma {:induction false} DashRunsShape(s: string) returns (front: string, back: string)
    ensures ShapeOf(s, front, back)
    decreases |s|
  {
    if s == [] {
      front, back := [], [];
    } else if IsLowerAlnum(s[0]) {
      var t := s[|TakeWhile(s, IsLowerAlnum)|..];
      if t == [] {
        front, back := [], [];
        DashRunsSingle(s);
        EmptyFront(Join(Runs(s, IsLowerAlnum), "-"));
      } else {
        var f, b := DashRunsShape(SkipGap(t, IsLowerAlnum));
        front := [];
        back := ShapeStep(s, f, b);
      }
    } else {
      var f, b := DashRunsShape(SkipGap(s, IsLowerAlnum));
      front, back := "-", b;
      ShapeGap(s, f, b);
    }
  }

  /** `DashRuns(s)` is the joined runs with at most one dash on either side,
      and no dash in front of a text that starts with a run. */
  predicate ShapeOf(s: string, front: string, back: string) {
    && DashRuns(s) == front + Join(Runs(s, IsLowerAlnum), "-") + back
    && (front == [] || front == "-")
    && (back == [] || back == "-")
    && (Runs(s, IsLowerAlnum) == [] ==> back == [])
    && (s == [] || IsLowerAlnum(s[0]) ==> front == [])
  }

  lemma ShapeStep(s: string, f: string, b: string) returns (back: string)
    requires s != [] && IsLowerAlnum(s[0])
    requires var t := s[|TakeWhile(s, IsLowerAlnum)|..];
             t != [] && ShapeOf(SkipGap(t, IsLowerAlnum), f, b)
    ensures ShapeOf(s, [], back)
  {
    var t := s[|TakeWhile(s, IsLowerAlnum)|..];
    var u := SkipGap(t, IsLowerAlnum);
    NoFront(u, f, b);
    back := DashRunsStep(s, b);
    ShapeFromStep(s, back);
  }

  lemma ShapeFromStep(s: string, back: string)
    requires s != [] && IsLowerAlnum(s[0])
    requires DashRuns(s) == Join(Runs(s, IsLowerAlnum), "-") + back
    requires back == [] || back == "-"
    ensures ShapeOf(s, [], back)
  {
    RunsNonEmpty(s);
    EmptyFront(Join(Runs(s, IsLowerAlnum), "-"));
  }

  /** Without a leading gap there is no leading dash. */
  lemma NoFront(u: string, f: string, b: string)
    requires ShapeOf(u, f, b) && (u == [] || IsLowerAlnum(u[0]))
    ensures DashRuns(u) == Join(Runs(u, IsLowerAlnum), "-") + b
  {
    EmptyFront(Join(Runs(u, IsLowerAlnum), "-"));
  }

  lemma RunsNonEmpty(s: string)
    requires s != [] && IsLowerAlnum(s[0])
    ensures Runs(s, IsLowerAlnum) != []
  {
    SkipGapNone(s, IsLowerAlnum);
  }

  lemma ShapeGap(s: string, f: string, b: string)
    requires s != [] && !IsLowerAlnum(s[0])
    requires ShapeOf(SkipGap(s, IsLowerAlnum), f, b)
    ensures ShapeOf(s, "-", b)
  {
    var u := SkipGap(s, IsLowerAlnum);
    assert f == [];
    EmptyFront(Join(Runs(u, IsLowerAlnum), "-"));
    DashRunsGapCase(s, b);
  }

  /** A text starting with a gap. */
  lemma DashRunsGapCase(s: string, b: string)
    requires s != [] && !IsLowerAlnum(s[0])
    requires var u := SkipGap(s, IsLowerAlnum);
             DashRuns(u) == Join(Runs(u, IsLowerAlnum), "-") + b
    ensures DashRuns(s) == "-" + Join(Runs(s, IsLowerAlnum), "-") + b
    ensures Runs(s, IsLowerAlnum) == Runs(SkipGap(s, IsLowerAlnum), IsLowerAlnum)
  {
    var u := SkipGap(s, IsLowerAlnum);
    DashRunsGap(s);
    RunsAfterGap(s, IsLowerAlnum);
    Prepend(DashRuns(s), DashRuns(u), Join(Runs(u, IsLowerAlnum), "-"), b);
  }

  lemma DashRunsRun(s: string)
    requires s != [] && IsLowerAlnum(s[0])
    ensures DashRuns(s) == TakeWhile(s, IsLowerAlnum) + DashRuns(s[|TakeWhile(s, IsLowerAlnum)|..])
  {
  }

  lemma DashRunsGap(s: string)
    requires s != [] && !IsLowerAlnum(s[0])
    ensures DashRuns(s) == "-" + DashRuns(SkipGap(s, IsLowerAlnum))
  {
  }

  lemma Prepend(d: string, du: string, j: string, b: string)
    requires d == "-" + du && du == j + b
    ensures d == "-" + j + b
  {
  }

  /** A text that is one run. */
  lemma DashRunsSingle(s: string)
    requires s != [] && IsLowerAlnum(s[0])
    requires s[|TakeWhile(s, IsLowerAlnum)|..] == []
    ensures DashRuns(s) == Join(Runs(s, IsLowerAlnum), "-")
  {
    SkipGapNone(s, IsLowerAlnum);
    var w, t := RunsUnfold(s, IsLowerAlnum);
    DashRunsRun(s);
    assert Runs(t, IsLowerAlnum) == [];
    assert DashRuns(s) == w + [];
  }

  /** A run, a gap, and the rest of the text. */
  lemma DashRunsStep(s: string, b: string) returns (back: string)
    requires s != [] && IsLowerAlnum(s[0])
    requires var t := s[|TakeWhile(s, IsLowerAlnum)|..];
             var u := SkipGap(t, IsLowerAlnum);
             && t != []
             && DashRuns(u) == Join(Runs(u, IsLowerAlnum), "-") + b
             && (b == [] || b == "-") && (Runs(u, IsLowerAlnum) == [] ==> b == [])
    ensures DashRuns(s) == Join(Runs(s, IsLowerAlnum), "-") + back
    ensures back == [] || back == "-"
  {
    SkipGapNone(s, IsLowerAlnum);
    var w, t := RunsUnfold(s, IsLowerAlnum);
    DashRunsRun(s);
    var u := SkipGap(t, IsLowerAlnum);
    DashRunsGap(t);
    RunsAfterGap(t, IsLowerAlnum);
    back := StepAlgebra(DashRuns(s), DashRuns(t), DashRuns(u), w, Runs(u, IsLowerAlnum), Runs(s, IsLowerAlnum), b);
  }

  /** The bookkeeping of one step: a run `w`, a dash for the gap, and the
      rest. */
  lemma StepAlgebra(ds: string, dt: string, du: string, w: string, ru: seq<string>, rs: seq<string>, b: string)
    returns (back: string)
    requires ds == w + dt && dt == "-" + du && rs == [w] + ru
    requires du == Join(ru, "-") + b
    requires b == [] || b == "-"
    requires ru == [] ==> b == []
    ensures ds == Join(rs, "-") + back
    ensures back == [] || back == "-"
  {
    if ru == [] {
      back := "-";
      Glue(ds, dt, du, w, [], []);
      assert Join([w], "-") == w;
    } else {
      back := b;
      Glue(ds, dt, du, w, Join(ru, "-"), b);
      JoinCons(w, ru, "-");
    }
  }

  lemma Glue(ds: string, dt: string, du: string, w: string, ju: string, b: string)
    requires ds == w + dt && dt == "-" + du && du == ju + b
    ensures ds == w + "-" + ju + b
  {
  }

  lemma EmptyFront(x: string)
    ensures [] + x == x
  {
  }

  /** Stripping the dashes leaves exactly the runs joined by dashes. */
  lemma TrimmedDashRuns(s: string)
    ensures Trim(DashRuns(s), IsDash) == Join(Runs(s, IsLowerAlnum), "-")
  {
    var front, back := DashRunsShape(s);
    var ws := Runs(s, IsLowerAlnum);
    var j := Join(ws, "-");
    assert j == [] || (IsLowerAlnum(j[0]) && IsLowerAlnum(j[|j| - 1])) by {
      RunsAreRuns(s, IsLowerAlnum);
      if ws != [] {
        JoinRunsEnds(ws, "-", IsLowerAlnum);
      }
    }
    TrimBetweenDashes(front, j, back);
  }

  lemma TrimBetweenDashes(front: string, j: string, back: string)
    requires front == [] || front == "-"
    requires back == [] || back == "-"
    requires j == [] ==> back == []
    requires j == [] || (IsLowerAlnum(j[0]) && IsLowerAlnum(j[|j| - 1]))
    ensures Trim(front + j + back, IsDash) == j
  {
    var s := front + j + back;
    var lo := |front|;
    assert s[lo..lo + |j|] == j;
    assert forall i :: 0 <= i < lo ==> s[i] == front[i];
    assert forall i :: lo + |j| <= i < |s| ==> s[i] == back[i - lo - |j|];
    TrimUnique(s, j, lo, IsDash);
  }

  /** The id is the runs of `[a-z0-9]` of the lower-cased URL joined by
      dashes. */
  lemma StoryIdIsJoinedRuns(storyUrl: string)
    ensures StoryId(storyUrl) == Join(Runs(Lower(storyUrl), IsLowerAlnum), "-")
  {
    TrimmedDashRuns(Lower(storyUrl));
  }

  /** An id is its own id. */
  lemma StoryIdIdempotent(storyUrl: string)
    ensures StoryId(StoryId(storyUrl)) == StoryId(storyUrl)
  {
    var id := StoryId(storyUrl);
    var ws := Runs(Lower(storyUrl), IsLowerAlnum);
    StoryIdIsJoinedRuns(storyUrl);
    StoryIdIsJoinedRuns(id);
    LowerOfId(id);
    RunsAreRuns(Lower(storyUrl), IsLowerAlnum);
    RunsOfDashJoin(ws);
  }

  lemma RunsOfDashJoin(ws: seq<string>)
    requires AllRuns(ws, IsLowerAlnum)
    ensures Runs(Join(ws, "-"), IsLowerAlnum) == ws
  {
    RunsOfJoin(ws, '-', IsLowerAlnum);
    assert "-" == ['-'];
  }

  lemma LowerOfId(id: string)
    requires IsSlug(id)
    ensures Lower(id) == id
  {
  }
}

=== FILE: words.dfy ===
/** Maximal runs of characters of one class: Python's `s.split()` (runs of
    non-whitespace) and the runs of `[a-z0-9]` that survive
    `re.sub(r'[^a-z0-9]+', '-', s)`. */
module Words {
  import opened Text

  /** Drops the leading characters that `keep` rejects. */
  function SkipGap(s: string, keep: char -> bool): (r: string)
    ensures |r| <= |s| && r == s[|s| - |r|..]
    ensures r == [] || keep(r[0])
    ensures forall i :: 0 <= i < |s| - |r| ==> !keep(s[i])
    ensures s != [] && !keep(s[0]) ==> |r| < |s|
    decreases |s|
  {
    if s == [] || keep(s[0]) then s
    else
      var r := SkipGap(s[1..], keep);
      assert s[|s| - |r|..] == s[1..][|s| - 1 - |r|..];
      r
  }

  /** The maximal non-empty runs of characters that `keep` accepts, in order. */
  function Runs(s: string, keep: char -> bool): seq<string>
    decreases |s|
  {
    var t := SkipGap(s, keep);
    if t == [] then []
    else
      var w := TakeWhile(t, keep);
      [w] + Runs(t[|w|..], keep)
  }

  /** Every run is non-empty and made of accepted characters. */
  predicate AllRuns(ws: seq<string>, keep: char -> bool)
    decreases |ws|
  {
    ws == [] || (ws[0] != [] && (forall i :: 0 <= i < |ws[0]| ==> keep(ws[0][i])) && AllRuns(ws[1..], keep))
  }

  /** The runs concatenated. */
  function Concat(ws: seq<string>): string
    decreases |ws|
  {
    if ws == [] then [] else ws[0] + Concat(ws[1..])
  }

  /** One step of `Runs`: the first run and the text after it. */
  lemma RunsUnfold(s: string, keep: char -> bool) returns (w: string, rest: string)
    requires SkipGap(s, keep) != []
    ensures w == TakeWhile(SkipGap(s, keep), keep) && rest == SkipGap(s, keep)[|w|..]
    ensures SkipGap(s, keep) == w + rest && |rest| < |s|
    ensures w != [] && forall i :: 0 <= i < |w| ==> keep(w[i])
    ensures Runs(s, keep) == [w] + Runs(rest, keep)
  {
    var t := SkipGap(s, keep);
    w := TakeWhile(t, keep);
    assert keep(t[0]);
    rest := t[|w|..];
    PrefixThenRest(t, w);
  }

  lemma PrefixThenRest(t: string, w: string)
    requires w <= t
    ensures t == w + t[|w|..]
  {
  }

  lemma {:induction false} RunsAreRuns(s: string, keep: char -> bool)
    ensures AllRuns(Runs(s, keep), keep)
    decreases |s|
  {
    if SkipGap(s, keep) != [] {
      var w, rest := RunsUnfold(s, keep);
      RunsAreRuns(rest, keep);
      assert ([w] + Runs(rest, keep))[1..] == Runs(rest, keep);
    }
  }

  /** The runs hold exactly the accepted characters of `s`, in order. */
  lemma {:induction false} RunsContent(s: string, keep: char -> bool)
    ensures Concat(Runs(s, keep)) == Select(s, keep)
    decreases |s|
  {
    SelectGap(s, keep);
    if SkipGap(s, keep) == [] {
      assert Runs(s, keep) == [];
    } else {
      var w, rest := RunsUnfold(s, keep);
      RunsContent(rest, keep);
      assert ([w] + Runs(rest, keep))[1..] == Runs(rest, keep);
      assert Concat(Runs(s, keep)) == w + Concat(Runs(rest, keep));
      SelectConcat(w, rest, keep);
      SelectAll(w, keep);
    }
  }

  /** Skipping the gap loses no accepted character. */
  lemma SelectGap(s: string, keep: char -> bool)
    ensures Select(SkipGap(s, keep), keep) == Select(s, keep)
  {
    var t := SkipGap(s, keep);
    var g := s[..|s| - |t|];
    assert s == g + t;
    SelectConcat(g, t, keep);
    SelectNone(g, keep);
  }

  /** Joining runs with a separator of rejected characters adds no accepted
      character. */
  lemma {:induction false} JoinSelect(ws: seq<string>, sep: string, keep: char -> bool)
    requires AllRuns(ws, keep)
    requires forall i :: 0 <= i < |sep| ==> !keep(sep[i])
    ensures Select(Join(ws, sep), keep) == Concat(ws)
    decreases |ws|
  {
    if |ws| == 1 {
      SelectAll(ws[0], keep);
      assert Concat(ws) == ws[0] + Concat([]);
    } else if |ws| >= 2 {
      JoinSelect(ws[1..], sep, keep);
      SelectNone(sep, keep);
      SelectAll(ws[0], keep);
      SelectConcat(ws[0], sep, keep);
      SelectConcat(ws[0] + sep, Join(ws[1..], sep), keep);
    }
  }

  /** Joined runs begin and end with an accepted character. */
  lemma {:induction false} JoinRunsEnds(ws: seq<string>, sep: string, keep: char -> bool)
    requires AllRuns(ws, keep)
    ensures var j := Join(ws, sep); ws != [] ==> j != [] && keep(j[0]) && keep(j[|j| - 1])
    decreases |ws|
  {
    if |ws| >= 2 {
      JoinRunsEnds(ws[1..], sep, keep);
    }
  }

  /** Between two runs stands exactly one separator of one rejected
      character: every character of the joined text is accepted or is the
      separator, and no two separators are adjacent. */
  lemma {:induction false} JoinRunsShape(ws: seq<string>, c: char, keep: char -> bool)
    requires AllRuns(ws, keep) && !keep(c)
    ensures var j := Join(ws, [c]);
            && (forall i :: 0 <= i < |j| ==> keep(j[i]) || j[i] == c)
            && (forall i :: 0 <= i < |j| - 1 ==> !(j[i] == c && j[i + 1] == c))
    decreases |ws|
  {
    if |ws| >= 2 {
      var rest := Join(ws[1..], [c]);
      JoinRunsShape(ws[1..], c, keep);
      JoinRunsEnds(ws[1..], [c], keep);
      var j := ws[0] + [c] + rest;
      assert Join(ws, [c]) == j;
      forall i | 0 <= i < |j|
        ensures keep(j[i]) || j[i] == c
      {
        if i > |ws[0]| {
          assert j[i] == rest[i - |ws[0]| - 1];
        }
      }
      forall i | 0 <= i < |j| - 1
        ensures !(j[i] == c && j[i + 1] == c)
      {
        if i > |ws[0]| {
          assert j[i] == rest[i - |ws[0]| - 1] && j[i + 1] == rest[i - |ws[0]|];
        } else if i == |ws[0]| {
          assert j[i + 1] == rest[0];
        }
      }
    }
  }

  /** Joining non-empty runs without the separator and splitting them again
      gives them back. */
  lemma {:induction false} RunsOfJoin(ws: seq<string>, c: char, keep: char -> bool)
    requires AllRuns(ws, keep) && !keep(c)
    ensures Runs(Join(ws, [c]), keep) == ws
    decreases |ws|
  {
    if ws == [] {
    } else {
      var w := ws[0];
      var j := Join(ws, [c]);
      if |ws| == 1 {
        assert j == w + [];
        TakeWhileAll(w, keep);
        assert j[|w|..] == [];
      } else {
        var rest := Join(ws[1..], [c]);
        assert j == w + ([c] + rest);
        TakeWhileStop([c] + rest, keep);
        TakeWhileAppend(w, [c] + rest, keep);
        assert w + [] == w;
        assert j[|w|..] == [c] + rest;
        assert SkipGap([c] + rest, keep) == SkipGap(rest, keep) by {
          assert ([c] + rest)[1..] == rest;
          JoinRunsEnds(ws[1..], [c], keep);
        }
        RunsOfJoin(ws[1..], c, keep);
        assert Runs(rest, keep) == ws[1..];
        assert Runs(j[|w|..], keep) == Runs(rest, keep) by {
          JoinRunsEnds(ws[1..], [c], keep);
          assert SkipGap(rest, keep) == rest;
        }
      }
    }
  }

  // ---------------------------------------------------------------------------
  // `' '.join(line.split())`
  // ---------------------------------------------------------------------------

  /** Python's `line.split()`. */
  function SplitWords(line: string): seq<string> {
    Runs(line, NotSpace)
  }

  /** `' '.join(line.split())`: the words of the line separated by single
      spaces.  It keeps every non-whitespace character, in order, and leaves
      no whitespace at either end. */
  function NormalizeSpaces(line: string): (r: string)
    ensures Select(r, NotSpace) == Select(line, NotSpace)
    ensures r == [] || (!IsSpace(r[0]) && !IsSpace(r[|r| - 1]))
  {
    JoinWordsContent(line);
    JoinWordsEnds(line);
    Join(SplitWords(line), " ")
  }

  lemma JoinWordsContent(line: string)
    ensures Select(Join(SplitWords(line), " "), NotSpace) == Select(line, NotSpace)
  {
    var ws := SplitWords(line);
    RunsAreRuns(line, NotSpace);
    JoinSelect(ws, " ", NotSpace);
    RunsContent(line, NotSpace);
  }

  lemma JoinWordsEnds(line: string)
    ensures var r := Join(SplitWords(line), " ");
            r == [] || (!IsSpace(r[0]) && !IsSpace(r[|r| - 1]))
  {
    var ws := SplitWords(line);
    RunsAreRuns(line, NotSpace);
    if ws != [] {
      JoinRunsEnds(ws, " ", NotSpace);
    }
  }

  /** The only whitespace `NormalizeSpaces` leaves is a single space between
      two words. */
  lemma NormalizeSpacesShape(line: string)
    ensures var r := NormalizeSpaces(line);
            && (forall i :: 0 <= i < |r| ==> NotSpace(r[i]) || r[i] == ' ')
            && (forall i :: 0 <= i < |r| - 1 ==> !(r[i] == ' ' && r[i + 1] == ' '))
  {
    RunsAreRuns(line, NotSpace);
    JoinRunsShape(SplitWords(line), ' ', NotSpace);
    assert NormalizeSpaces(line) == Join(SplitWords(line), [' ']);
  }

  /** Normalising twice is normalising once. */
  lemma NormalizeSpacesIdempotent(line: string)
    ensures NormalizeSpaces(NormalizeSpaces(line)) == NormalizeSpaces(line)
  {
    var ws := SplitWords(line);
    RunsAreRuns(line, NotSpace);
    RunsOfJoin(ws, ' ', NotSpace);
  }
}

=== FILE: wpchapter.dfy ===
/** The chapter side of the WordPress adapter: the chapter links of a story
    page, the chapter-title trimming, the content clean-up and the
    password-form check of `get_chapter_content`. */
module WordPressChapter {
  import opened Wrappers
  import opened Text
  import opened Numbers
  import opened Words
  import opened Cleanup
  import opened ChapterLists
  import opened WordPress

  // ---------------------------------------------------------------------------
  // Chapter links of a story page
  // ---------------------------------------------------------------------------

  /** The href words that mark a chapter link. */
  const ChapterWords: seq<string> := ["chuong-", "chapter-", "chap-"]

  /** `re.search(r'(\d+)', text)` finds something. */
  predicate HasDigit(text: string) {
    exists i :: 0 <= i < |text| && IsAsciiDigit(text[i])
  }

  /** A link of the entry content is a chapter when its lower-cased href holds
      one of the chapter words and either its text has a digit or its href
      says `chuong`. */
  predicate IsWpChapterAnchor(a: Anchor) {
    var h := Lower(a.href);
    SomeFound(h, ChapterWords) && (HasDigit(a.text) || Contains(h, "chuong"))
  }

  /** The title given to an untitled chapter link, numbered from one by its
      place in the list built so far. */
  function Placeholder(n: nat): string {
    "Ch\U{1B0}\U{1A1}ng " + NatToString(n)
  }

  /** The loop of `get_story_info` over the entry-content links: the href is
      kept as written, and an empty title becomes the placeholder for the
      chapter's position. */
  function WpChapters(anchors: seq<Anchor>): (r: seq<ChapterLink>)
    ensures |r| <= |anchors|
    decreases |anchors|
  {
    if anchors == [] then []
    else
      var init := WpChapters(anchors[..|anchors| - 1]);
      var a := anchors[|anchors| - 1];
      if IsWpChapterAnchor(a) then
        init + [LinkOfAnchor(a, |init|)]
      else init
  }

  /** The chapter anchors, in page order. */
  function WpChapterAnchors(anchors: seq<Anchor>): seq<Anchor> {
    FilterMap(anchors, IsWpChapterAnchor, (a: Anchor) => a)
  }

  /** The i-th chapter comes from the i-th chapter anchor: its href, and its
      text or, when that is empty, the placeholder numbered i + 1. */
  lemma {:induction false} WpChaptersAreAnchors(anchors: seq<Anchor>)
    ensures LinksOfAnchors(WpChapters(anchors), WpChapterAnchors(anchors))
    decreases |anchors|
  {
    if anchors != [] {
      var n := |anchors|;
      var init := anchors[..n - 1];
      var a := anchors[n - 1];
      WpChaptersAreAnchors(init);
      assert anchors == init + [a];
      WpChapterAnchorsSnoc(init, a);
      if IsWpChapterAnchor(a) {
        LinksOfAnchorsSnoc(WpChapters(init), WpChapterAnchors(init), a);
      }
    }
  }

  /** The i-th link is the i-th anchor's href, with its text or, when that is
      empty, the placeholder numbered i + 1. */
  predicate LinksOfAnchors(r: seq<ChapterLink>, kept: seq<Anchor>) {
    && |r| == |kept|
    && forall i :: 0 <= i < |r| ==> r[i] == LinkOfAnchor(kept[i], i)
  }

  /** The link made from the anchor at place i. */
  function LinkOfAnchor(a: Anchor, i: nat): ChapterLink {
    ChapterLink(a.href, if a.text != "" then a.text else Placeholder(i + 1))
  }

  lemma LinksOfAnchorsSnoc(r: seq<ChapterLink>, kept: seq<Anchor>, a: Anchor)
    requires LinksOfAnchors(r, kept)
    ensures LinksOfAnchors(r + [LinkOfAnchor(a, |r|)], kept + [a])
  {
    var r', kept' := r + [LinkOfAnchor(a, |r|)], kept + [a];
    forall i | 0 <= i < |r'|
      ensures r'[i] == LinkOfAnchor(kept'[i], i)
    {
      if i < |r| {
        assert r'[i] == r[i] && kept'[i] == kept[i];
      }
    }
  }

  /** Adding a link at the end adds it to the chapter anchors when it is one. */
  lemma WpChapterAnchorsSnoc(init: seq<Anchor>, a: Anchor)
    ensures WpChapterAnchors(init + [a])
         == WpChapterAnchors(init) + (if IsWpChapterAnchor(a) then [a] else [])
  {
    FilterMapConcat(init, [a], IsWpChapterAnchor, (x: Anchor) => x);
    assert FilterMap([a], IsWpChapterAnchor, (x: Anchor) => x)
        == (if IsWpChapterAnchor(a) then [a] else []) + FilterMap([a][1..], IsWpChapterAnchor, (x: Anchor) => x);
  }

  /** A link whose href holds `chuong-` is a chapter whatever its text. */
  lemma ChuongLinkIsChapter(a: Anchor)
    requires Contains(Lower(a.href), "chuong-")
    ensures IsWpChapterAnchor(a)
  {
    var h := Lower(a.href);
    assert Contains(h, ChapterWords[0]);
    assert OccursAt("chuong-", "chuong", 0);
    ContainsAt("chuong-", "chuong", 0);
    ContainsTrans(h, "chuong-", "chuong");
  }

  /** A link whose href holds no chapter word is never a chapter. */
  lemma NoChapterWord(a: Anchor)
    requires forall k :: 0 <= k < |ChapterWords| ==> !Contains(Lower(a.href), ChapterWords[k])
    ensures !IsWpChapterAnchor(a)
  {
  }

  // ---------------------------------------------------------------------------
  // The chapter title
  // ---------------------------------------------------------------------------

  /** The privacy marker WordPress puts in front of a private post's title. */
  const PrivatePrefix := "Ri\U{EA}ng T\U{1B0}:"

  /** The en dash WordPress themes put between story and chapter. */
  const EnDash := "\U{2013}"

  /** The fallback separator. */
  const SpacedHyphen := " - "

  /** `s.split(sep)[-1]`: the text after the last separator, or all of `s`. */
  function LastPart(s: string, sep: string): (r: string)
    requires |sep| > 0
    ensures !Contains(r, sep)
    ensures !Contains(s, sep) ==> r == s
  {
    var parts := SplitOn(s, sep);
    assert |parts| == 1 ==> Join(parts, sep) == parts[0];
    parts[|parts| - 1]
  }

  /** With a separator in `s`, the last part is what follows its last
      occurrence. */
  lemma LastPartEnds(s: string, sep: string)
    requires |sep| > 0 && Contains(s, sep)
    ensures EndsWith(s, sep + LastPart(s, sep))
  {
    var parts := SplitOn(s, sep);
    var last := LastPart(s, sep);
    assert last == parts[|parts| - 1];
    assert EndsWith(s, sep + last) by {
      LastPartFollowsSeparator(s, sep, parts);
    }
  }

  /** The heading without the privacy marker: every occurrence of the marker
      removed and the rest stripped, when the heading starts with it. */
  function Deprivate(full: string): (r: string)
    ensures StartsWith(full, PrivatePrefix) ==> IsStripped(r)
    ensures !StartsWith(full, PrivatePrefix) ==> r == full
  {
    if StartsWith(full, PrivatePrefix) then Strip(ReplaceAll(full, PrivatePrefix, "")) else full
  }

  /** The chapter part of a heading: the stripped text after the last en dash,
      else after the last ` - `, else the heading itself. */
  function SplitTitle(t: string): (r: string)
    ensures Contains(t, EnDash) ==> IsStripped(r) && !Contains(r, EnDash)
    ensures !Contains(t, EnDash) && Contains(t, SpacedHyphen) ==> IsStripped(r) && !Contains(r, SpacedHyphen)
    ensures !Contains(t, EnDash) && !Contains(t, SpacedHyphen) ==> r == t
  {
    if Contains(t, EnDash) then
      LastPartStripped(t, EnDash);
      Strip(LastPart(t, EnDash))
    else if Contains(t, SpacedHyphen) then
      LastPartStripped(t, SpacedHyphen);
      Strip(LastPart(t, SpacedHyphen))
    else t
  }

  /** The stripped last part holds no separator and has nothing to strip. */
  lemma LastPartStripped(t: string, sep: string)
    requires |sep| > 0
    ensures var r := Strip(LastPart(t, sep)); IsStripped(r) && !Contains(r, sep)
  {
    StripKeepsAbsent(LastPart(t, sep), sep);
  }

  /** The chapter title of `get_chapter_content` from the text of the
      `entry-title` (or `post-title`) heading; empty without a heading. */
  function ChapterTitle(heading: Option<string>): (r: string)
    ensures heading.None? ==> r == ""
    ensures heading.Some? ==> r == SplitTitle(Deprivate(heading.value))
  {
    match heading
    case None => ""
    case Some(full) => SplitTitle(Deprivate(full))
  }

  /** Cutting at the last occurrence of a one-character separator. */
  lemma LastPartAfter(a: string, sep: string, b: string)
    requires |sep| == 1 && !Contains(b, sep)
    ensures LastPart(a + sep + b, sep) == b
  {
    var pa := SplitOn(a, sep);
    JoinSnoc(pa, b, sep);
    assert forall k :: 0 <= k < |pa + [b]| ==> !Contains((pa + [b])[k], sep) by {
      forall k | 0 <= k < |pa + [b]|
        ensures !Contains((pa + [b])[k], sep)
      {
        if k < |pa| {
          assert (pa + [b])[k] == pa[k];
        }
      }
    }
    SplitJoin(pa + [b], sep);
  }

  /** A leading space is stripped from stripped text. */
  lemma StripLeadingSpace(c: string)
    requires c != [] && IsStripped(c)
    ensures Strip(" " + c) == c
  {
    var s := " " + c;
    assert s[1..1 + |c|] == c;
    TrimUnique(s, c, 1, IsSpace);
  }

  /** The chapter part of `story – chapter` is the chapter, whatever the story
      name holds. */
  lemma SplitTitleEnDash(story: string, chapter: string)
    requires chapter != [] && IsStripped(chapter)
    requires forall i :: 0 <= i < |chapter| ==> chapter[i] != '\U{2013}'
    ensures SplitTitle(story + " " + EnDash + " " + chapter) == chapter
  {
    var t := story + " " + EnDash + " " + chapter;
    var b := " " + chapter;
    assert t == (story + " ") + EnDash + b;
    assert OccursAt(t, EnDash, |story| + 1);
    ContainsAt(t, EnDash, |story| + 1);
    assert forall i :: 0 <= i < |b| ==> b[i] != '\U{2013}' by {
      forall i | 0 <= i < |b|
        ensures b[i] != '\U{2013}'
      {
        if i > 0 {
          assert b[i] == chapter[i - 1];
        }
      }
    }
    NotContainsChar(b, '\U{2013}');
    LastPartAfter(story + " ", EnDash, b);
    StripLeadingSpace(chapter);
  }

  /** `Story – Chapter 10` gives `Chapter 10`. */
  lemma TitleAfterEnDash(story: string, chapter: string)
    requires chapter != [] && IsStripped(chapter)
    requires forall i :: 0 <= i < |chapter| ==> chapter[i] != '\U{2013}'
    requires !StartsWith(story + " " + EnDash + " " + chapter, PrivatePrefix)
    ensures ChapterTitle(Some(story + " " + EnDash + " " + chapter)) == chapter
  {
    SplitTitleEnDash(story, chapter);
  }

  /** Removing a marker that occurs only at the front leaves the rest. */
  lemma ReplaceLeading(prefix: string, rest: string)
    requires |prefix| > 0 && !Contains(rest, prefix)
    ensures ReplaceAll(prefix + rest, prefix, "") == rest
  {
    var s := prefix + rest;
    assert OccursAt(s, prefix, 0);
    assert IndexOf(s, prefix) == Some(0);
    assert s[|prefix|..] == rest;
    assert SplitOn(s, prefix) == [[]] + SplitOn(rest, prefix);
    assert SplitOn(rest, prefix) == [rest];
    assert Join([[], rest], "") == [] + "" + Join([rest], "");
  }

  /** `Riêng Tư: Story – Chapter 1` gives `Chapter 1` when the marker occurs
      only at the front. */
  lemma PrivateTitle(story: string, chapter: string)
    requires story != [] && IsStripped(story)
    requires chapter != [] && IsStripped(chapter)
    requires forall i :: 0 <= i < |chapter| ==> chapter[i] != '\U{2013}'
    requires !Contains(" " + story + " " + EnDash + " " + chapter, PrivatePrefix)
    ensures ChapterTitle(Some(PrivatePrefix + " " + story + " " + EnDash + " " + chapter)) == chapter
  {
    var t := story + " " + EnDash + " " + chapter;
    var rest := " " + t;
    var h := PrivatePrefix + " " + story + " " + EnDash + " " + chapter;
    assert h == PrivatePrefix + rest && rest == " " + story + " " + EnDash + " " + chapter by {
      Regroup(PrivatePrefix, story, EnDash, chapter);
    }
    assert StartsWith(h, PrivatePrefix);
    assert Deprivate(h) == t by {
      ReplaceLeading(PrivatePrefix, rest);
      StrippedTitle(story, chapter);
      StripLeadingSpace(t);
    }
    assert SplitTitle(t) == chapter by {
      SplitTitleEnDash(story, chapter);
    }
  }

  lemma Regroup(p: string, story: string, dash: string, chapter: string)
    ensures p + " " + story + " " + dash + " " + chapter == p + (" " + (story + " " + dash + " " + chapter))
    ensures " " + story + " " + dash + " " + chapter == " " + (story + " " + dash + " " + chapter)
  {
  }

  lemma StrippedTitle(story: string, chapter: string)
    requires story != [] && IsStripped(story)
    requires chapter != [] && IsStripped(chapter)
    ensures var t := story + " " + EnDash + " " + chapter;
            t != [] && IsStripped(t)
  {
    var t := story + " " + EnDash + " " + chapter;
    assert t[0] == story[0];
    assert t[|t| - 1] == chapter[|chapter| - 1];
  }

  // ---------------------------------------------------------------------------
  // The chapter content
  // ---------------------------------------------------------------------------

  /** A block whose lower-cased text holds one of these is navigation. */
  const SkipMarkers: seq<string> := [
    "\U{2190} ",
    "ch\U{1B0}\U{1A1}ng tr\U{1B0}\U{1EDB}c",
    "ch\U{1B0}\U{1A1}ng sau",
    "navigation"
  ]

  predicate IsNavigation(text: string) {
    SomeFound(Lower(text), SkipMarkers)
  }

  /** A cleaned line: non-empty, no whitespace at either end, and only single
      spaces between its words. */
  predicate CleanLine(l: string) {
    && l != [] && IsStripped(l)
    && (forall i :: 0 <= i < |l| ==> NotSpace(l[i]) || l[i] == ' ')
    && (forall i :: 0 <= i < |l| - 1 ==> !(l[i] == ' ' && l[i + 1] == ' '))
  }

  /** Each line with its words separated by single spaces; the lines left
      empty are dropped. */
  function CleanLines(lines: seq<string>): (r: seq<string>)
    ensures forall k :: 0 <= k < |r| ==> CleanLine(r[k])
    decreases |lines|
  {
    if lines == [] then []
    else
      var c := NormalizeSpaces(lines[0]);
      var rest := CleanLines(lines[1..]);
      NormalizeSpacesShape(lines[0]);
      if c != [] then [c] + rest else rest
  }

  /** Cleaning the lines keeps every non-whitespace character, in order. */
  lemma {:induction false} CleanLinesContent(lines: seq<string>)
    ensures NonSpaceOf(CleanLines(lines)) == NonSpaceOf(lines)
    decreases |lines|
  {
    if lines != [] {
      var c := NormalizeSpaces(lines[0]);
      var rest := CleanLines(lines[1..]);
      CleanLinesContent(lines[1..]);
      if c != [] {
        assert ([c] + rest)[1..] == rest;
      }
    }
  }

  /** A cleaned line is a tidy piece with no newline. */
  lemma CleanLineTidy(l: string)
    requires CleanLine(l)
    ensures TidyPiece(l) && NoTripleNewline(l) && l[0] != '\n' && l[|l| - 1] != '\n'
  {
    assert forall i :: 0 <= i < |l| ==> l[i] != '\n' && l[i] != '\t';
  }

  /** A block of the entry content after clean-up: non-empty, tidy, never two
      newlines in a row at its ends, and holding exactly the non-whitespace
      characters of `text`. */
  predicate CleanBlock(b: string, text: string) {
    && b != [] && IsStripped(b) && Tidy(b) && NoTripleNewline(b)
    && Select(b, NotSpace) == Select(text, NotSpace)
  }

  /** One direct `<p>`/`<div>` child of the entry content: skipped when its
      text is empty or navigation, else its lines cleaned and joined by
      newlines, and skipped when no line is left. */
  function BlockText(text: string): (r: Option<string>)
    ensures r.None? <==> IsNavigation(text) || Select(text, NotSpace) == []
    ensures r.Some? ==> CleanBlock(r.value, text)
  {
    if text == [] || IsNavigation(text) then None
    else
      var ls := CleanLines(SplitOn(text, "\n"));
      BlockEmpty(text);
      if ls == [] then None else BlockClean(text); Some(Join(ls, "\n"))
  }

  /** No line is left exactly when the text is all whitespace. */
  lemma BlockEmpty(text: string)
    ensures CleanLines(SplitOn(text, "\n")) == [] <==> Select(text, NotSpace) == []
  {
    var ls := CleanLines(SplitOn(text, "\n"));
    LinesContent(text);
    if ls != [] {
      LinesNonEmpty(ls);
    }
  }

  /** The lines left form a clean block of the text. */
  lemma BlockClean(text: string)
    requires CleanLines(SplitOn(text, "\n")) != []
    ensures CleanBlock(Join(CleanLines(SplitOn(text, "\n")), "\n"), text)
  {
    var ls := CleanLines(SplitOn(text, "\n"));
    LinesContent(text);
    BlockOfLines(ls, text);
  }

  lemma BlockOfLines(ls: seq<string>, text: string)
    requires ls != [] && forall k :: 0 <= k < |ls| ==> CleanLine(ls[k])
    requires NonSpaceOf(ls) == Select(text, NotSpace)
    ensures CleanBlock(Join(ls, "\n"), text)
  {
    LinesBlock(ls);
    JoinContent(ls, "\n");
  }

  /** The cleaned lines of a text hold its non-whitespace characters. */
  lemma LinesContent(text: string)
    ensures NonSpaceOf(CleanLines(SplitOn(text, "\n"))) == Select(text, NotSpace)
  {
    var parts := SplitOn(text, "\n");
    assert Join(parts, "\n") == text;
    assert NonSpaceOf(parts) == Select(text, NotSpace) by {
      JoinContent(parts, "\n");
    }
    assert NonSpaceOf(CleanLines(parts)) == NonSpaceOf(parts) by {
      CleanLinesContent(parts);
    }
  }

  lemma LinesNonEmpty(ls: seq<string>)
    requires ls != [] && forall k :: 0 <= k < |ls| ==> CleanLine(ls[k])
    ensures NonSpaceOf(ls) != []
  {
    assert CleanLine(ls[0]);
    SelectNonEmpty(ls[0]);
  }

  /** A stripped non-empty line has a non-whitespace character. */
  lemma SelectNonEmpty(l: string)
    requires l != [] && IsStripped(l)
    ensures Select(l, NotSpace) != []
  {
    assert l == [l[0]] + l[1..];
    SelectConcat([l[0]], l[1..], NotSpace);
  }

  /** Cleaned lines joined by newlines form a tidy block with no whitespace
      at its ends. */
  lemma LinesBlock(ls: seq<string>)
    requires ls != [] && forall k :: 0 <= k < |ls| ==> CleanLine(ls[k])
    ensures var b := Join(ls, "\n");
            b != [] && IsStripped(b) && Tidy(b) && NoTripleNewline(b)
  {
    forall k | 0 <= k < |ls|
      ensures TidyPiece(ls[k]) && NoTripleNewline(ls[k]) && ls[k][0] != '\n' && ls[k][|ls[k]| - 1] != '\n'
    {
      CleanLineTidy(ls[k]);
    }
    AllTidyPieces(ls);
    JoinTidy(ls, "\n");
    JoinNoTriple(ls, "\n");
    JoinEnds(ls, "\n");
  }

  /** The non-empty blocks of the entry content, in order. */
  function Blocks(texts: seq<string>): (bs: seq<string>)
    ensures |bs| <= |texts|
    decreases |texts|
  {
    if texts == [] then []
    else
      var rest := Blocks(texts[1..]);
      match BlockText(texts[0])
      case None => rest
      case Some(b) => [b] + rest
  }

  /** The texts that are neither navigation nor blank. */
  predicate Shown(text: string) {
    !IsNavigation(text) && Select(text, NotSpace) != []
  }

  /** The shown texts, in order. */
  function ShownTexts(texts: seq<string>): seq<string> {
    FilterMap(texts, Shown, Identity)
  }

  /** A block as the entry content needs it. */
  predicate BlockPiece(b: string) {
    b != [] && IsStripped(b) && Tidy(b) && NoTripleNewline(b)
  }

  /** Every block is clean. */
  predicate AllBlocks(bs: seq<string>)
    decreases |bs|
  {
    bs == [] || (BlockPiece(bs[0]) && AllBlocks(bs[1..]))
  }

  lemma {:induction false} AllBlocksPieces(bs: seq<string>)
    requires AllBlocks(bs)
    ensures forall k :: 0 <= k < |bs| ==> BlockPiece(bs[k])
    decreases |bs|
  {
    if bs != [] {
      AllBlocksPieces(bs[1..]);
      assert forall k :: 1 <= k < |bs| ==> bs[k] == bs[1..][k - 1];
    }
  }

  lemma {:induction false} BlocksClean(texts: seq<string>)
    ensures AllBlocks(Blocks(texts))
    decreases |texts|
  {
    if texts != [] {
      var rest := Blocks(texts[1..]);
      BlocksClean(texts[1..]);
      match BlockText(texts[0])
      case None =>
      case Some(b) =>
        assert ([b] + rest)[1..] == rest;
    }
  }

  /** The blocks hold exactly the non-whitespace characters of the shown
      texts, in order. */
  lemma {:induction false} BlocksContent(texts: seq<string>)
    ensures NonSpaceOf(Blocks(texts)) == NonSpaceOf(ShownTexts(texts))
    decreases |texts|
  {
    if texts != [] {
      var rest := Blocks(texts[1..]);
      var tail := ShownTexts(texts[1..]);
      BlocksContent(texts[1..]);
      assert ShownTexts(texts) == (if Shown(texts[0]) then [texts[0]] else []) + tail;
      match BlockText(texts[0])
      case None =>
        assert ShownTexts(texts) == tail;
      case Some(b) =>
        assert ([b] + rest)[1..] == rest;
        assert ShownTexts(texts) == [texts[0]] + tail;
        assert ([texts[0]] + tail)[1..] == tail;
    }
  }

  /** The text of the entry content, or empty when the page has none: the
      blocks separated by a blank line, with runs of three or more newlines
      cut to two and the ends stripped. */
  function EntryContent(entry: Option<seq<string>>): string {
    match entry
    case None => ""
    case Some(texts) => Strip(CapNewlines(Join(Blocks(texts), "\n\n")))
  }

  /** The final clean-up of the entry content changes nothing: the content
      is exactly the blocks joined by blank lines, it is tidy, and it holds
      the non-whitespace characters of the shown texts. */
  lemma EntryContentFacts(texts: seq<string>)
    ensures var bs := Blocks(texts);
            var c := EntryContent(Some(texts));
            && c == Join(bs, "\n\n")
            && Tidy(c) && NoTripleNewline(c)
            && Select(c, NotSpace) == NonSpaceOf(ShownTexts(texts))
  {
    var bs := Blocks(texts);
    var j := Join(bs, "\n\n");
    BlocksClean(texts);
    AllBlocksPieces(bs);
    BlocksContent(texts);
    forall k | 0 <= k < |bs|
      ensures TidyPiece(bs[k]) && bs[k][0] != '\n' && bs[k][|bs[k]| - 1] != '\n'
    {
      assert BlockPiece(bs[k]);
    }
    AllTidyPieces(bs);
    JoinTidy(bs, "\n\n");
    JoinNoTriple(bs, "\n\n");
    JoinContent(bs, "\n\n");
    CapNoop(j);
    if bs != [] {
      JoinEnds(bs, "\n\n");
    }
    StripStripped(j);
  }

  // ---------------------------------------------------------------------------
  // The password-form check
  // ---------------------------------------------------------------------------

  /** What `get_chapter_content` reads off the fetched page: whether it holds
      a `post-password-form`, the heading text, and the texts of the entry
      content's direct `<p>`/`<div>` children (after the scripts, sharing
      boxes, navigation and GIFs are removed), when there is an entry. */
  datatype WpPage = WpPage(passwordForm: bool, heading: Option<string>, entry: Option<seq<string>>)

  /** Why no chapter came back. */
  datatype WpError =
    | PasswordRequired(url: string)
    | WrongPassword(url: string)
    | NoPage(url: string)

  /** The text of the `ValueError`; a missing page fails inside the HTML
      parser, whose message is not part of this model. */
  function ErrorMessage(e: WpError): Option<string> {
    match e
    case PasswordRequired(url) => Some("Chapter is password protected: " + url + "\nPlease provide a password.")
    case WrongPassword(url) => Some("Incorrect password for chapter: " + url)
    case NoPage(_) => None
  }

  /** `not self.password`: no password, or the empty one. */
  predicate NoPassword(password: Option<string>) {
    password.None? || password.value == ""
  }

  /** `get_chapter_content`.  A password form on the page always ends in an
      error, whose kind says whether a password was given; a missing page is
      an error too; otherwise the chapter is the trimmed title and the
      cleaned entry content. */
  function WpChapterContent(url: string, page: Option<WpPage>, password: Option<string>): (r: Result<Chapter, WpError>)
    ensures r.Success? <==> page.Some? && !page.value.passwordForm
    ensures page.None? ==> r == Failure(NoPage(url))
    ensures page.Some? && page.value.passwordForm ==>
              r == Failure(if NoPassword(password) then PasswordRequired(url) else WrongPassword(url))
    ensures r.Success? ==> r.value.title == ChapterTitle(page.value.heading)
    ensures r.Success? ==> Tidy(r.value.content) && NoTripleNewline(r.value.content)
    ensures r.Success? && page.value.entry.None? ==> r.value.content == ""
  {
    match page
    case None => Failure(NoPage(url))
    case Some(p) =>
      if p.passwordForm then
        Failure(if NoPassword(password) then PasswordRequired(url) else WrongPassword(url))
      else
        EntryTidy(p.entry);
        Success(Chapter(ChapterTitle(p.heading), EntryContent(p.entry)))
  }

  lemma EntryTidy(entry: Option<seq<string>>)
    ensures Tidy(EntryContent(entry)) && NoTripleNewline(EntryContent(entry))
  {
    if entry.Some? {
      EntryContentFacts(entry.value);
    }
  }

  /** No password-protected page ever yields content, whatever the password. */
  lemma PasswordFormNeverYields(url: string, page: WpPage, password: Option<string>)
    requires page.passwordForm
    ensures WpChapterContent(url, Some(page), password).Failure?
    ensures var e := WpChapterContent(url, Some(page), password).error;
            e.PasswordRequired? <==> NoPassword(password)
  {
  }
}

=== FILE: wrappers.dfy ===
/** Failure-compatible wrappers shared by every module of the model. */
module Wrappers {

  /** A value that may be absent: Python's `None` versus a present value. */
  datatype Option<+T> = None | Some(value: T) {

    /** Returns the wrapped value, or `default` when absent. */
    function GetOr(default: T): T {
      match this
      case Some(v) => v
      case None => default
    }
  }

  /** The outcome of an operation that can raise: a value, or the error it raised. */
  datatype Result<+R, +E> = Success(value: R) | Failure(error: E)
}
